=== FILE: README.md ===
# Snowflake.Data.Xt command builder and materializer, in Dafny

Snowflake.Data.Xt turns an attributed C# class into a Snowflake `SELECT`
statement and reads the rows of the answer back into instances of that class.

- `[SnowflakeTable]`, `[SnowflakeColumn]` and `[SnowflakeJoin]` attributes describe
  where a class's properties come from.
- The `SnowflakeCommand<T>` constructor turns them into a builder text of the form
  `SELECT a.COL, … FROM db.schema.TABLE AS a [TYPE JOIN … AS b ON …]`. It also
  builds the whitelist of `alias.column` names the free-text clauses are checked
  against.
- The fluent modifiers `Where`, `Select`, `GroupBy`, `Having`, `OrderBy`,
  `OrderByAsc`, `OrderByDesc`, `Limit`, `Top` and `IsDistinct` each extend or
  rewrite that text.
- `Where(predicate)` walks the lambda's expression tree. Every captured value
  becomes a positional parameter whose `DbType` comes from the type map.
- On the reading side, `FirstOrDefault` and `ToList` over a data reader create an
  entity per row and assign each attributed, writable property from its column.
  `SetPropertyValue` dispatches on the property's type.

The model is functional:

- A command is a `Command` value: an immutable `Descriptor` (the table, the
  joins, the properties with their `alias.column`, the column list), the
  builder text, and the parameter list.
- Every modifier is a pure function from a command to
  `Result<Command, Error>`. A failure is the exception the method throws.
- `Sql` is the trimmed builder, as in the source. The guards test `Sql`; the
  replacements act on the raw builder.
- Expression trees are an explicit `Expr` datatype, printed the way .NET's
  `Expression.ToString()` prints binary nodes, calls and lambdas.
- A data reader is a sequence of rows. Each row maps column names to a cell
  that is either `DBNull` or a value.

Modules, in dependency order:

- `Wrappers`: `Option` and `Result`.
- `Text`: ordinal `Contains`, `Replace`, `Trim`, `Split`, `Join`, and number printing.
- `Errors`: the exceptions the source throws.
- `Attributes`: the three attribute classes.
- `TypeMap`: the `Type` to `DbType` dictionary.
- `Command`: the constructor, the whitelist, and the helpers the clauses share.
- `SelectHead`: lemmas about the opening `SELECT` words.
- `DistinctClause`, `TopClause`, `LimitClause` and `HavingClause`: one module per clause.
- `Expressions`, `Walk` and `WhereClause`: `Where`.
- `Projection`: the selector text shared by `Select`, `GroupBy` and `OrderBy`.
- `Replacement`: lemmas about `Replace` passes.
- `SelectClause`, `GroupByClause` and `OrderByClause`.
- `Materializer`: `DbDataReaderExtensions`.

Where the documentation of the repository and its code disagree, the model follows the code:

- The text forms of `GroupBy` and `OrderBy` are documented as taking properties.
  The code accepts exactly one whitelisted property, so that is what the model
  accepts.
- `Select` is documented as replacing the column list. The code replaces every
  occurrence of the column text in the builder, so the model does too.

For each defect listed under "## Findings", the model has two versions of the affected operation.
`WherePredicate`, `FirstOrDefault` and `ToList` model the code as written. `WherePredicateCorrected`,
`FirstOrDefaultCorrected` and `ToListCorrected` model the intended behaviour. For `OrderBy(string)`,
the as-written form is `OrderByStringAsWritten` and the intended one is `OrderByString`.

## Model

| member | source | states |
|---|---|---|
| Attributes.NewTable | src/Attributes/SnowflakeTableAttribute.cs:21-25 | a missing table name reads as empty (so the name is blank exactly when the argument is null or white space); the alias is kept as given |
| Attributes.NewColumn | src/Attributes/SnowflakeColumnAttribute.cs:21-41 | a missing column name reads as empty, blank exactly when the argument is; table, table alias and column alias are kept as given |
| Attributes.NewJoin | src/Attributes/SnowflakeJoinAttribute.cs:68-74 | the join attribute keeps its table, alias, type and condition |
| Attributes.JoinTypesWellFormed | src/Attributes/SnowflakeJoinAttribute.cs:19-59 | the nine join-type constants are pairwise distinct, non-blank and upper case |
| TypeMap.ValueDbType | src/Constants/SnowflakeCommand.TypeMap.cs:24-57 | exactly the sixteen listed value types have a `DbType`; any other struct has none |
| TypeMap.Lookup | src/Constants/SnowflakeCommand.TypeMap.cs:22-58 | the dictionary lookup: a value type, plain or nullable, gets its `DbType`, and a struct the map does not list gets none (where the dictionary throws `KeyNotFoundException`) |
| TypeMap.LookupMatchesEntries | src/Constants/SnowflakeCommand.TypeMap.cs:24-57 | the lookup answers `d` for `t` if and only if `(t, d)` is one of the 34 listed entries |
| TypeMap.EntriesAreADictionary | src/Constants/SnowflakeCommand.TypeMap.cs:24-57 | no key is listed twice, so the initializer does not throw on a duplicate key |
| TypeMap.EntryIsLookedUp | src/Constants/SnowflakeCommand.TypeMap.cs:24-57 | every listed entry is found by the lookup |
| TypeMap.OrdinalInverse | src/Constants/SnowflakeCommand.TypeMap.cs:24-39 | the sixteen value types are listed in one fixed order, each at exactly one position |
| TypeMap.NullableMapsLikeUnderlying | src/Constants/SnowflakeCommand.TypeMap.cs:42-57 | `T?` maps to the same `DbType` as `T` |
| TypeMap.RuntimeType | src/Command/Modifier/SnowflakeCommand.Where.cs:121-124 | the runtime type of a boxed captured value is never `Nullable<>`, and it maps as the declared type does |
| Command.DefaultedColumn | src/Command/SnowflakeCommand.cs:60-64 | a blank column name becomes the member's name, and a non-blank name is kept; the result is never blank |
| Command.ColumnMembersAreAttributed | src/Command/SnowflakeCommand.cs:55-68 | `Properties` holds exactly the attributed members, in declaration order, each with its defaulted column |
| Command.ResolveTable | src/Command/SnowflakeCommand.cs:70-81 | a missing table attribute is a null dereference; otherwise the name is non-blank (the class name when blank), and a blank alias takes the first letter `a` and uses it up |
| Command.Letter | src/Command/SnowflakeCommand.cs:25 | the alias letters are `a` to `z`; index 26 and beyond is `IndexOutOfRangeException` |
| Command.AssignJoinAliasesSucceeds | src/Command/SnowflakeCommand.cs:83-94 | the join alias pass succeeds exactly when the remaining letters suffice for the joins with a blank alias |
| Command.AssignJoinAliasesClosedForm | src/Command/SnowflakeCommand.cs:83-94 | after the pass, join `k` keeps its non-blank alias or gets the letter after the ones handed out before it; nothing else about the join changes |
| Command.AssignedAliasesNotBlank | src/Command/SnowflakeCommand.cs:83-94 | after a successful pass no join alias is blank |
| Command.JoinsOf | src/Command/SnowflakeCommand.cs:102 | exactly the joins of the list whose table is the given one (ordinal comparison); none when no join has that table |
| Command.PropertyAlias | src/Command/SnowflakeCommand.cs:99-104 | a column with no table takes the table alias; one with a table takes the alias of the one join of that table, and none or several joins make `Single` throw |
| Command.Qualify | src/Command/SnowflakeCommand.cs:96-106 | `ValidProperties` has one `alias.column` per property, in order, with the alias `PropertyAlias` gives; it fails exactly when `Single` rejects some property |
| Command.ValidPropertyAccepted | src/Command/SnowflakeCommand.cs:107 | every valid property passes the whitelist |
| Command.AcceptedIsValidUpToDots | src/Command/SnowflakeCommand.cs:107 | what passes the whitelist equals a valid property except where that property has a `.`, which matches any character but a newline |
| Command.DotIsWildcard | src/Command/SnowflakeCommand.cs:107 | because the regex does not escape the dot, `aXcolumn` passes where `a.column` is valid |
| Command.WrongLengthRejected | src/Command/SnowflakeCommand.cs:107 | a text whose length is no valid property's length never passes |
| Command.ColumnAlias | src/Command/SnowflakeCommand.cs:158-161 | the column list's alias: a missing table (but not a blank one) means the root table, whose name takes the root alias; another table fails exactly when several joins have it, as `SingleOrDefault` throws |
| Command.ColumnEntries | src/Command/SnowflakeCommand.cs:156-164 | one entry per property, in order, each `alias.name` (the bare name when the alias is blank) with the alias `ColumnAlias` gives |
| Command.BuildColumns | src/Command/SnowflakeCommand.cs:150-170 | the append-then-`Remove` loop gives the entries joined by `, `; with no entries, `Remove(-2, 2)` throws `ArgumentOutOfRangeException` |
| Command.New | src/Command/SnowflakeCommand.cs:51-112 | the constructor fails without a table attribute or without attributed members; a built command has no parameters, one property per attributed member, the resolved table, the joins as the alias pass left them (none blank), the column list joined from the `Columns` getter's entries, and the builder `SELECT ` + columns + ` FROM …` + one clause per join |
| Command.NewSucceedsIff | src/Command/SnowflakeCommand.cs:51-112 | the constructor succeeds exactly when the table attribute is present, the alphabet has a letter for every blank join alias, some member is attributed, and every attributed column finds a single join for `ValidProperties` and at most one for the `Columns` getter |
| Command.NewProperties | src/Command/SnowflakeCommand.cs:55-106 | the constructed properties are the attributed members in order, each with its defaulted column and qualified as `ValidProperties` qualifies it |
| Command.ConstructedHasText | src/Command/SnowflakeCommand.cs:53 | a constructed builder starts with `SELECT ` |
| Command.RootTableNamedColumnRejected | src/Command/SnowflakeCommand.cs:96-106 | a column naming the root table's own name, with no join of that table, makes the constructor throw in `ValidProperties`, although `Columns` would have used the root alias |
| Command.SelfJoinAliasesDisagree | src/Command/SnowflakeCommand.cs:99-104 | for a column naming the root table while a join of that table exists, the whitelist uses the join's alias but the column list uses the root alias |
| Command.KeywordClause | src/Command/Modifier/SnowflakeCommand.Where.cs:98 | the clause always begins with its keyword (in some letter case) and ends with the whole trimmed argument, and a keyword the argument already wrote is never written a second time; the two cases are given exactly by KeywordClauseOfKeyworded and KeywordClauseOfBare |
| Command.KeywordClauseOfKeyworded | src/Command/Modifier/SnowflakeCommand.Where.cs:98 | an argument that already writes `KEYWORD rest` is kept as it is, with no second keyword |
| Command.KeywordClauseOfBare | src/Command/Modifier/SnowflakeCommand.Where.cs:98 | a trimmed argument that does not start with the keyword in any letter case gets `KEYWORD ` in front |
| Command.KeywordClauseShows | src/Command/Modifier/SnowflakeCommand.Having.cs:43 | once appended, a keyword clause shows the keyword in `Sql` when any keyword the argument wrote is in upper case |
| Command.AppendedKeywordAbsent | src/Command/SnowflakeCommand.cs:132-135 | a keyword in neither the builder nor the appended text, and unable to straddle the seam, stays out of `Sql` |
| Command.KeywordInBuilderIffInSql | src/Command/SnowflakeCommand.cs:132-135 | a keyword without white space at its ends is in the builder exactly when it is in the trimmed `Sql` |
| DistinctClause.IsDistinct | src/Command/Modifier/SnowflakeCommand.IsDistinct.cs:22-32 | fails exactly when `Sql` already holds `SELECT DISTINCT`; otherwise every `SELECT` becomes `SELECT DISTINCT` and nothing else changes |
| DistinctClause.DistinctOnPlainSelect | src/Command/Modifier/SnowflakeCommand.IsDistinct.cs:22-32 | on a constructed builder the opening word becomes `SELECT DISTINCT` |
| DistinctClause.DistinctOnlyOnce | src/Command/Modifier/SnowflakeCommand.IsDistinct.cs:24-27 | a second `IsDistinct` is refused |
| DistinctClause.DistinctWithoutSelectIsNoOp | src/Command/Modifier/SnowflakeCommand.IsDistinct.cs:29 | on a builder without `SELECT` the call changes nothing, so the guard never trips |
| TopClause.Top | src/Command/Modifier/SnowflakeCommand.Top.cs:25-47 | refuses a command already marked with top, then a non-positive amount; otherwise `SELECT DISTINCT` becomes `SELECT DISTINCT TOP n` when the query starts with it, and every `SELECT` becomes `SELECT TOP n` when it does not |
| TopClause.TopOnPlainSelect | src/Command/Modifier/SnowflakeCommand.Top.cs:41-44 | on a constructed builder the head becomes `SELECT TOP n` |
| TopClause.TopOnDistinctSelect | src/Command/Modifier/SnowflakeCommand.Top.cs:37-40 | after `IsDistinct` the head becomes `SELECT DISTINCT TOP n` |
| TopClause.DistinctAfterTop | src/Command/Modifier/SnowflakeCommand.IsDistinct.cs:29 | `IsDistinct` after `Top` also gives `SELECT DISTINCT TOP n` |
| TopClause.TopAndDistinctCommute | src/Command/Modifier/SnowflakeCommand.Top.cs:37-44 | on a constructed builder, `Top` and `IsDistinct` in either order give the same command |
| TopClause.TopOnlyOnce | src/Command/Modifier/SnowflakeCommand.Top.cs:27-30 | a second `Top` is refused whatever its amount |
| TopClause.TopRewritesSubSelect | src/Command/Modifier/SnowflakeCommand.Top.cs:43 | the replacement is global: a second `SELECT ` in the text (a sub-select in a where clause) also gets `TOP n` |
| LimitClause.Limit | src/Command/Modifier/SnowflakeCommand.Limit.cs:27-47 | refuses a command already holding ` LIMIT `, then a negative count, then a negative offset; otherwise appends ` LIMIT count OFFSET offset` |
| LimitClause.LimitTextReadsBack | src/Command/Modifier/SnowflakeCommand.Limit.cs:44 | split at spaces, the appended clause gives back its keywords, the count and the offset |
| LimitClause.LimitOnlyOnce | src/Command/Modifier/SnowflakeCommand.Limit.cs:29-32 | a second `Limit` is refused |
| HavingClause.Having | src/Command/Modifier/SnowflakeCommand.Having.cs:26-46 | refuses a command that has `HAVING`, then one without `GROUP BY`, then a blank argument; otherwise appends the keyword clause |
| HavingClause.HavingOnlyOnce | src/Command/Modifier/SnowflakeCommand.Having.cs:28-31 | a second `Having` is refused |
| HavingClause.HavingKeepsGroupBy | src/Command/Modifier/SnowflakeCommand.Having.cs:33-36 | the result still holds the `GROUP BY` it depends on |
| Expressions.OperatorsRenderSql | src/Command/Modifier/SnowflakeCommand.Where.cs:53-61 | the three operator passes over a printed tree print every binary operator in SQL (`AND`, `OR`, `=`, …) and put every other text through the same passes |
| Expressions.OperatorsOfPlainTree | src/Command/Modifier/SnowflakeCommand.Where.cs:53-61 | when no text of the tree spells a host operator, the passes change the operators and nothing else |
| Expressions.Leaves | src/Command/Modifier/SnowflakeCommand.Where.cs:109-166 | the leaves the walk visits, in its order: left before right, arguments in order, a lambda's body, never a call's target |
| Walk.Visit | src/Command/Modifier/SnowflakeCommand.Where.cs:113-132 | at a leaf, a fresh capture appends exactly one parameter and one key, or fails (null value, unmapped type); any other leaf changes nothing; an unsupported node is `NotSupportedException` |
| Walk.WalkIsFold | src/Command/Modifier/SnowflakeCommand.Where.cs:109-166 | the recursive walk is a fold of `Visit` over `Leaves` |
| Walk.WalkLeavesSucceedsIff | src/Command/Modifier/SnowflakeCommand.Where.cs:113-164 | the walk succeeds exactly when no node is of an unsupported kind and every capture met for the first time has a value the type map lists |
| Walk.WalkLeavesKeys | src/Command/Modifier/SnowflakeCommand.Where.cs:117-128 | the keys afterwards are the old keys followed by new ones, no key twice, and together exactly the old keys and the captured printings |
| Walk.ExtensionReceiverIsWalked | src/Command/Modifier/SnowflakeCommand.Where.cs:146-153 | an extension call and an instance call print alike, but only the extension call's receiver, being `Arguments[0]`, is walked |
| Walk.WalkLeavesParameters | src/Command/Modifier/SnowflakeCommand.Where.cs:125-126 | one parameter per new key, in the same order, numbered on from the existing ones, with the mapped type and text of the first capture so printed |
| WhereClause.WhereString | src/Command/Modifier/SnowflakeCommand.Where.cs:86-101 | refuses a command that has `WHERE`, then a blank argument; otherwise appends the keyword clause |
| WhereClause.WherePredicate | src/Command/Modifier/SnowflakeCommand.Where.cs:27-76 | refuses a command that has `WHERE`; otherwise succeeds exactly when the walk does, with the walk's error or parameters, the descriptor unchanged, and ` WHERE ` + the filter appended, in which the parameter is dropped before captured printings become `?`, as written |
| WhereClause.WherePredicateCorrected | src/Command/Modifier/SnowflakeCommand.Where.cs:39-47 | the intended predicate form: it succeeds and fails exactly as the as-written one, with the same error, descriptor and parameters, but appends the filter in which captured printings become `?` before the parameter is dropped |
| WhereClause.WherePredicateCorrectedOnlyOnce | src/Command/Modifier/SnowflakeCommand.Where.cs:29-32 | after the corrected predicate form, every `Where` form is refused |
| WhereClause.WherePredicateSucceedsIff | src/Command/Modifier/SnowflakeCommand.Where.cs:27-35 | the predicate form succeeds exactly when there is no `WHERE` and the body's leaves are walkable |
| WhereClause.WherePredicateParameters | src/Command/Modifier/SnowflakeCommand.Where.cs:34-35 | the parameters added are one per distinct captured printing, in first-met order, appended after the existing ones |
| WhereClause.WherePredicateWithoutCaptures | src/Command/Modifier/SnowflakeCommand.Where.cs:34-35 | a predicate with no captured value adds no parameter |
| WhereClause.WhereOnlyOnce | src/Command/Modifier/SnowflakeCommand.Where.cs:29-32 | after either form has added its clause, both forms refuse another |
| WhereClause.CapturedKeysNotEmpty | src/Command/Modifier/SnowflakeCommand.Where.cs:114-115 | every dictionary key is a non-empty printing |
| WhereClause.ReplaceKeysRemoves | src/Command/Modifier/SnowflakeCommand.Where.cs:44-47 | after the key passes no key is left in the text |
| WhereClause.CapturesBecomePlaceholders | src/Command/Modifier/SnowflakeCommand.Where.cs:39-47 | with captures replaced before the parameter is dropped, every captured printing in the body leaves a `?` |
| WhereClause.StripFirstLosesCapture | src/Command/Modifier/SnowflakeCommand.Where.cs:39-47 | in the source's order, a captured printing holding `param.` is no longer found by its key, and no `?` appears |
| WhereClause.WhereFinding | src/Command/Modifier/SnowflakeCommand.Where.cs:39-47 | for `a => flag`, with `flag` captured in a method of `SnowflakeCommandWhereTests` (namespace `Snowflake.Data.Xt.Tests`), the source's order leaves no placeholder in the filter text, and the corrected order gives `?` |
| WhereClause.FindingCaptureWalks | src/Command/Modifier/SnowflakeCommand.Where.cs:113-128 | the walk over `a => flag` accepts the capture (its printing holds `value(` and its `bool` type is mapped) and adds exactly one parameter and one key |
| WhereClause.WherePredicateFinding | src/Command/Modifier/SnowflakeCommand.Where.cs:27-76 | on any command without `WHERE`, `Where(a => flag)` succeeds both ways and adds the same parameter; the corrected form appends ` WHERE ?`, while the as-written filter holds no `?` when no property's `alias.column` does |
| Projection.RemoveAnonymousTypeName | src/Command/Modifier/SnowflakeCommand.Select.cs:26-30 | the regex removes the compiler's anonymous type name and nothing else from the text after it |
| Projection.MemberProjection | src/Command/Modifier/SnowflakeCommand.Select.cs:26-34 | `x => x.Member` projects to `Member` |
| Projection.AnonymousProjection | src/Command/Modifier/SnowflakeCommand.Select.cs:26-34 | `x => new { x.A, x.B }` projects to `A, B`: the type name, the parentheses, the parameter and the `= …` halves are dropped |
| Projection.RewriteMember | src/Command/Modifier/SnowflakeCommand.Select.cs:36-44 | a member name that rewrites cleanly becomes its property's `alias.column` |
| Projection.RewriteMembersOverJoin | src/Command/Modifier/SnowflakeCommand.Select.cs:36-44 | rewriting a `, ` list rewrites each piece on its own |
| Projection.MemberProjectionText | src/Command/Modifier/SnowflakeCommand.Select.cs:24-46 | `x => x.Member` becomes that property's trimmed `alias.column` |
| Projection.AnonymousProjectionText | src/Command/Modifier/SnowflakeCommand.Select.cs:24-46 | `x => new { x.A, … }` becomes the picked properties' `alias.column` list, in the order written |
| Projection.EarlierPrefixCaptures | src/Command/Modifier/SnowflakeCommand.Select.cs:36-44 | the rewrite works on substrings, not identifiers: an earlier member `Id` rewrites the front of a later `IdCard` |
| SelectClause.Select | src/Command/Modifier/SnowflakeCommand.Select.cs:24-49 | fails exactly when the column list is empty (`Replace` with an empty old value throws); otherwise descriptor and parameters are kept, and a builder without the column list is unchanged |
| SelectClause.SelectShows | src/Command/Modifier/SnowflakeCommand.Select.cs:46 | where the builder held the column list, the projected list now shows in `Sql` |
| SelectClause.SelectMember | src/Command/Modifier/SnowflakeCommand.Select.cs:24-46 | `Select(x => x.Member)` replaces the column list by that property's `alias.column` |
| SelectClause.SelectAnonymous | src/Command/Modifier/SnowflakeCommand.Select.cs:24-46 | `Select(x => new { x.A, … })` replaces the column list by the picked properties' `alias.column` list |
| SelectClause.SelectAfterNew | src/Command/Modifier/SnowflakeCommand.Select.cs:46 | on a freshly constructed command `Select` succeeds and the projection shows in `Sql` |
| GroupByClause.GroupByPredicate | src/Command/Modifier/SnowflakeCommand.GroupBy.cs:27-57 | fails exactly when `Sql` holds `GROUP BY`; otherwise appends ` GROUP BY ` and the projection |
| GroupByClause.GroupByString | src/Command/Modifier/SnowflakeCommand.GroupBy.cs:68-91 | refuses a command that has `GROUP BY`, then a blank argument, then a test value the whitelist rejects (with the message listing the valid properties); otherwise appends the keyword clause |
| GroupByClause.GroupByMember | src/Command/Modifier/SnowflakeCommand.GroupBy.cs:34-54 | `GroupBy(x => x.Member)` appends ` GROUP BY alias.column` |
| GroupByClause.GroupByAnonymous | src/Command/Modifier/SnowflakeCommand.GroupBy.cs:34-54 | `GroupBy(x => new { x.A, … })` appends ` GROUP BY` and the picked properties' `alias.column` list |
| GroupByClause.GroupByKeywordOptional | src/Command/Modifier/SnowflakeCommand.GroupBy.cs:80-88 | a valid property is accepted with or without the `GROUP BY` keyword in front, and both writings append the same clause |
| GroupByClause.GroupByPredicateOnlyOnce | src/Command/Modifier/SnowflakeCommand.GroupBy.cs:29-32 | after the selector form, both forms refuse a second `GROUP BY` |
| GroupByClause.GroupByStringOnlyOnce | src/Command/Modifier/SnowflakeCommand.GroupBy.cs:70-73 | after the text form, both forms refuse a second `GROUP BY` |
| OrderByClause.OrderByPredicate | src/Command/Modifier/SnowflakeCommand.OrderBy.cs:82-112 | fails exactly when `Sql` holds `ORDER BY`; otherwise appends ` ORDER BY `, the projection and the direction, so the builder ends with the direction |
| OrderByClause.OrderByAsc | src/Command/Modifier/SnowflakeCommand.OrderBy.cs:25 | the ascending form: the same guard, and the builder ends with `ASC` |
| OrderByClause.OrderByDesc | src/Command/Modifier/SnowflakeCommand.OrderBy.cs:35 | the descending form: the same guard, and the builder ends with `DESC` |
| OrderByClause.OrderByMember | src/Command/Modifier/SnowflakeCommand.OrderBy.cs:89-109 | `OrderBy…(x => x.Member)` appends ` ORDER BY alias.column` and the direction |
| OrderByClause.OrderByAnonymous | src/Command/Modifier/SnowflakeCommand.OrderBy.cs:89-109 | `OrderBy…(x => new { x.A, … })` appends the picked properties' list and the direction |
| OrderByClause.OrderByStringAsWritten | src/Command/Modifier/SnowflakeCommand.OrderBy.cs:46-71 | the text form as written: the guards in the source's order, the whitelist applied to the text with every `ORDER BY`, `ASC` and `DESC` cut out |
| OrderByClause.OrderByString | src/Command/Modifier/SnowflakeCommand.OrderBy.cs:46-71 | the text form with the corrected test value: the same guards, the same error messages and the same appended keyword clause |
| OrderByClause.MeantTestValue | src/Command/Modifier/SnowflakeCommand.OrderBy.cs:58-62 | the corrected test value gives back the property for every writing of `[ORDER BY ]property[ ASC| DESC]` |
| OrderByClause.OrderByAccepts | src/Command/Modifier/SnowflakeCommand.OrderBy.cs:46-71 | the corrected text form accepts every such writing of a valid property and appends its keyword clause |
| OrderByClause.OrderByPredicateOnlyOnce | src/Command/Modifier/SnowflakeCommand.OrderBy.cs:84-87 | after a selector form, every form refuses a second `ORDER BY` |
| OrderByClause.OrderByStringOnlyOnce | src/Command/Modifier/SnowflakeCommand.OrderBy.cs:48-51 | after the text form, every form refuses a second `ORDER BY` |
| OrderByClause.AsWrittenShortens | src/Command/Modifier/SnowflakeCommand.OrderBy.cs:58-62 | a name holding `DESC` comes out of the as-written test value shorter |
| OrderByClause.DirectionInsideNameRejected | src/Command/Modifier/SnowflakeCommand.OrderBy.cs:58-66 | when a valid property holds `DESC` and all valid properties are as long as it, the as-written text form refuses that property while the corrected one accepts it |
| OrderByClause.DescriptionColumnRejected | src/Command/Modifier/SnowflakeCommand.OrderBy.cs:58-66 | `OrderBy("a.DESCRIPTION")` on a class whose only column is `DESCRIPTION` is refused as written and accepted when corrected |
| Materializer.ReadMember | src/Extensions/DbDataReaderExtensions.cs:92-159 | an unsupported member type is `NotSupportedException` with the source's message; a missing column is `IndexOutOfRangeException`; a value is assigned; `DBNull` gives `null` exactly for `string` and `Nullable<>` members and is an `InvalidCastException` otherwise |
| Materializer.DeclaredColumns | src/Extensions/DbDataReaderExtensions.cs:42-48 | the source's reading: each member is read from the name its attribute declares, blank or not |
| Materializer.ColumnsRead | src/Command/SnowflakeCommand.cs:61-64 | the corrected reading: each member is read from its defaulted column name, the one the command selects |
| Materializer.Materialize | src/Extensions/DbDataReaderExtensions.cs:34-49 | one row becomes an entity exactly when every attributed, writable member reads, each value from its own column; otherwise the error is that of some member that does not read, all before it reading |
| Materializer.UnreadMembersUntouched | src/Extensions/DbDataReaderExtensions.cs:34-46 | whatever names the columns are read from, members without a column attribute or without a setter keep their default |
| Materializer.ColumnAliasIgnored | src/Extensions/DbDataReaderExtensions.cs:97-153 | only the attribute's `Name` addresses a cell: classes that differ only in `ColumnAlias` read every row alike, by declared names and by defaulted ones |
| Materializer.ReadsSelectedColumns | src/Command/SnowflakeCommand.cs:55-68 | for a constructed command, member `i` is read from the column name of property `i` of the command |
| Materializer.FetchBy | src/Extensions/DbDataReaderExtensions.cs:24-55 | for given column names: `null` exactly when the cursor has no row left; otherwise exactly one row is consumed, and the result is that row's entity or its error |
| Materializer.FirstOrDefault | src/Extensions/DbDataReaderExtensions.cs:24-55 | as written: `null` exactly when no row is left, otherwise one row consumed and its members read from their declared column names |
| Materializer.FirstOrDefaultCorrected | src/Extensions/DbDataReaderExtensions.cs:42-48 | the intended reading: as `FirstOrDefault`, but each member read from its defaulted name, the column the command selected |
| Materializer.FirstOrDefaultAgreesWhenNamed | src/Extensions/DbDataReaderExtensions.cs:42-48 | when every column attribute declares a non-blank name, the as-written and the corrected reading agree |
| Materializer.ReadEachSucceeds | src/Extensions/DbDataReaderExtensions.cs:63-80 | reading rows in turn succeeds exactly when every row reads, giving one entity per row in row order |
| Materializer.ReadEachFirstError | src/Extensions/DbDataReaderExtensions.cs:63-80 | a failed read carries the error of the first row that does not read |
| Materializer.ReadAllMeaning | src/Extensions/DbDataReaderExtensions.cs:63-80 | the reference reading of all rows, for any column names: success exactly when every row reads, one entity per row in order, otherwise the first failing row's error |
| Materializer.ToListBy | src/Extensions/DbDataReaderExtensions.cs:63-80 | for given column names, the loop of `FirstOrDefault` calls reads what the reference reading gives; on success the cursor is exhausted, and on failure the row just consumed is one that does not read |
| Materializer.ToList | src/Extensions/DbDataReaderExtensions.cs:63-80 | as written, over `FirstOrDefault`: success exactly when every row reads by declared names, then one entity per row in order and the cursor exhausted; on failure the last row consumed does not read |
| Materializer.ToListCorrected | src/Extensions/DbDataReaderExtensions.cs:63-80 | the same over `FirstOrDefaultCorrected`, every row read by defaulted names |
| Materializer.BlankDeclaredNameNotRead | src/Extensions/DbDataReaderExtensions.cs:42-48 | for a member with a blank declared name, a row holding the selected column fails as written (`IndexOutOfRangeException` on the blank name), in `Materialize` and in `FirstOrDefault`, and reads the value when corrected |

## Left out

- The parameterless constructor reads `SNOWFLAKE_DATABASE` and `SNOWFLAKE_SCHEMA` from the environment. The model takes database and schema as arguments.
- `WriteLogInformation` and the logger: logging only.
- Executing a command (`SnowflakeCommand.*Async`, `FirstOrDefault`, `ToList`, `SingleOrDefault` in `Methods/`) and `DbCommandExtensions`: they open connections and run the statement, which the model cannot see. The reader side is modelled from a given cursor of rows.
- The regex whitelist is modelled for names made of identifier characters and dots. Other regex metacharacters in column or alias names are not modelled, and neither is the three-second match timeout.
- Case-insensitive `StartsWith` under the invariant culture is modelled as ASCII case folding. White space for `Trim` is the Unicode White_Space set.
- Reflection order: `GetProperties` and `GetCustomAttributes` are taken to return members and joins in declaration order. `Dictionary` enumeration is taken to follow insertion order.
- `GetProperty(name)` finding an ambiguous or hidden property is not modelled; each member reads through its own declaration.
- Evaluating a captured value (`Compile().DynamicInvoke()`) is not modelled. A captured leaf carries its value's runtime type and printed text, or nothing for `null`.
- A static member access such as `string.Empty` is a `Member` leaf whose printed text (`String.Empty`) is supplied rather than computed. It holds no `value(`, so it passes the walk unchanged and its text goes into the SQL, as in the source. Conversions and the other node kinds the walk does not handle are refused, so how `Expression.ToString()` prints them is not modelled.
- Type and member names are taken to be non-empty ASCII identifiers (letters, digits, underscore). Names with other Unicode letters, such as `Größe`, and generic type names such as ``Foo`1`` are not modelled.
- When the walk throws, the source has already appended parameters for the captures it met. The model returns the error and drops the partly changed command.
- Materializer.ReadMember: a cell is opaque text. A value the provider cannot convert to the member's type (`GetInt32` on text) would throw; the model assigns it.
- The provider's column lookup is taken as exact. Case-insensitive lookup, or Snowflake's upper-casing of unquoted names, is not modelled.
- SelectClause.Select: the contract states the failure case, that descriptor and parameters are kept, and that a builder without the column list is unchanged. What the replacement puts in its place is stated by `SelectShows`, `SelectMember`, `SelectAnonymous` and `SelectAfterNew`.
- OrderByClause.OrderByAsc: only the ending `ASC` is stated. The full appended text is stated by `OrderByPredicate`.
- OrderByClause.OrderByDesc: only the ending `DESC` is stated. The full appended text is stated by `OrderByPredicate`.
- The exact .NET message of `StringBuilder.Replace` with an empty old value is not modelled; `Select` fails with a fixed error.
- LimitClause.Limit: the default value `offset = 0` of the C# signature is not a default in the model; a caller that omits the offset passes 0.
- TopClause.Top: the source tests `StartsWith("SELECT DISTINCT", InvariantCulture)`, which is culture-sensitive; the model compares ordinally. The two differ only when the text holds characters the culture comparison ignores, such as a soft hyphen.
- The printing of a static method call that is not an extension method is `Method(args)`, without its declaring type, as .NET prints it. Extension calls are their own node kind, whose first argument prints as the receiver.
- Integer arguments of `Limit` and `Top` are 32-bit in the source. The model takes an `Int32` range and prints the number in decimal; negative numbers are refused before printing.

## Findings

| source | as written | input that shows it | evidently intended | confidence | as-written member | corrected member |
|---|---|---|---|---|---|---|
| src/Command/Modifier/SnowflakeCommand.Where.cs:39-47 | the lambda parameter's `name.` is removed from the printed body before each captured value's printing is replaced by `?` | `Where(a => flag)` with `flag` a `bool` local of a method of `SnowflakeCommandWhereTests`, in namespace `Snowflake.Data.Xt.Tests`: the printing `value(Snowflake.Data.Xt.Tests…).flag` loses the `a.` of `Data.`, so it no longer matches its key; the SQL keeps the mangled printing and has no `?`, while a parameter is still added | replace the captured printings first, then drop the parameter | medium, not executed | WhereClause.WherePredicate, WhereClause.WherePredicateFinding | WhereClause.WherePredicateCorrected, WhereClause.CapturesBecomePlaceholders |
| src/Extensions/DbDataReaderExtensions.cs:42-48 | the reader re-reads the column attribute through reflection, which creates a fresh instance; the name the constructor defaulted at src/Command/SnowflakeCommand.cs:61-64 is not seen | a property `[SnowflakeColumn] public string Name { get; set; }`: the command selects `a.Name`, the reader asks the row for column `""` and throws `IndexOutOfRangeException` | read each member from its defaulted name, the column the command selected | medium, not executed | Materializer.FirstOrDefault, Materializer.BlankDeclaredNameNotRead | Materializer.FirstOrDefaultCorrected, Materializer.ReadsSelectedColumns |
| src/Command/Modifier/SnowflakeCommand.OrderBy.cs:58-62 | every `ORDER BY`, `ASC` and `DESC` anywhere in the argument is removed before the whitelist check | `OrderBy("a.DESCRIPTION")` on a class whose column is `DESCRIPTION`: the test value is `a.RIPTION`, which the whitelist rejects | remove the keyword and a trailing direction word only | high, not executed | OrderByClause.DescriptionColumnRejected | OrderByClause.OrderByAccepts |

=== FILE: attributes.dfy ===
/**
  The three attributes that describe how an entity class maps onto Snowflake:
  the table it reads, the tables it joins, and the column each member reads.
  A C# `string?` is an `Option<string>`; a constructor argument left at its
  default is `None`.
 */
module Attributes {

  import opened Wrappers
  import opened Text

  /** `[SnowflakeTable(name, alias)]` on the entity class. */
  datatype TableAttribute = TableAttribute(name: string, alias: Option<string>)

  /** `[SnowflakeColumn(name, table, tableAlias, columnAlias)]` on a member. */
  datatype ColumnAttribute = ColumnAttribute(
    name: string,
    table: Option<string>,
    tableAlias: Option<string>,
    columnAlias: Option<string>)

  /** `[SnowflakeJoin(table, alias, type, condition)]`, possibly repeated on the class. */
  datatype JoinAttribute = JoinAttribute(table: string, alias: string, joinType: string, condition: string)

  /** A missing optional string reads as the empty string (`name ?? string.Empty`). */
  function OrEmpty(s: Option<string>): (r: string)
    ensures s.Some? ==> r == s.value
    ensures s.None? ==> r == []
  {
    match s
    case None => []
    case Some(v) => v
  }

  /** The table attribute's constructor: a missing name becomes empty, the alias is kept as given. */
  function NewTable(name: Option<string>, alias: Option<string>): (t: TableAttribute)
    ensures t.alias == alias
    ensures IsBlank(t.name) <==> IsNullOrWhiteSpace(name)
    ensures name.Some? ==> t.name == name.value
  {
    TableAttribute(OrEmpty(name), alias)
  }

  /** The column attribute's constructor: a missing name becomes empty, everything else is kept. */
  function NewColumn(name: Option<string>, table: Option<string>, tableAlias: Option<string>, columnAlias: Option<string>): (c: ColumnAttribute)
    ensures c.table == table && c.tableAlias == tableAlias && c.columnAlias == columnAlias
    ensures IsBlank(c.name) <==> IsNullOrWhiteSpace(name)
    ensures name.Some? ==> c.name == name.value
  {
    ColumnAttribute(OrEmpty(name), table, tableAlias, columnAlias)
  }

  // The join types the attribute offers as constants.
  const Cross: string := "CROSS"
  const Full: string := "FULL"
  const FullOuter: string := "FULL OUTER"
  const Inner: string := "INNER"
  const Left: string := "LEFT"
  const LeftOuter: string := "LEFT OUTER"
  const Natural: string := "NATURAL"
  const Right: string := "RIGHT"
  const RightOuter: string := "RIGHT OUTER"

  /** The nine join types, in the order the attribute declares them. */
  const JoinTypes: seq<string> := [Cross, Full, FullOuter, Inner, Left, LeftOuter, Natural, Right, RightOuter]

  /**
    The join attribute's constructor stores its four arguments verbatim: the type
    is not checked against `JoinTypes` and the alias may be blank (the command
    assigns one later).
   */
  function NewJoin(table: string, alias: string, joinType: string, condition: string): (j: JoinAttribute)
    ensures j.table == table && j.alias == alias && j.joinType == joinType && j.condition == condition
  {
    JoinAttribute(table, alias, joinType, condition)
  }

  /** The nine join types are distinct, non-blank and free of lower-case letters. */
  lemma JoinTypesWellFormed()
    ensures |JoinTypes| == 9
    ensures forall i, j | 0 <= i < j < |JoinTypes| :: JoinTypes[i] != JoinTypes[j]
    ensures forall i | 0 <= i < |JoinTypes| :: !IsBlank(JoinTypes[i])
    ensures forall i, k | 0 <= i < |JoinTypes| && 0 <= k < |JoinTypes[i]| :: !('a' <= JoinTypes[i][k] <= 'z')
  {
    assert !IsWhiteSpace(Cross[0]) && !IsWhiteSpace(Full[0]) && !IsWhiteSpace(FullOuter[0]);
    assert !IsWhiteSpace(Inner[0]) && !IsWhiteSpace(Left[0]) && !IsWhiteSpace(LeftOuter[0]);
    assert !IsWhiteSpace(Natural[0]) && !IsWhiteSpace(Right[0]) && !IsWhiteSpace(RightOuter[0]);
  }
}

=== FILE: command.dfy ===
/**
  `SnowflakeCommand<T>`: what the constructor reads from the entity class's
  attributes, and the command state every clause method works on.

  Reflection is replaced by an explicit `EntityDecl` listing the class's members
  in declaration order with their column attributes. The command is immutable
  here: each clause returns a new `Command` or the exception it would throw.
 */
module Command {

  import opened Wrappers
  import opened Text
  import opened Errors
  import opened Attributes
  import opened TypeMap

  /** An identifier character from the ASCII subset of those C# allows: letters, digits, underscore. */
  predicate IdentifierChar(c: char) {
    'a' <= c <= 'z' || 'A' <= c <= 'Z' || '0' <= c <= '9' || c == '_'
  }

  /** A non-empty ASCII identifier: a type, member or parameter name. */
  type Name = s: string | |s| > 0 && forall i | 0 <= i < |s| :: IdentifierChar(s[i]) witness "_"

  /** A C# `int`. */
  type Int32 = x: int | -0x8000_0000 <= x < 0x8000_0000

  /** A public property of the entity class. */
  datatype MemberDecl = MemberDecl(name: Name, kind: ClrType, column: Option<ColumnAttribute>, writable: bool)

  /** The entity class `T` as reflection sees it. */
  datatype EntityDecl = EntityDecl(
    typeName: Name,
    table: Option<TableAttribute>,
    joins: seq<JoinAttribute>,
    members: seq<MemberDecl>)

  /**
    An entry of `Properties` (member name and its column attribute, name defaulted)
    together with its entry of `ValidProperties` (`alias.column`).
   */
  datatype Property = Property(member: Name, column: ColumnAttribute, qualified: string)

  /** What the constructor fixes once: table, joins with aliases, properties and the column list. */
  datatype Descriptor = Descriptor(
    table: TableAttribute,
    joins: seq<JoinAttribute>,
    properties: seq<Property>,
    columns: string)

  /** An entry of `ParameterList`: position (as text), type and value (as text). */
  datatype Parameter = Parameter(index: string, dbType: DbType, value: string)

  /** The command: its descriptor, the `SqlBuilder` text and the parameter list. */
  datatype Command = Command(desc: Descriptor, builder: string, parameters: seq<Parameter>)

  /** The letters handed out as table aliases, in order. */
  const Alphabet: string := "abcdefghijklmnopqrstuvwxyz"

  /** The `Sql` property: the builder's text, trimmed. */
  function Sql(c: Command): string {
    Trim(c.builder)
  }

  /** Identifiers are never blank. */
  lemma NameNotBlank(n: Name)
    ensures !IsBlank(n)
  {
    assert IdentifierChar(n[0]);
  }

  // ---------------------------------------------------------------------------
  // Properties
  // ---------------------------------------------------------------------------

  /** A member's column attribute with a blank name replaced by the member's name. */
  function DefaultedColumn(m: MemberDecl): (c: ColumnAttribute)
    requires m.column.Some?
    ensures !IsBlank(c.name)
    ensures c.table == m.column.value.table
    ensures IsBlank(m.column.value.name) ==> c.name == m.name
    ensures !IsBlank(m.column.value.name) ==> c == m.column.value
  {
    var col := m.column.value;
    if IsBlank(col.name) then
      NameNotBlank(m.name);
      col.(name := m.name)
    else
      col
  }

  /** The members that carry a column attribute, in order, each with its defaulted column. */
  function ColumnMembers(ms: seq<MemberDecl>): (r: seq<(Name, ColumnAttribute)>)
    ensures |r| <= |ms|
    ensures forall i | 0 <= i < |r| :: !IsBlank(r[i].1.name)
    decreases |ms|
  {
    if |ms| == 0 then []
    else if ms[0].column.Some? then [(ms[0].name, DefaultedColumn(ms[0]))] + ColumnMembers(ms[1..])
    else ColumnMembers(ms[1..])
  }

  /** The members that carry a column attribute, in order. */
  function Attributed(ms: seq<MemberDecl>): (r: seq<MemberDecl>)
    ensures forall m | m in r :: m in ms && m.column.Some?
    decreases |ms|
  {
    if |ms| == 0 then []
    else if ms[0].column.Some? then [ms[0]] + Attributed(ms[1..])
    else Attributed(ms[1..])
  }

  /** `ColumnMembers` is the attributed members, in order, each paired with its defaulted column. */
  lemma {:induction false} ColumnMembersAreAttributed(ms: seq<MemberDecl>)
    ensures |ColumnMembers(ms)| == |Attributed(ms)|
    ensures forall i | 0 <= i < |Attributed(ms)| ::
      ColumnMembers(ms)[i] == (Attributed(ms)[i].name, DefaultedColumn(Attributed(ms)[i]))
    decreases |ms|
  {
    if |ms| > 0 {
      var t := ms[1..];
      ColumnMembersAreAttributed(t);
      if ms[0].column.Some? {
        var cs, ats := ColumnMembers(ms), Attributed(ms);
        assert cs == [(ms[0].name, DefaultedColumn(ms[0]))] + ColumnMembers(t);
        assert ats == [ms[0]] + Attributed(t);
        forall i | 0 <= i < |ats| ensures cs[i] == (ats[i].name, DefaultedColumn(ats[i])) {
          if i > 0 {
            assert cs[i] == ColumnMembers(t)[i - 1] && ats[i] == Attributed(t)[i - 1];
          }
        }
      }
    }
  }

  // ---------------------------------------------------------------------------
  // Table and aliases
  // ---------------------------------------------------------------------------

  /** The table attribute after the constructor's defaults, and the next free alphabet index. */
  datatype ResolvedTable = ResolvedTable(table: TableAttribute, nextLetter: nat)

  /** The alias at alphabet index `i`; index 26 and beyond is `IndexOutOfRangeException`. */
  function Letter(i: nat): (r: Result<string, Error>)
    ensures i < 26 <==> r.Success?
    ensures r.Success? ==> |r.value| == 1 && 'a' <= r.value[0] <= 'z' && r.value[0] as int - 'a' as int == i
  {
    if i < 26 then Success([Alphabet[i]]) else Failure(IndexOutOfRange("Alphabet"))
  }

  /**
    The table attribute is required (its absence is a `NullReferenceException`);
    a blank name becomes the class name and a missing or blank alias becomes `a`.
   */
  function ResolveTable(typeName: Name, table: Option<TableAttribute>): (r: Result<ResolvedTable, Error>)
    ensures table.None? <==> r.Failure?
    ensures r.Success? ==> !IsBlank(r.value.table.name) && !IsNullOrWhiteSpace(r.value.table.alias)
    ensures r.Success? ==> r.value.nextLetter == (if IsNullOrWhiteSpace(table.value.alias) then 1 else 0)
    ensures r.Success? && !IsBlank(table.value.name) ==> r.value.table.name == table.value.name
    ensures r.Success? && !IsNullOrWhiteSpace(table.value.alias) ==> r.value.table.alias == table.value.alias
  {
    match table
    case None => Failure(NullReference("SnowflakeTableAttribute"))
    case Some(t) =>
      NameNotBlank(typeName);
      var name := if IsBlank(t.name) then typeName else t.name;
      if IsNullOrWhiteSpace(t.alias) then
        assert "a"[0] == 'a';
        Success(ResolvedTable(TableAttribute(name, Some("a")), 1))
      else
        Success(ResolvedTable(TableAttribute(name, t.alias), 0))
  }

  /** How many joins have a blank alias. */
  function BlankAliases(js: seq<JoinAttribute>): (n: nat)
    ensures n <= |js|
    decreases |js|
  {
    if |js| == 0 then 0 else (if IsBlank(js[0].alias) then 1 else 0) + BlankAliases(js[1..])
  }

  /** The constructor's alias pass over the joins: each blank alias takes the next letter. */
  function AssignJoinAliases(js: seq<JoinAttribute>, next: nat): (r: Result<seq<JoinAttribute>, Error>)
    decreases |js|
  {
    if |js| == 0 then Success([])
    else if IsBlank(js[0].alias) then
      var letter :- Letter(next);
      var rest :- AssignJoinAliases(js[1..], next + 1);
      Success([js[0].(alias := letter)] + rest)
    else
      var rest :- AssignJoinAliases(js[1..], next);
      Success([js[0]] + rest)
  }

  /** What the alias pass gives join `k`: its own alias, or the letter counted from `next`. */
  function ExpectedJoin(js: seq<JoinAttribute>, next: nat, k: nat): JoinAttribute
    requires k < |js|
  {
    var i := next + BlankAliases(js[..k]);
    if IsBlank(js[k].alias) then js[k].(alias := if i < 26 then [Alphabet[i]] else [])
    else js[k]
  }

  lemma BlankAliasesStep(js: seq<JoinAttribute>, k: nat)
    requires 0 < k <= |js|
    ensures BlankAliases(js[..k]) == (if IsBlank(js[0].alias) then 1 else 0) + BlankAliases(js[1..][..k - 1])
  {
    assert js[..k][1..] == js[1..][..k - 1];
  }

  /** Join `k` of `js` is join `k - 1` of `js[1..]`, the count starting after the first join's letter. */
  lemma ExpectedJoinTail(js: seq<JoinAttribute>, next: nat, k: nat)
    requires 0 < k < |js|
    ensures ExpectedJoin(js, next, k) == ExpectedJoin(js[1..], next + (if IsBlank(js[0].alias) then 1 else 0), k - 1)
  {
    BlankAliasesStep(js, k);
    assert js[k] == js[1..][k - 1];
  }

  /** The alias pass succeeds exactly when the letters from `next` on suffice for the blank aliases. */
  lemma {:induction false} AssignJoinAliasesSucceeds(js: seq<JoinAttribute>, next: nat)
    ensures AssignJoinAliases(js, next).Success? <==> BlankAliases(js) == 0 || next + BlankAliases(js) <= 26
    decreases |js|
  {
    if |js| > 0 {
      var step := if IsBlank(js[0].alias) then 1 else 0;
      AssignJoinAliasesSucceeds(js[1..], next + step);
    }
  }

  /** After a successful alias pass, join `k` keeps a non-blank alias or gets the letter after those handed out before it. */
  lemma {:induction false} AssignJoinAliasesClosedForm(js: seq<JoinAttribute>, next: nat)
    requires AssignJoinAliases(js, next).Success?
    ensures var r := AssignJoinAliases(js, next).value;
      |r| == |js| && forall k | 0 <= k < |js| :: r[k] == ExpectedJoin(js, next, k)
    decreases |js|
  {
    if |js| > 0 {
      var step := if IsBlank(js[0].alias) then 1 else 0;
      var r := AssignJoinAliases(js, next).value;
      var rest := AssignJoinAliases(js[1..], next + step).value;
      AssignJoinAliasesClosedForm(js[1..], next + step);
      assert r == [r[0]] + rest;
      assert js[..0] == [];
      assert r[0] == ExpectedJoin(js, next, 0);
      forall k | 1 <= k < |js| ensures r[k] == ExpectedJoin(js, next, k) {
        ExpectedJoinTail(js, next, k);
        assert r[k] == rest[k - 1];
      }
    }
  }

  /** After a successful alias pass no join alias is blank. */
  lemma {:induction false} AssignedAliasesNotBlank(js: seq<JoinAttribute>, next: nat)
    requires AssignJoinAliases(js, next).Success?
    ensures var r := AssignJoinAliases(js, next).value;
      |r| == |js| && forall k | 0 <= k < |r| :: !IsBlank(r[k].alias) && r[k].table == js[k].table
    decreases |js|
  {
    if |js| > 0 {
      var step := if IsBlank(js[0].alias) then 1 else 0;
      var r := AssignJoinAliases(js, next).value;
      var rest := AssignJoinAliases(js[1..], next + step).value;
      AssignedAliasesNotBlank(js[1..], next + step);
      assert r == [r[0]] + rest;
      if IsBlank(js[0].alias) {
        var l := Letter(next).value;
        assert r[0].alias == l && !IsWhiteSpace(l[0]);
      }
      forall k | 1 <= k < |r| ensures !IsBlank(r[k].alias) && r[k].table == js[k].table {
        assert r[k] == rest[k - 1] && js[k] == js[1..][k - 1];
      }
    }
  }

  // ---------------------------------------------------------------------------
  // ValidProperties
  // ---------------------------------------------------------------------------

  /** The joins whose table is `table` (ordinal comparison), in order. */
  function JoinsOf(js: seq<JoinAttribute>, table: string): (r: seq<JoinAttribute>)
    ensures forall j | j in r :: j in js && j.table == table
    ensures forall j | j in js && j.table == table :: j in r
    ensures (forall j | j in js :: j.table != table) ==> r == []
    decreases |js|
  {
    if |js| == 0 then []
    else if js[0].table == table then [js[0]] + JoinsOf(js[1..], table)
    else JoinsOf(js[1..], table)
  }

  /**
    The alias `ValidProperties` (and every member rewrite) gives a column: the table's
    alias when the column names no table, else the alias of the one join of that table
    (`Enumerable.Single`: none or several is an `InvalidOperationException`).
   */
  function PropertyAlias(table: TableAttribute, js: seq<JoinAttribute>, col: ColumnAttribute): (r: Result<string, Error>)
    ensures IsNullOrWhiteSpace(col.table) ==> r == Success(OrEmpty(table.alias))
    ensures !IsNullOrWhiteSpace(col.table) ==>
      (r.Success? <==> |JoinsOf(js, col.table.value)| == 1)
    ensures !IsNullOrWhiteSpace(col.table) && r.Success? ==>
      exists j | j in js :: j.table == col.table.value && r.value == j.alias
  {
    if IsNullOrWhiteSpace(col.table) then Success(OrEmpty(table.alias))
    else
      var matches := JoinsOf(js, col.table.value);
      if |matches| == 1 then
        assert matches[0] in matches;
        Success(matches[0].alias)
      else Failure(NoSingleJoin(col.table.value, |matches|))
  }

  /** `ValidProperties` built alongside `Properties`, failing at the first column without a single alias. */
  function Qualify(table: TableAttribute, js: seq<JoinAttribute>, cols: seq<(Name, ColumnAttribute)>): (r: Result<seq<Property>, Error>)
    ensures r.Success? ==> |r.value| == |cols|
    ensures r.Success? ==> forall i | 0 <= i < |cols| ::
      && r.value[i].member == cols[i].0
      && r.value[i].column == cols[i].1
      && PropertyAlias(table, js, cols[i].1).Success?
      && r.value[i].qualified == PropertyAlias(table, js, cols[i].1).value + "." + cols[i].1.name
    ensures r.Failure? <==> exists i | 0 <= i < |cols| :: PropertyAlias(table, js, cols[i].1).Failure?
    decreases |cols|
  {
    if |cols| == 0 then Success([])
    else
      var alias :- PropertyAlias(table, js, cols[0].1);
      var rest :- Qualify(table, js, cols[1..]);
      assert forall i | 1 <= i < |cols| :: cols[i] == cols[1..][i - 1];
      Success([Property(cols[0].0, cols[0].1, alias + "." + cols[0].1.name)] + rest)
  }

  /** `ValidProperties`, in order. */
  function ValidProperties(d: Descriptor): (r: seq<string>)
    ensures |r| == |d.properties|
    ensures forall i | 0 <= i < |r| :: r[i] == d.properties[i].qualified
  {
    seq(|d.properties|, i requires 0 <= i < |d.properties| => d.properties[i].qualified)
  }

  // ---------------------------------------------------------------------------
  // The whitelist regex `^(p1|p2|...)$`
  // ---------------------------------------------------------------------------

  /** One pattern character against one input character: `.` is any character but a newline. */
  predicate CharMatches(pattern: char, c: char) {
    if pattern == '.' then c != '\n' else pattern == c
  }

  /** The whole input matches one alternative of the whitelist. */
  predicate EntryMatches(entry: string, s: string) {
    |entry| == |s| && forall k | 0 <= k < |s| :: CharMatches(entry[k], s[k])
  }

  /** `ValidPropertiesRegex.IsMatch(s)`. */
  predicate IsValidProperty(d: Descriptor, s: string) {
    exists i | 0 <= i < |d.properties| :: EntryMatches(d.properties[i].qualified, s)
  }

  /** Every valid property passes the whitelist. */
  lemma ValidPropertyAccepted(d: Descriptor, i: int)
    requires 0 <= i < |d.properties|
    ensures IsValidProperty(d, d.properties[i].qualified)
  {
    assert EntryMatches(d.properties[i].qualified, d.properties[i].qualified);
  }

  /**
    What passes the whitelist is a valid property except that, where the property has
    a `.`, it may have any character but a newline: the dot is not escaped.
   */
  lemma AcceptedIsValidUpToDots(d: Descriptor, s: string)
    requires IsValidProperty(d, s)
    ensures exists i | 0 <= i < |d.properties| ::
      && |s| == |d.properties[i].qualified|
      && forall k | 0 <= k < |s| && d.properties[i].qualified[k] != '.' :: s[k] == d.properties[i].qualified[k]
  {
    var i :| 0 <= i < |d.properties| && EntryMatches(d.properties[i].qualified, s);
    assert forall k | 0 <= k < |s| && d.properties[i].qualified[k] != '.' :: CharMatches(d.properties[i].qualified[k], s[k]);
  }

  /** The unescaped dot: replacing the separator of a valid `alias.column` by any other non-newline character still passes. */
  lemma DotIsWildcard(d: Descriptor, i: int, dot: int, c: char)
    requires 0 <= i < |d.properties|
    requires 0 <= dot < |d.properties[i].qualified| && d.properties[i].qualified[dot] == '.'
    requires c != '\n'
    ensures IsValidProperty(d, d.properties[i].qualified[dot := c])
  {
    var q := d.properties[i].qualified;
    assert EntryMatches(q, q[dot := c]);
  }

  /**
    The message of the `ArgumentException` a free-text clause throws when its test value
    fails the whitelist: the clause's name, the valid properties and the value.
   */
  function NotAllowedMessage(clause: string, d: Descriptor, value: string): string {
    clause + " may only contain valid properties (" + Join(ValidProperties(d), ", ") + ")! \"" + value + "\" is not allowed!"
  }

  /** A string whose length is no valid property's length never passes. */
  lemma WrongLengthRejected(d: Descriptor, s: string)
    requires forall i | 0 <= i < |d.properties| :: |d.properties[i].qualified| != |s|
    ensures !IsValidProperty(d, s)
  {
  }

  // ---------------------------------------------------------------------------
  // Columns, FROM and JOIN
  // ---------------------------------------------------------------------------

  /**
    The alias the `Columns` getter gives a column: the column's table defaults to the
    table's name (only when missing, not when blank); that name takes the table's alias;
    any other takes the alias of its join, or nothing when no join has that table
    (`SingleOrDefault`: several is an `InvalidOperationException`).
   */
  function ColumnAlias(table: TableAttribute, js: seq<JoinAttribute>, col: ColumnAttribute): (r: Result<string, Error>)
    ensures r.Failure? <==> OrEmpty(col.table) != table.name && col.table.Some? && |JoinsOf(js, col.table.value)| > 1
    ensures (col.table.None? || col.table.value == table.name) ==> r == Success(OrEmpty(table.alias))
  {
    var t := if col.table.Some? then col.table.value else table.name;
    if t == table.name then Success(OrEmpty(table.alias))
    else
      var matches := JoinsOf(js, t);
      if |matches| == 0 then Success([])
      else if |matches| == 1 then Success(matches[0].alias)
      else Failure(NoSingleJoin(t, |matches|))
  }

  /** One entry of the column list: `alias.name`, or the bare name when the alias is blank. */
  function ColumnEntry(alias: string, name: string): string {
    alias + (if IsBlank(alias) then "" else ".") + name
  }

  /** The column entries, one per property, failing at the first ambiguous join. */
  function ColumnEntries(table: TableAttribute, js: seq<JoinAttribute>, cols: seq<(Name, ColumnAttribute)>): (r: Result<seq<string>, Error>)
    ensures r.Success? ==> |r.value| == |cols|
    ensures r.Success? ==> forall i | 0 <= i < |cols| ::
      ColumnAlias(table, js, cols[i].1).Success? && r.value[i] == ColumnEntry(ColumnAlias(table, js, cols[i].1).value, cols[i].1.name)
    ensures r.Failure? <==> exists i | 0 <= i < |cols| :: ColumnAlias(table, js, cols[i].1).Failure?
    decreases |cols|
  {
    if |cols| == 0 then Success([])
    else
      var alias :- ColumnAlias(table, js, cols[0].1);
      var rest :- ColumnEntries(table, js, cols[1..]);
      assert forall i | 1 <= i < |cols| :: cols[i] == cols[1..][i - 1];
      Success([ColumnEntry(alias, cols[0].1.name)] + rest)
  }

  /**
    The `Columns` getter as written: append each entry followed by `", "`, then remove
    the last two characters (with no entries, `Remove(-2, 2)` throws).
   */
  method BuildColumns(entries: seq<string>) returns (r: Result<string, Error>)
    ensures |entries| == 0 <==> r.Failure?
    ensures r.Success? ==> r.value == Join(entries, ", ")
  {
    var acc := "";
    var i := 0;
    while i < |entries|
      invariant 0 <= i <= |entries|
      invariant i == 0 ==> acc == ""
      invariant i > 0 ==> acc == Join(entries[..i], ", ") + ", "
    {
      if i > 0 {
        JoinSnoc(entries[..i], entries[i], ", ");
        assert entries[..i + 1] == entries[..i] + [entries[i]];
      } else {
        assert entries[..1] == [entries[0]];
      }
      acc := acc + entries[i] + ", ";
      i := i + 1;
    }
    if |acc| < 2 {
      return Failure(ArgumentOutOfRange("startIndex", "StartIndex cannot be less than zero."));
    }
    assert entries[..i] == entries;
    r := Success(acc[..|acc| - 2]);
  }

  /** `Join` grows at the end by the separator and the new piece. */
  lemma {:induction false} JoinSnoc(xs: seq<string>, x: string, sep: string)
    requires |xs| > 0
    ensures Join(xs + [x], sep) == Join(xs, sep) + sep + x
    decreases |xs|
  {
    if |xs| == 1 {
      assert (xs + [x])[1..] == [x];
    } else {
      assert (xs + [x])[1..] == xs[1..] + [x];
      JoinSnoc(xs[1..], x, sep);
    }
  }

  /** The column list of the `Columns` getter. */
  function ColumnsText(table: TableAttribute, js: seq<JoinAttribute>, cols: seq<(Name, ColumnAttribute)>): (r: Result<string, Error>)
    ensures r.Success? <==> |cols| > 0 && ColumnEntries(table, js, cols).Success?
    ensures r.Success? ==> ColumnEntries(table, js, cols).Success? && r.value == Join(ColumnEntries(table, js, cols).value, ", ")
  {
    var entries :- ColumnEntries(table, js, cols);
    if |entries| == 0 then Failure(ArgumentOutOfRange("startIndex", "StartIndex cannot be less than zero."))
    else Success(Join(entries, ", "))
  }

  /** ` FROM db.schema.table`, with ` AS alias` unless the alias is blank. */
  function FromClause(database: string, schema: string, table: TableAttribute): string {
    " FROM " + database + "." + schema + "." + table.name
      + (if IsNullOrWhiteSpace(table.alias) then "" else " AS " + table.alias.value)
  }

  /** One ` TYPE JOIN db.schema.table AS alias ON condition` per join, in order. */
  function JoinClauses(database: string, schema: string, js: seq<JoinAttribute>): string
    decreases |js|
  {
    if |js| == 0 then ""
    else
      (" " + js[0].joinType + " JOIN " + database + "." + schema + "." + js[0].table
       + " AS " + js[0].alias + " ON " + js[0].condition)
      + JoinClauses(database, schema, js[1..])
  }

  // ---------------------------------------------------------------------------
  // The constructor
  // ---------------------------------------------------------------------------

  /** `new SnowflakeCommand<T>(database, schema)`: the command, or the exception the constructor throws. */
  function New(e: EntityDecl, database: string, schema: string): (r: Result<Command, Error>)
    ensures e.table.None? ==> r.Failure?
    ensures |Attributed(e.members)| == 0 ==> r.Failure?
    ensures r.Success? ==> r.value.parameters == []
    ensures r.Success? ==> |r.value.desc.properties| == |Attributed(e.members)|
    ensures r.Success? ==>
      r.value.builder == "SELECT " + r.value.desc.columns
        + FromClause(database, schema, r.value.desc.table) + JoinClauses(database, schema, r.value.desc.joins)
    ensures r.Success? ==> !IsBlank(r.value.desc.table.name) && !IsNullOrWhiteSpace(r.value.desc.table.alias)
    ensures r.Success? ==> forall k | 0 <= k < |r.value.desc.joins| :: !IsBlank(r.value.desc.joins[k].alias)
    ensures r.Success? ==>
      && ResolveTable(e.typeName, e.table).Success?
      && r.value.desc.table == ResolveTable(e.typeName, e.table).value.table
      && AssignJoinAliases(e.joins, ResolveTable(e.typeName, e.table).value.nextLetter) == Success(r.value.desc.joins)
    ensures r.Success? ==>
      && ColumnEntries(r.value.desc.table, r.value.desc.joins, ColumnMembers(e.members)).Success?
      && r.value.desc.columns == Join(ColumnEntries(r.value.desc.table, r.value.desc.joins, ColumnMembers(e.members)).value, ", ")
  {
    var cols := ColumnMembers(e.members);
    ColumnMembersAreAttributed(e.members);
    var resolved :- ResolveTable(e.typeName, e.table);
    var joins :- AssignJoinAliases(e.joins, resolved.nextLetter);
    AssignedAliasesNotBlank(e.joins, resolved.nextLetter);
    var props :- Qualify(resolved.table, joins, cols);
    var columns :- ColumnsText(resolved.table, joins, cols);
    var desc := Descriptor(resolved.table, joins, props, columns);
    Success(Command(desc, "SELECT " + columns + FromClause(database, schema, resolved.table) + JoinClauses(database, schema, joins), []))
  }

  /** Every attributed member's column has an alias both in `ValidProperties` and in the `Columns` getter. */
  predicate ColumnsResolve(table: TableAttribute, js: seq<JoinAttribute>, ms: seq<MemberDecl>)
    requires forall i | 0 <= i < |ms| :: ms[i].column.Some?
  {
    forall i | 0 <= i < |ms| ::
      PropertyAlias(table, js, DefaultedColumn(ms[i])).Success? && ColumnAlias(table, js, DefaultedColumn(ms[i])).Success?
  }

  /** The first letter the alias pass hands out: `b` when the table took `a`. */
  function FirstJoinLetter(t: TableAttribute): nat {
    if IsNullOrWhiteSpace(t.alias) then 1 else 0
  }

  /**
    The constructor succeeds exactly when the class has a table attribute, the
    alphabet has a letter for every join with a blank alias, at least one member is
    attributed (else the `Columns` getter's `Remove` throws), and every attributed
    column finds its alias: a single join of its table for `ValidProperties`, at most
    one for the `Columns` getter.
   */
  lemma NewSucceedsIff(e: EntityDecl, database: string, schema: string)
    ensures New(e, database, schema).Success? <==>
      && e.table.Some?
      && (BlankAliases(e.joins) == 0 || FirstJoinLetter(e.table.value) + BlankAliases(e.joins) <= 26)
      && |Attributed(e.members)| > 0
      && var rt := ResolveTable(e.typeName, e.table).value;
         var js := AssignJoinAliases(e.joins, rt.nextLetter);
         js.Success? && ColumnsResolve(rt.table, js.value, Attributed(e.members))
  {
    ColumnMembersAreAttributed(e.members);
    if e.table.Some? {
      var rt := ResolveTable(e.typeName, e.table).value;
      AssignJoinAliasesSucceeds(e.joins, rt.nextLetter);
      var js := AssignJoinAliases(e.joins, rt.nextLetter);
      if js.Success? {
        var ms, cols := Attributed(e.members), ColumnMembers(e.members);
        assert forall i | 0 <= i < |ms| :: cols[i].1 == DefaultedColumn(ms[i]);
        if ColumnsResolve(rt.table, js.value, ms) {
          assert Qualify(rt.table, js.value, cols).Success?;
          assert ColumnEntries(rt.table, js.value, cols).Success?;
        } else {
          var i :| 0 <= i < |ms| && !(PropertyAlias(rt.table, js.value, DefaultedColumn(ms[i])).Success?
                                     && ColumnAlias(rt.table, js.value, DefaultedColumn(ms[i])).Success?);
          assert cols[i].1 == DefaultedColumn(ms[i]);
        }
      }
    }
  }

  /**
    The descriptor of a constructed command agrees with the class: properties are the
    attributed members in order, each qualified by `PropertyAlias`.
   */
  lemma NewProperties(e: EntityDecl, database: string, schema: string)
    requires New(e, database, schema).Success?
    ensures var c := New(e, database, schema).value;
      var ms := Attributed(e.members);
      forall i | 0 <= i < |ms| ::
        && c.desc.properties[i].member == ms[i].name
        && c.desc.properties[i].column == DefaultedColumn(ms[i])
        && PropertyAlias(c.desc.table, c.desc.joins, DefaultedColumn(ms[i])).Success?
        && c.desc.properties[i].qualified
           == PropertyAlias(c.desc.table, c.desc.joins, DefaultedColumn(ms[i])).value + "." + DefaultedColumn(ms[i]).name
  {
    ColumnMembersAreAttributed(e.members);
  }

  /** A constructed builder starts with `SELECT ` and so has text for later clauses to follow. */
  lemma ConstructedHasText(e: EntityDecl, database: string, schema: string)
    requires New(e, database, schema).Success?
    ensures StartsWith(New(e, database, schema).value.builder, "SELECT ")
    ensures HasText(New(e, database, schema).value)
  {
    var b := New(e, database, schema).value.builder;
    assert b[..7] == "SELECT ";
    assert b[0] == 'S';
  }

  /**
    A column that names the root table's own name, with no join of that table:
    `ValidProperties` finds no single join, so construction fails, although the
    `Columns` getter would have used the table's alias.
   */
  lemma RootTableNamedColumnRejected(e: EntityDecl, database: string, schema: string, i: int)
    requires e.table.Some? && !IsBlank(e.table.value.name)
    requires 0 <= i < |Attributed(e.members)|
    requires Attributed(e.members)[i].column.value.table == Some(e.table.value.name)
    requires forall j | j in e.joins :: j.table != e.table.value.name
    ensures New(e, database, schema).Failure?
  {
    ColumnMembersAreAttributed(e.members);
    var cols := ColumnMembers(e.members);
    var rt := ResolveTable(e.typeName, e.table).value;
    NameNotBlank(e.typeName);
    assert !IsNullOrWhiteSpace(cols[i].1.table) by {
      assert e.table.value.name == cols[i].1.table.value;
    }
    var joins := AssignJoinAliases(e.joins, rt.nextLetter);
    if joins.Success? {
      AssignedAliasesNotBlank(e.joins, rt.nextLetter);
      var js := joins.value;
      assert forall j | j in js :: j.table != e.table.value.name by {
        forall j | j in js ensures j.table != e.table.value.name {
          var k :| 0 <= k < |js| && js[k] == j;
          assert e.joins[k] in e.joins;
        }
      }
      assert |JoinsOf(js, cols[i].1.table.value)| == 0;
      assert PropertyAlias(rt.table, js, cols[i].1).Failure?;
    }
  }

  /**
    A column that names the root table's own name while a join of that same table
    exists: `ValidProperties` qualifies it with the join's alias, the column list with
    the table's alias.
   */
  lemma SelfJoinAliasesDisagree(table: TableAttribute, js: seq<JoinAttribute>, col: ColumnAttribute)
    requires col.table == Some(table.name) && !IsBlank(table.name)
    requires |JoinsOf(js, table.name)| == 1
    ensures PropertyAlias(table, js, col) == Success(JoinsOf(js, table.name)[0].alias)
    ensures ColumnAlias(table, js, col) == Success(OrEmpty(table.alias))
  {
    assert !IsNullOrWhiteSpace(col.table);
  }

  // ---------------------------------------------------------------------------
  // What the clause methods share
  // ---------------------------------------------------------------------------

  /**
    The text a string clause appends after a space: the trimmed argument, prefixed with
    `keyword ` unless it already starts with the keyword in any letter case.
   */
  function KeywordClause(keyword: string, arg: string): (r: string)
    ensures StartsWithIgnoreCase(r, keyword)
    ensures EndsWith(r, Trim(arg))
    ensures StartsWithIgnoreCase(Trim(arg), keyword) ==> r == Trim(arg)
  {
    var t := Trim(arg);
    if StartsWithIgnoreCase(t, keyword) then
      assert t[|t| - |t|..] == t;
      t
    else
      var r := keyword + " " + t;
      assert r[|r| - |t|..] == t;
      assert forall i | 0 <= i < |keyword| :: r[i] == keyword[i];
      r
  }

  /** A text starting with the keyword, written out, is its own keyword clause. */
  lemma KeywordClauseOfKeyworded(kw: string, q: string)
    requires |kw| > 0 && !IsWhiteSpace(kw[0])
    requires |q| > 0 && !IsWhiteSpace(q[|q| - 1])
    ensures KeywordClause(kw, kw + (" " + q)) == kw + (" " + q)
  {
    var v := kw + (" " + q);
    TrimUnpadded(v);
    assert forall k | 0 <= k < |kw| :: v[k] == kw[k];
    assert StartsWithIgnoreCase(v, kw);
  }

  /** A trimmed text not starting with the keyword in any case gets the keyword and a space in front. */
  lemma KeywordClauseOfBare(kw: string, q: string)
    requires |q| > 0 && !IsWhiteSpace(q[0]) && !IsWhiteSpace(q[|q| - 1])
    requires !StartsWithIgnoreCase(q, kw)
    ensures KeywordClause(kw, q) == kw + (" " + q)
  {
    TrimUnpadded(q);
    assert kw + " " + q == kw + (" " + q);
  }

  /**
    A keyword clause whose keyword, if the argument wrote it, is in upper case shows the
    keyword in `Sql` once appended.
   */
  lemma KeywordClauseShows(c: Command, kw: string, arg: string)
    requires |kw| > 0 && !IsWhiteSpace(kw[0]) && !IsWhiteSpace(kw[|kw| - 1])
    requires !StartsWithIgnoreCase(Trim(arg), kw) || StartsWith(Trim(arg), kw)
    ensures Contains(Sql(Append(c, " " + KeywordClause(kw, arg))), kw)
  {
    var clause := KeywordClause(kw, arg);
    assert StartsWith(clause, kw) by {
      assert (kw + " " + Trim(arg))[..|kw|] == kw;
    }
    StartsWithContains(clause, kw);
    ContainsConcat(" ", clause, kw);
    AppendedKeywordShows(c, " " + clause, kw);
  }

  /** ` KEYWORD body`: the clause the selector forms append. */
  function SpacedClause(kw: string, body: string): string {
    " " + (kw + (" " + body))
  }

  /** A keyword whose ends are not white space, appended as a spaced clause, shows in `Sql`. */
  lemma SpacedClauseShows(c: Command, kw: string, body: string)
    requires |kw| > 0 && !IsWhiteSpace(kw[0]) && !IsWhiteSpace(kw[|kw| - 1])
    ensures Contains(Sql(Append(c, SpacedClause(kw, body))), kw)
  {
    SpacedKeywordContained(" ", kw, " " + body);
    assert " " + kw + (" " + body) == SpacedClause(kw, body);
    AppendedKeywordShows(c, SpacedClause(kw, body), kw);
  }

  /** The `.Replace(param + ".", "")` that drops the lambda's parameter from member accesses. */
  function StripParameter(param: Name, text: string): string {
    ReplaceAll(text, param + ".", "")
  }

  /** Each property's member name, in the order of `Properties`, replaced by its `alias.column`. */
  function RewriteMembers(props: seq<Property>, text: string): string
    decreases |props|
  {
    if |props| == 0 then text
    else RewriteMembers(props[1..], ReplaceAll(text, props[0].member, props[0].qualified))
  }

  /** The command with `suffix` appended to its builder; descriptor and parameters unchanged. */
  function Append(c: Command, suffix: string): (r: Command)
    ensures r.desc == c.desc && r.parameters == c.parameters
    ensures |r.builder| == |c.builder| + |suffix| && r.builder[..|c.builder|] == c.builder
  {
    c.(builder := c.builder + suffix)
  }

  /** The builder has something that is not white space, as every constructed builder does. */
  predicate HasText(c: Command) {
    exists lo | 0 <= lo < |c.builder| :: !IsWhiteSpace(c.builder[lo])
  }

  /** A text holding a keyword between two other texts contains it. */
  lemma SpacedKeywordContained(a: string, kw: string, b: string)
    ensures Contains(a + kw + b, kw)
  {
    assert (a + kw + b)[|a|..|a| + |kw|] == kw;
    OccursAtContains(a + kw + b, kw, |a|);
  }

  /** A keyword whose ends are not white space, once appended, shows in `Sql`. */
  lemma AppendedKeywordShows(c: Command, suffix: string, kw: string)
    requires Contains(suffix, kw)
    requires |kw| > 0 && !IsWhiteSpace(kw[0]) && !IsWhiteSpace(kw[|kw| - 1])
    ensures Contains(Sql(Append(c, suffix)), kw)
  {
    ContainsConcat(c.builder, suffix, kw);
    ContainsTrim(c.builder + suffix, kw);
  }

  /**
    A keyword with white space at its ends, appended to a builder that has text, shows
    in `Sql` as long as the suffix ends in something other than white space.
   */
  lemma AppendedSpacedKeywordShows(c: Command, suffix: string, kw: string, i: int)
    requires HasText(c)
    requires OccursAt(suffix, kw, i)
    requires |suffix| > 0 && !IsWhiteSpace(suffix[|suffix| - 1])
    ensures Contains(Sql(Append(c, suffix)), kw)
  {
    var lo :| 0 <= lo < |c.builder| && !IsWhiteSpace(c.builder[lo]);
    var s := c.builder + suffix;
    assert s[|c.builder| + i..|c.builder| + i + |kw|] == suffix[i..i + |kw|];
    assert s[lo] == c.builder[lo];
    assert s[|s| - 1] == suffix[|suffix| - 1];
    ContainsTrimGuarded(s, kw, |c.builder| + i, lo, |s| - 1);
  }

  /**
    A keyword neither the builder nor the appended text holds, and that cannot straddle
    the seam, stays out of `Sql`.
   */
  lemma AppendedKeywordAbsent(c: Command, suffix: string, kw: string)
    requires !Contains(c.builder, kw) && !Contains(suffix, kw)
    requires NoStraddle(c.builder, suffix, kw)
    ensures !Contains(Sql(Append(c, suffix)), kw)
  {
    NotContainsConcat(c.builder, suffix, kw);
    ContainsOfTrim(c.builder + suffix, kw);
  }

  /** A keyword whose ends are not white space is in the builder exactly when it is in `Sql`. */
  lemma KeywordInBuilderIffInSql(c: Command, kw: string)
    requires |kw| > 0 && !IsWhiteSpace(kw[0]) && !IsWhiteSpace(kw[|kw| - 1])
    ensures Contains(c.builder, kw) <==> Contains(Sql(c), kw)
  {
    if Contains(c.builder, kw) {
      ContainsTrim(c.builder, kw);
    }
    ContainsOfTrim(c.builder, kw);
  }
}

=== FILE: distinct.dfy ===
/**
  `SnowflakeCommand<T>.IsDistinct`: turns `SELECT` into `SELECT DISTINCT`, at most once.
  Like the source's `StringBuilder.Replace`, the rewrite touches every `SELECT` in the builder.
 */
module DistinctClause {

  import opened Wrappers
  import opened Text
  import opened Errors
  import opened Command
  import opened SelectHead

  /** `IsDistinct()`: the rewritten command, or the exception the method throws. */
  function IsDistinct(c: Command): (r: Result<Command, Error>)
    ensures r.Failure? <==> Contains(Sql(c), "SELECT DISTINCT")
    ensures r.Failure? ==> r.error == InvalidOperation("Command is already marked as distinct!")
    ensures r.Success? ==> r.value.desc == c.desc && r.value.parameters == c.parameters
    ensures r.Success? ==> r.value.builder == ReplaceAll(c.builder, "SELECT", "SELECT DISTINCT")
  {
    if Contains(Sql(c), "SELECT DISTINCT") then
      Failure(InvalidOperation("Command is already marked as distinct!"))
    else
      Success(c.(builder := ReplaceAll(c.builder, "SELECT", "SELECT DISTINCT")))
  }

  /**
    A builder whose only `SELECT` is its opening word (true of a constructed builder
    whose names do not spell that word), followed by `rest`.
   */
  predicate PlainSelect(c: Command, rest: string) {
    c.builder == "SELECT " + rest && !Contains(rest, "SELECT")
  }

  /**
    When the builder is a head that holds `SELECT` only at its start, ending in a space,
    followed by a rest without `SELECT`, a keyword that begins with `SELECT` is in the
    query exactly when the builder starts with it.
   */
  lemma HeadOccurrence(c: Command, head: string, rest: string, p: string)
    requires c.builder == head + rest
    requires |head| > 0 && head[|head| - 1] == ' ' && !Contains(head[1..], "SELECT")
    requires !Contains(rest, "SELECT")
    requires StartsWith(p, "SELECT") && !IsWhiteSpace(p[|p| - 1])
    ensures Contains(Sql(c), p) <==> StartsWith(c.builder, p)
  {
    SelectHasNoSpace();
    assert p[0] == "SELECT"[0];
    KeywordInBuilderIffInSql(c, p);
    OccursOnlyAtFront(head, rest, "SELECT", p);
  }

  /** In a plain builder, a keyword that begins with `SELECT` occurs exactly when the builder starts with it. */
  lemma PlainSelectOccurrence(c: Command, rest: string, p: string)
    requires PlainSelect(c, rest)
    requires StartsWith(p, "SELECT") && !IsWhiteSpace(p[|p| - 1])
    ensures Contains(Sql(c), p) <==> StartsWith(c.builder, p)
  {
    SelectHeadClear();
    HeadOccurrence(c, "SELECT ", rest, p);
  }

  /** A plain builder whose columns do not start with `DISTINCT` is not yet distinct. */
  lemma PlainSelectNotDistinct(c: Command, rest: string)
    requires PlainSelect(c, rest) && !StartsWith(rest, "DISTINCT")
    ensures !Contains(Sql(c), "SELECT DISTINCT")
  {
    SelectDistinctIsKeyword();
    PlainSelectOccurrence(c, rest, "SELECT DISTINCT");
    SelectDistinctSplit();
    StartsWithAfterHead("SELECT ", rest, "DISTINCT");
  }

  /** On a plain builder whose columns do not start with `DISTINCT`, the opening word becomes `SELECT DISTINCT`. */
  lemma DistinctOnPlainSelect(c: Command, rest: string)
    requires PlainSelect(c, rest) && !StartsWith(rest, "DISTINCT")
    ensures IsDistinct(c) == Success(c.(builder := "SELECT DISTINCT " + rest))
  {
    PlainSelectNotDistinct(c, rest);
    SelectReplace(rest, "SELECT DISTINCT");
    SelectDistinctSpaceSplit();
  }

  /** On a builder that holds `SELECT`, a second `IsDistinct` is refused. */
  lemma DistinctOnlyOnce(c: Command)
    requires IsDistinct(c).Success?
    requires Contains(c.builder, "SELECT")
    ensures IsDistinct(IsDistinct(c).value).Failure?
  {
    SelectDistinctIsKeyword();
    StartsWithConcat("SELECT DISTINCT", "");
    assert "SELECT DISTINCT" + "" == "SELECT DISTINCT";
    ReplacedShows(c.builder, "SELECT", "SELECT DISTINCT", "SELECT DISTINCT");
  }

  /** On a builder without `SELECT`, `IsDistinct` changes nothing, so it can be called again and again. */
  lemma DistinctWithoutSelectIsNoOp(c: Command)
    requires !Contains(c.builder, "SELECT")
    ensures IsDistinct(c) == Success(c)
  {
    SelectDistinctIsKeyword();
    ContainsPrefixOf(c.builder, "SELECT DISTINCT", "SELECT");
    KeywordInBuilderIffInSql(c, "SELECT DISTINCT");
  }
}

=== FILE: errors.dfy ===
/**
  The exceptions the command builder and the row materializer raise, one constructor
  per .NET exception type that the modelled code throws (or lets escape from a
  framework call it makes).
 */
module Errors {

  import opened TypeMap

  datatype Error =
      /** `InvalidOperationException` raised by a clause guard. */
    | InvalidOperation(message: string)
      /** `ArgumentNullException` for a null, empty or white-space clause text. */
    | ArgumentNull(paramName: string, message: string)
      /** `ArgumentOutOfRangeException` for a numeric clause argument. */
    | ArgumentOutOfRange(paramName: string, message: string)
      /** `ArgumentException` for a free-text clause outside the column whitelist. */
    | Argument(message: string)
      /** `NotSupportedException` for an expression node kind or member type with no mapping. */
    | NotSupported(message: string)
      /** `KeyNotFoundException` from the type map lookup; carries the (runtime) type looked up. */
    | KeyNotFound(key: ClrType)
      /** `NullReferenceException`: a missing table attribute or a captured value that is null. */
    | NullReference(what: string)
      /** `IndexOutOfRangeException`: alias alphabet exhausted, or a column the cursor lacks. */
    | IndexOutOfRange(what: string)
      /** `InvalidOperationException` from `Single`/`SingleOrDefault`: `matches` joins carry `table`. */
    | NoSingleJoin(table: string, matches: nat)
      /** `ArgumentOutOfRangeException` from removing the trailing separator of an empty column list. */
    | EmptyColumnList
      /** `InvalidCastException` from a typed cursor getter applied to a null cell. */
    | InvalidCast(column: string)
      /** `ArgumentException` from `StringBuilder.Replace` asked to replace an empty text. */
    | EmptyReplaceTarget
}

=== FILE: expressions.dfy ===
/**
  The expression trees a predicate or projection lambda arrives as, reduced to
  the node kinds the command inspects, and the text the host prints for them.

  The host's `ToString` is replaced by `Render`, which prints a node the way
  .NET's expression printer does for these kinds: `(l op r)` for a binary node,
  `target.Method(a, b)` for a call (an extension method's first argument printed
  as its target), `p => body` for a lambda. Member accesses and
  constants keep the text the host gave them, so a string constant's quoting is
  whatever that text says.
 */
module Expressions {

  import opened Wrappers
  import opened Text
  import TypeMap
  import opened Replacement

  /** The binary node kinds `WalkExpression` descends into. */
  datatype BinaryKind =
    | GreaterThan | GreaterThanOrEqual | LessThan | LessThanOrEqual | OrElse | AndAlso | Equal

  /** What evaluating a captured member yields: the type it declares and its `ToString()`. */
  datatype Boxed = Boxed(declared: TypeMap.ClrType, text: string)

  /**
    An expression node. `Member` is a member access with its printed text and, for a
    captured variable, the value evaluating it yields (`None` for null). `Other`
    stands for every node kind the walk does not know (`!=`, `!`, a conversion, a
    parameter on its own, ...), with its printed text.
   */
  datatype Expr =
    | Member(text: string, value: Option<Boxed>)
    | Binary(kind: BinaryKind, left: Expr, right: Expr)
    | Call(target: Option<Expr>, methodName: string, args: seq<Expr>)
      /** A call of an extension method: its first argument, printed as the receiver. */
    | ExtensionCall(receiver: Expr, methodName: string, args: seq<Expr>)
    | Lambda(param: string, body: Expr)
    | Constant(text: string)
    | Other(nodeType: string, text: string)

  /** A node the walk does not descend from. */
  predicate IsLeaf(e: Expr) {
    e.Member? || e.Constant? || e.Other?
  }

  // ---------------------------------------------------------------------------
  // Printing
  // ---------------------------------------------------------------------------

  /**
    The operator of a binary node as printed at `stage`: stage 0 is the host's
    spelling (`AndAlso`, `OrElse`, `==`), stages 1 and 2 follow the first and
    second operator pass, stage 3 is SQL (`AND`, `OR`, `=`).
   */
  function OpText(k: BinaryKind, stage: nat): (r: string)
    requires stage <= 3
    ensures |r| > 0
  {
    match k
    case GreaterThan => ">"
    case GreaterThanOrEqual => ">="
    case LessThan => "<"
    case LessThanOrEqual => "<="
    case AndAlso => if stage == 0 then "AndAlso" else "AND"
    case OrElse => if stage <= 1 then "OrElse" else "OR"
    case Equal => if stage <= 2 then "==" else "="
  }

  /** The printed text of a node, operators spelled as at `stage`. */
  function Render(e: Expr, stage: nat): string
    requires stage <= 3
    decreases e, 1
  {
    match e
    case Member(text, _) => text
    case Constant(text) => text
    case Other(_, text) => text
    case Binary(k, l, r) =>
      "(" + (Render(l, stage) + (" " + (OpText(k, stage) + (" " + (Render(r, stage) + ")")))))
    case Call(target, m, args) =>
      var call := m + ("(" + (RenderArgs(args, stage) + ")"));
      if target.Some? then Render(target.value, stage) + ("." + call) else call
    case ExtensionCall(receiver, m, args) =>
      Render(receiver, stage) + ("." + (m + ("(" + (RenderArgs(args, stage) + ")"))))
    case Lambda(p, body) => p + (" " + ("=>" + (" " + Render(body, stage))))
  }

  /** Call arguments, printed and separated by `", "`. */
  function RenderArgs(args: seq<Expr>, stage: nat): string
    requires stage <= 3
    decreases args, 0
  {
    if |args| == 0 then []
    else if |args| == 1 then Render(args[0], stage)
    else Render(args[0], stage) + ("," + (" " + RenderArgs(args[1..], stage)))
  }

  // ---------------------------------------------------------------------------
  // The operator passes
  // ---------------------------------------------------------------------------

  /** The host spelling the operator pass at `stage` looks for. */
  function Token(stage: nat): (r: string)
    requires stage < 3
    ensures |r| > 0
  {
    if stage == 0 then "AndAlso" else if stage == 1 then "OrElse" else "=="
  }

  /** The SQL spelling the operator pass at `stage` puts in its place. */
  function SqlToken(stage: nat): string
    requires stage < 3
  {
    if stage == 0 then "AND" else if stage == 1 then "OR" else "="
  }

  /** One operator pass over a text. */
  function OperatorPass(t: string, stage: nat): string
    requires stage < 3
  {
    ReplaceAll(t, Token(stage), SqlToken(stage))
  }

  /** The operator passes from `stage` on, in the order the command runs them. */
  function OperatorsFrom(t: string, stage: nat): string
    requires stage <= 3
    decreases 3 - stage
  {
    if stage == 3 then t else OperatorsFrom(OperatorPass(t, stage), stage + 1)
  }

  /** The three operator passes: `AndAlso`, then `OrElse`, then `==`. */
  function Operators(t: string): string {
    OperatorsFrom(t, 0)
  }

  /** Every text in the tree put through one operator pass; operators and values untouched. */
  function PassTexts(e: Expr, stage: nat): (r: Expr)
    requires stage < 3
    decreases e, 1
  {
    match e
    case Member(text, v) => Member(OperatorPass(text, stage), v)
    case Constant(text) => Constant(OperatorPass(text, stage))
    case Other(n, text) => Other(n, OperatorPass(text, stage))
    case Binary(k, l, r) => Binary(k, PassTexts(l, stage), PassTexts(r, stage))
    case Call(target, m, args) =>
      var t := if target.Some? then Some(PassTexts(target.value, stage)) else None;
      Call(t, OperatorPass(m, stage), PassArgs(args, stage))
    case ExtensionCall(receiver, m, args) =>
      ExtensionCall(PassTexts(receiver, stage), OperatorPass(m, stage), PassArgs(args, stage))
    case Lambda(p, body) => Lambda(OperatorPass(p, stage), PassTexts(body, stage))
  }

  /** `PassTexts` on each argument. */
  function PassArgs(args: seq<Expr>, stage: nat): (r: seq<Expr>)
    requires stage < 3
    ensures |r| == |args|
    decreases args, 0
  {
    if |args| == 0 then [] else [PassTexts(args[0], stage)] + PassArgs(args[1..], stage)
  }

  /** The characters the printer puts between texts are absent from every token. */
  lemma TokenLacksPunctuation(stage: nat)
    requires stage < 3
    ensures '(' !in Token(stage) && ')' !in Token(stage) && ' ' !in Token(stage)
    ensures '.' !in Token(stage) && ',' !in Token(stage)
  {
  }

  /** An operator pass turns the operator's stage spelling into the next stage's. */
  lemma OpTextPass(k: BinaryKind, stage: nat)
    requires stage < 3
    ensures OperatorPass(OpText(k, stage), stage) == OpText(k, stage + 1)
  {
    var o, tok := OpText(k, stage), Token(stage);
    if o == tok {
      ReplaceAllWhole(tok, SqlToken(stage));
    } else if |o| < |tok| {
      NotContainsLonger(o, tok);
    } else if stage == 2 {
      OpTextLacksEquals(k);
    } else {
      NotContainsLonger(o, tok);
    }
  }

  /** The operators that are not `==` do not contain it at stage 2. */
  lemma OpTextLacksEquals(k: BinaryKind)
    requires k != Equal
    ensures !Contains(OpText(k, 2), "==")
  {
    var o := OpText(k, 2);
    if |o| < 2 {
      NotContainsLonger(o, "==");
    } else if k == AndAlso {
      NotContainsByChar(o, "==", 0);
    } else {
      assert o != "==";
      assert !StartsWith(o, "==");
      NotContainsLonger(o[1..], "==");
    }
  }

  /** The arrow of a lambda passes every operator pass unchanged. */
  lemma ArrowPass(stage: nat)
    requires stage < 3
    ensures OperatorPass("=>", stage) == "=>"
  {
    if stage < 2 {
      NotContainsLonger("=>", Token(stage));
    } else {
      assert "=>"[..2][1] == '>';
      NotContainsLonger("=>"[1..], "==");
    }
  }

  /** An operator pass over a binary node's printing passes each part. */
  lemma BinaryTextPass(L: string, o: string, R: string, stage: nat)
    requires stage < 3
    ensures OperatorPass("(" + (L + (" " + (o + (" " + (R + ")"))))), stage)
      == "(" + (OperatorPass(L, stage) + (" " + (OperatorPass(o, stage) + (" " + (OperatorPass(R, stage) + ")")))))
  {
    var tok, sql := Token(stage), SqlToken(stage);
    TokenLacksPunctuation(stage);
    ReplaceAllTrailingSep(R, ")", tok, sql);
    ReplaceAllAroundSep(o, " ", R + ")", tok, sql);
    ReplaceAllAroundSep(L, " ", o + (" " + (R + ")")), tok, sql);
    ReplaceAllLeadingSep("(", L + (" " + (o + (" " + (R + ")")))), tok, sql);
  }

  /** An operator pass over a call's printing passes the method name and the arguments. */
  lemma CallTextPass(m: string, A: string, stage: nat)
    requires stage < 3
    ensures OperatorPass(m + ("(" + (A + ")")), stage) == OperatorPass(m, stage) + ("(" + (OperatorPass(A, stage) + ")"))
  {
    var tok, sql := Token(stage), SqlToken(stage);
    TokenLacksPunctuation(stage);
    ReplaceAllTrailingSep(A, ")", tok, sql);
    ReplaceAllAroundSep(m, "(", A + ")", tok, sql);
  }

  /** An operator pass over `target.call` passes each side of the dot. */
  lemma DotTextPass(T: string, call: string, stage: nat)
    requires stage < 3
    ensures OperatorPass(T + ("." + call), stage) == OperatorPass(T, stage) + ("." + OperatorPass(call, stage))
  {
    TokenLacksPunctuation(stage);
    ReplaceAllAroundSep(T, ".", call, Token(stage), SqlToken(stage));
  }

  /** An operator pass over a lambda's printing passes the parameter and the body. */
  lemma LambdaTextPass(p: string, B: string, stage: nat)
    requires stage < 3
    ensures OperatorPass(p + (" " + ("=>" + (" " + B))), stage) == OperatorPass(p, stage) + (" " + ("=>" + (" " + OperatorPass(B, stage))))
  {
    var tok, sql := Token(stage), SqlToken(stage);
    TokenLacksPunctuation(stage);
    ArrowPass(stage);
    ReplaceAllAroundSep("=>", " ", B, tok, sql);
    ReplaceAllAroundSep(p, " ", "=>" + (" " + B), tok, sql);
  }

  /** An operator pass over `head, tail` passes each side of the separator. */
  lemma ArgsTextPass(H: string, T: string, stage: nat)
    requires stage < 3
    ensures OperatorPass(H + ("," + (" " + T)), stage) == OperatorPass(H, stage) + ("," + (" " + OperatorPass(T, stage)))
  {
    var tok, sql := Token(stage), SqlToken(stage);
    TokenLacksPunctuation(stage);
    ReplaceAllLeadingSep(" ", T, tok, sql);
    ReplaceAllAroundSep(H, ",", " " + T, tok, sql);
  }

  /** An operator pass over a printed tree is the printed tree of its texts, one stage on. */
  lemma {:induction false} RenderPass(e: Expr, stage: nat)
    requires stage < 3
    ensures OperatorPass(Render(e, stage), stage) == Render(PassTexts(e, stage), stage + 1)
    decreases e, 1
  {
    match e
    case Member(_, _) =>
    case Constant(_) =>
    case Other(_, _) =>
    case Binary(k, l, r) =>
      RenderPass(l, stage);
      RenderPass(r, stage);
      OpTextPass(k, stage);
      BinaryTextPass(Render(l, stage), OpText(k, stage), Render(r, stage), stage);
    case Call(target, m, args) =>
      var A := RenderArgs(args, stage);
      RenderArgsPass(args, stage);
      CallTextPass(m, A, stage);
      if target.Some? {
        RenderPass(target.value, stage);
        DotTextPass(Render(target.value, stage), m + ("(" + (A + ")")), stage);
      }
    case ExtensionCall(receiver, m, args) =>
      var A := RenderArgs(args, stage);
      RenderArgsPass(args, stage);
      CallTextPass(m, A, stage);
      RenderPass(receiver, stage);
      DotTextPass(Render(receiver, stage), m + ("(" + (A + ")")), stage);
    case Lambda(p, body) =>
      RenderPass(body, stage);
      LambdaTextPass(p, Render(body, stage), stage);
  }

  /** `RenderPass` for the arguments of a call. */
  lemma {:induction false} RenderArgsPass(args: seq<Expr>, stage: nat)
    requires stage < 3
    ensures OperatorPass(RenderArgs(args, stage), stage) == RenderArgs(PassArgs(args, stage), stage + 1)
    decreases args, 0
  {
    if |args| == 1 {
      RenderPass(args[0], stage);
    } else if |args| > 1 {
      RenderPass(args[0], stage);
      RenderArgsPass(args[1..], stage);
      ArgsTextPass(Render(args[0], stage), RenderArgs(args[1..], stage), stage);
    }
  }

  /** Every text in the tree put through the operator passes from `stage` on. */
  function PassesFrom(e: Expr, stage: nat): Expr
    requires stage <= 3
    decreases 3 - stage
  {
    if stage == 3 then e else PassesFrom(PassTexts(e, stage), stage + 1)
  }

  /** The operator passes from `stage` on, over a printed tree, print its passed texts in SQL. */
  lemma {:induction false} RenderPassesFrom(e: Expr, stage: nat)
    requires stage <= 3
    ensures OperatorsFrom(Render(e, stage), stage) == Render(PassesFrom(e, stage), 3)
    decreases 3 - stage
  {
    if stage < 3 {
      RenderPass(e, stage);
      RenderPassesFrom(PassTexts(e, stage), stage + 1);
    }
  }

  /**
    The three operator passes over a printed tree print it in SQL: every binary
    operator comes out as `AND`, `OR`, `=`, `>`, `>=`, `<` or `<=`, and every other
    text goes through the same three passes.
   */
  lemma OperatorsRenderSql(e: Expr)
    ensures Operators(Render(e, 0)) == Render(PassesFrom(e, 0), 3)
  {
    RenderPassesFrom(e, 0);
  }

  // ---------------------------------------------------------------------------
  // Texts without host operators
  // ---------------------------------------------------------------------------

  /** No text of the tree holds the token of `stage`. */
  predicate TextsLack(e: Expr, stage: nat)
    requires stage < 3
    decreases e, 1
  {
    match e
    case Member(text, _) => !Contains(text, Token(stage))
    case Constant(text) => !Contains(text, Token(stage))
    case Other(_, text) => !Contains(text, Token(stage))
    case Binary(_, l, r) => TextsLack(l, stage) && TextsLack(r, stage)
    case Call(target, m, args) =>
      (target.Some? ==> TextsLack(target.value, stage)) && !Contains(m, Token(stage)) && ArgsLack(args, stage)
    case ExtensionCall(receiver, m, args) =>
      TextsLack(receiver, stage) && !Contains(m, Token(stage)) && ArgsLack(args, stage)
    case Lambda(p, body) => !Contains(p, Token(stage)) && TextsLack(body, stage)
  }

  /** `TextsLack` for every argument. */
  predicate ArgsLack(args: seq<Expr>, stage: nat)
    requires stage < 3
    decreases args, 0
  {
    |args| == 0 || (TextsLack(args[0], stage) && ArgsLack(args[1..], stage))
  }

  /** A pass over texts that lack its token changes nothing. */
  lemma {:induction false} PassTextsIdentity(e: Expr, stage: nat)
    requires stage < 3 && TextsLack(e, stage)
    ensures PassTexts(e, stage) == e
    decreases e, 1
  {
    match e
    case Member(_, _) =>
    case Constant(_) =>
    case Other(_, _) =>
    case Binary(_, l, r) =>
      PassTextsIdentity(l, stage);
      PassTextsIdentity(r, stage);
    case Call(target, _, args) =>
      if target.Some? {
        PassTextsIdentity(target.value, stage);
      }
      PassArgsIdentity(args, stage);
    case ExtensionCall(receiver, _, args) =>
      PassTextsIdentity(receiver, stage);
      PassArgsIdentity(args, stage);
    case Lambda(_, body) =>
      PassTextsIdentity(body, stage);
  }

  /** `PassTextsIdentity` for the arguments of a call. */
  lemma {:induction false} PassArgsIdentity(args: seq<Expr>, stage: nat)
    requires stage < 3 && ArgsLack(args, stage)
    ensures PassArgs(args, stage) == args
    decreases args, 0
  {
    if |args| > 0 {
      PassTextsIdentity(args[0], stage);
      PassArgsIdentity(args[1..], stage);
      assert args == [args[0]] + args[1..];
    }
  }

  /**
    When no text of the tree spells a host operator, the operator passes turn the
    host's printing into the SQL printing and change nothing else.
   */
  lemma OperatorsOfPlainTree(e: Expr)
    requires TextsLack(e, 0) && TextsLack(e, 1) && TextsLack(e, 2)
    ensures Operators(Render(e, 0)) == Render(e, 3)
  {
    OperatorsRenderSql(e);
    PassTextsIdentity(e, 0);
    PassTextsIdentity(e, 1);
    PassTextsIdentity(e, 2);
  }

  // ---------------------------------------------------------------------------
  // Leaves
  // ---------------------------------------------------------------------------

  /**
    The leaves the walk visits, in its order: left before right, arguments in
    order, a lambda's body. A call's target is not visited; an extension call's
    receiver is its first argument and is.
   */
  function Leaves(e: Expr): (r: seq<Expr>)
    ensures forall i | 0 <= i < |r| :: IsLeaf(r[i])
    decreases e, 1
  {
    match e
    case Member(_, _) => [e]
    case Constant(_) => [e]
    case Other(_, _) => [e]
    case Binary(_, l, r) => Leaves(l) + Leaves(r)
    case Call(_, _, args) => ArgLeaves(args)
    case ExtensionCall(receiver, _, args) => Leaves(receiver) + ArgLeaves(args)
    case Lambda(_, body) => Leaves(body)
  }

  /** The leaves of each argument, one after another. */
  function ArgLeaves(args: seq<Expr>): (r: seq<Expr>)
    ensures forall i | 0 <= i < |r| :: IsLeaf(r[i])
    decreases args, 0
  {
    if |args| == 0 then [] else Leaves(args[0]) + ArgLeaves(args[1..])
  }
}

=== FILE: groupby.dfy ===
/**
  `SnowflakeCommand<T>.GroupBy`: a GROUP BY clause from a selector or from text,
  allowed once. The selector form projects `alias.column` names as `Select` does; the
  text form must name exactly one valid property, with or without the keyword.
 */
module GroupByClause {

  import opened Wrappers
  import opened Text
  import opened Errors
  import opened Command
  import opened Projection
  import opened Replacement

  const AlreadyGrouped: string := "Command already has a group by clause!"

  /** `GroupBy(predicate)`: the command with ` GROUP BY ` and the projected names appended, or the guard's exception. */
  function GroupByPredicate(c: Command, sel: Selector): (r: Result<Command, Error>)
    ensures r.Failure? <==> Contains(Sql(c), "GROUP BY")
    ensures r.Failure? ==> r.error == InvalidOperation(AlreadyGrouped)
    ensures r.Success? ==> r.value == Append(c, SpacedClause("GROUP BY", ProjectionText(c.desc.properties, sel)))
  {
    if Contains(Sql(c), "GROUP BY") then Failure(InvalidOperation(AlreadyGrouped))
    else Success(Append(c, SpacedClause("GROUP BY", ProjectionText(c.desc.properties, sel))))
  }

  /** What the text form checks against the whitelist: the text without `GROUP BY`, trimmed. */
  function GroupByTestValue(groupBy: string): string {
    Trim(ReplaceAll(groupBy, "GROUP BY", ""))
  }

  /** `GroupBy(groupBy)`: the command with the keyword clause appended, or the exception the method throws. */
  function GroupByString(c: Command, groupBy: Option<string>): (r: Result<Command, Error>)
    ensures Contains(Sql(c), "GROUP BY") ==> r == Failure(InvalidOperation(AlreadyGrouped))
    ensures !Contains(Sql(c), "GROUP BY") && IsNullOrWhiteSpace(groupBy) ==>
      r == Failure(ArgumentNull("groupBy", "Value for group by clause may not be empty!"))
    ensures !Contains(Sql(c), "GROUP BY") && !IsNullOrWhiteSpace(groupBy) && !IsValidProperty(c.desc, GroupByTestValue(groupBy.value)) ==>
      r == Failure(Argument(NotAllowedMessage("Group By", c.desc, GroupByTestValue(groupBy.value))))
    ensures r.Success? <==>
      !Contains(Sql(c), "GROUP BY") && !IsNullOrWhiteSpace(groupBy) && IsValidProperty(c.desc, GroupByTestValue(groupBy.value))
    ensures r.Success? ==> r.value == Append(c, " " + KeywordClause("GROUP BY", groupBy.value))
  {
    if Contains(Sql(c), "GROUP BY") then
      Failure(InvalidOperation(AlreadyGrouped))
    else if IsNullOrWhiteSpace(groupBy) then
      Failure(ArgumentNull("groupBy", "Value for group by clause may not be empty!"))
    else
      var value := GroupByTestValue(groupBy.value);
      if !IsValidProperty(c.desc, value) then
        Failure(Argument(NotAllowedMessage("Group By", c.desc, value)))
      else
        Success(Append(c, " " + KeywordClause("GROUP BY", groupBy.value)))
  }

  /** `GroupBy(x => x.Member)` appends that property's trimmed `alias.column`. */
  lemma GroupByMember(c: Command, param: Name, i: int)
    requires !Contains(Sql(c), "GROUP BY") && RewritesCleanly(c.desc.properties, i)
    ensures var r := GroupByPredicate(c, Selector(param, MemberAccess(param, c.desc.properties[i].member)));
      r.Success? && r.value.builder == c.builder + SpacedClause("GROUP BY", Trim(c.desc.properties[i].qualified))
  {
    MemberProjectionText(c.desc.properties, param, i);
  }

  /** `GroupBy(x => new { x.A, x.B, … })` appends the picked properties' `alias.column` list. */
  lemma GroupByAnonymous(c: Command, d1: string, d2: string, param: Name, idx: seq<nat>)
    requires !Contains(Sql(c), "GROUP BY") && Digits(d1) && Digits(d2) && |idx| > 0
    requires forall k | 0 <= k < |idx| :: idx[k] < |c.desc.properties| && RewritesCleanly(c.desc.properties, idx[k])
    ensures var r := GroupByPredicate(c, Selector(param, AnonymousObject(d1, d2, param, MembersAt(c.desc.properties, idx))));
      r.Success? && r.value.builder == c.builder + SpacedClause("GROUP BY", Trim(Join(QualifiedAt(c.desc.properties, idx), ", ")))
  {
    AnonymousProjectionText(c.desc.properties, d1, d2, param, idx);
  }

  /**
    The keyword is optional in the text form: a valid property that does not hold
    `GROUP BY`, given with or without the keyword in front, passes the whitelist and
    appends the same clause.
   */
  lemma GroupByKeywordOptional(c: Command, i: int)
    requires !Contains(Sql(c), "GROUP BY") && 0 <= i < |c.desc.properties|
    requires var q := c.desc.properties[i].qualified;
      |q| > 0 && !IsWhiteSpace(q[0]) && !IsWhiteSpace(q[|q| - 1]) && !Contains(q, "GROUP BY")
    ensures var q := c.desc.properties[i].qualified;
      GroupByString(c, Some("GROUP BY" + (" " + q))) == Success(Append(c, " " + ("GROUP BY" + (" " + q))))
    ensures var q := c.desc.properties[i].qualified;
      !StartsWithIgnoreCase(q, "GROUP BY") ==> GroupByString(c, Some(q)) == GroupByString(c, Some("GROUP BY" + (" " + q)))
  {
    var q := c.desc.properties[i].qualified;
    GroupByKeyworded(c, i);
    if !StartsWithIgnoreCase(q, "GROUP BY") {
      GroupByBare(c, i);
    }
  }

  /** A valid property given with the keyword in front is accepted and appended as given. */
  lemma GroupByKeyworded(c: Command, i: int)
    requires !Contains(Sql(c), "GROUP BY") && 0 <= i < |c.desc.properties|
    requires var q := c.desc.properties[i].qualified;
      |q| > 0 && !IsWhiteSpace(q[0]) && !IsWhiteSpace(q[|q| - 1]) && !Contains(q, "GROUP BY")
    ensures var q := c.desc.properties[i].qualified;
      GroupByString(c, Some("GROUP BY" + (" " + q))) == Success(Append(c, " " + ("GROUP BY" + (" " + q))))
  {
    var q := c.desc.properties[i].qualified;
    var v := "GROUP BY" + (" " + q);
    calc {
      GroupByString(c, Some(v));
      { assert GroupByTestValue(v) == q by { LeadingKeywordDropped("GROUP BY", q); }
        ValidPropertyAccepted(c.desc, i);
        assert !IsNullOrWhiteSpace(Some(v)) by { assert v[0] == 'G'; } }
      Success(Append(c, " " + KeywordClause("GROUP BY", v)));
      { KeywordClauseOfKeyworded("GROUP BY", q); }
      Success(Append(c, " " + v));
    }
  }

  /** A valid property given without the keyword is accepted and appended after it. */
  lemma GroupByBare(c: Command, i: int)
    requires !Contains(Sql(c), "GROUP BY") && 0 <= i < |c.desc.properties|
    requires var q := c.desc.properties[i].qualified;
      && |q| > 0 && !IsWhiteSpace(q[0]) && !IsWhiteSpace(q[|q| - 1]) && !Contains(q, "GROUP BY")
      && !StartsWithIgnoreCase(q, "GROUP BY")
    ensures var q := c.desc.properties[i].qualified;
      GroupByString(c, Some(q)) == Success(Append(c, " " + ("GROUP BY" + (" " + q))))
  {
    var q := c.desc.properties[i].qualified;
    calc {
      GroupByString(c, Some(q));
      { assert GroupByTestValue(q) == q by { LeadingKeywordDropped("GROUP BY", q); }
        ValidPropertyAccepted(c.desc, i);
        assert !IsNullOrWhiteSpace(Some(q)); }
      Success(Append(c, " " + KeywordClause("GROUP BY", q)));
      { KeywordClauseOfBare("GROUP BY", q); }
      Success(Append(c, " " + ("GROUP BY" + (" " + q))));
    }
  }

  /** A GROUP BY clause from the selector form shows `GROUP BY`. */
  lemma GroupByPredicateShows(c: Command, sel: Selector)
    requires GroupByPredicate(c, sel).Success?
    ensures Contains(Sql(GroupByPredicate(c, sel).value), "GROUP BY")
  {
    SpacedClauseShows(c, "GROUP BY", ProjectionText(c.desc.properties, sel));
  }

  /** Once the selector form has added its GROUP BY clause, both forms refuse a second one. */
  lemma GroupByPredicateOnlyOnce(c: Command, sel: Selector, sel2: Selector, again: Option<string>)
    requires GroupByPredicate(c, sel).Success?
    ensures var r := GroupByPredicate(c, sel).value;
      GroupByPredicate(r, sel2).Failure? && GroupByString(r, again).Failure?
  {
    GroupByPredicateShows(c, sel);
  }

  /** Once the text form has added a GROUP BY clause that shows, both forms refuse a second one. */
  lemma GroupByStringOnlyOnce(c: Command, groupBy: Option<string>, sel2: Selector, again: Option<string>)
    requires GroupByString(c, groupBy).Success?
    requires !StartsWithIgnoreCase(Trim(groupBy.value), "GROUP BY") || StartsWith(Trim(groupBy.value), "GROUP BY")
    ensures var r := GroupByString(c, groupBy).value;
      GroupByPredicate(r, sel2).Failure? && GroupByString(r, again).Failure?
  {
    KeywordClauseShows(c, "GROUP BY", groupBy.value);
  }
}

=== FILE: having.dfy ===
/** `SnowflakeCommand<T>.Having`: a raw HAVING clause, allowed only after GROUP BY. */
module HavingClause {

  import opened Wrappers
  import opened Text
  import opened Errors
  import opened Command

  /** `Having(having)`: the extended command, or the exception the method throws. */
  function Having(c: Command, having: Option<string>): (r: Result<Command, Error>)
    ensures Contains(Sql(c), "HAVING") ==> r == Failure(InvalidOperation("Command already has a having clause!"))
    ensures !Contains(Sql(c), "HAVING") && !Contains(Sql(c), "GROUP BY") ==>
      r == Failure(InvalidOperation("Group By is missing and has to be called before Having!"))
    ensures !Contains(Sql(c), "HAVING") && Contains(Sql(c), "GROUP BY") && IsNullOrWhiteSpace(having) ==>
      r == Failure(ArgumentNull("having", "Value for having predicate may not be empty!"))
    ensures r.Success? <==> !Contains(Sql(c), "HAVING") && Contains(Sql(c), "GROUP BY") && !IsNullOrWhiteSpace(having)
    ensures r.Success? ==> r.value == Append(c, " " + KeywordClause("HAVING", having.value))
  {
    if Contains(Sql(c), "HAVING") then
      Failure(InvalidOperation("Command already has a having clause!"))
    else if !Contains(Sql(c), "GROUP BY") then
      Failure(InvalidOperation("Group By is missing and has to be called before Having!"))
    else if IsNullOrWhiteSpace(having) then
      Failure(ArgumentNull("having", "Value for having predicate may not be empty!"))
    else
      Success(Append(c, " " + KeywordClause("HAVING", having.value)))
  }

  /**
    Once a HAVING clause is in, a second one is refused, as long as the first shows the
    keyword in upper case (it was added, or the argument wrote it so).
   */
  lemma HavingOnlyOnce(c: Command, having: Option<string>, again: Option<string>)
    requires Having(c, having).Success?
    requires !StartsWithIgnoreCase(Trim(having.value), "HAVING") || StartsWith(Trim(having.value), "HAVING")
    ensures Having(Having(c, having).value, again).Failure?
  {
    KeywordClauseShows(c, "HAVING", having.value);
  }

  /** A HAVING clause keeps the GROUP BY it depends on. */
  lemma HavingKeepsGroupBy(c: Command, having: Option<string>)
    requires Having(c, having).Success?
    ensures Contains(Sql(Having(c, having).value), "GROUP BY")
  {
    var suffix := " " + KeywordClause("HAVING", having.value);
    KeywordInBuilderIffInSql(c, "GROUP BY");
    ContainsConcat(c.builder, suffix, "GROUP BY");
    KeywordInBuilderIffInSql(Append(c, suffix), "GROUP BY");
  }
}

=== FILE: limit.dfy ===
/** `SnowflakeCommand<T>.Limit`: a `LIMIT … OFFSET …` clause, at most once. */
module LimitClause {

  import opened Wrappers
  import opened Text
  import opened Errors
  import opened Command

  /** The text `Limit` appends for non-negative arguments. */
  function LimitText(count: nat, offset: nat): string {
    " LIMIT " + NatToString(count) + " OFFSET " + NatToString(offset)
  }

  /** `Limit(count, offset)`: the extended command, or the exception the method throws. */
  function Limit(c: Command, count: Int32, offset: Int32): (r: Result<Command, Error>)
    ensures Contains(Sql(c), " LIMIT ") ==> r == Failure(InvalidOperation("Command is already marked using limit!"))
    ensures !Contains(Sql(c), " LIMIT ") && count < 0 ==>
      r == Failure(ArgumentOutOfRange("count", "Count must be 0 or a positive integer!"))
    ensures !Contains(Sql(c), " LIMIT ") && count >= 0 && offset < 0 ==>
      r == Failure(ArgumentOutOfRange("offset", "Offset must be 0 or a positive integer!"))
    ensures r.Success? <==> !Contains(Sql(c), " LIMIT ") && count >= 0 && offset >= 0
    ensures r.Success? ==> r.value == Append(c, LimitText(count, offset))
  {
    if Contains(Sql(c), " LIMIT ") then
      Failure(InvalidOperation("Command is already marked using limit!"))
    else if count < 0 then
      Failure(ArgumentOutOfRange("count", "Count must be 0 or a positive integer!"))
    else if offset < 0 then
      Failure(ArgumentOutOfRange("offset", "Offset must be 0 or a positive integer!"))
    else
      Success(Append(c, LimitText(count, offset)))
  }

  /** The parts of the appended clause, as `Split` at spaces should give them back. */
  function LimitParts(count: nat, offset: nat): (xs: seq<string>)
    ensures Join(xs, " ") == LimitText(count, offset)
  {
    var a, b := NatToString(count), NatToString(offset);
    var xs := [[]] + (["LIMIT"] + ([a] + (["OFFSET"] + [b])));
    JoinCons("OFFSET", [b], " ");
    JoinCons(a, ["OFFSET"] + [b], " ");
    JoinCons("LIMIT", [a] + (["OFFSET"] + [b]), " ");
    JoinCons([], ["LIMIT"] + ([a] + (["OFFSET"] + [b])), " ");
    KeywordSpacing(a, b);
    xs
  }

  /** The clause's text, regrouped as the joined parts give it. */
  lemma KeywordSpacing(a: string, b: string)
    ensures [] + " " + ("LIMIT" + " " + (a + " " + ("OFFSET" + " " + b))) == " LIMIT " + a + " OFFSET " + b
  {
    assert " LIMIT " == " " + "LIMIT" + " ";
    assert " OFFSET " == " " + "OFFSET" + " ";
  }

  /** The appended clause reads back: split at spaces, it yields the keywords and the two numbers. */
  lemma LimitTextReadsBack(count: nat, offset: nat)
    ensures var parts := Split(LimitText(count, offset), ' ');
      && |parts| == 5 && parts[0] == [] && parts[1] == "LIMIT" && parts[3] == "OFFSET"
      && (forall i | 0 <= i < |parts[2]| :: '0' <= parts[2][i] <= '9') && ParseDigits(parts[2]) == count
      && (forall i | 0 <= i < |parts[4]| :: '0' <= parts[4][i] <= '9') && ParseDigits(parts[4]) == offset
  {
    var xs := LimitParts(count, offset);
    assert forall k, j | 0 <= k < |xs| && 0 <= j < |xs[k]| :: xs[k][j] != ' ' by {
      assert "LIMIT" == ['L', 'I', 'M', 'I', 'T'] && "OFFSET" == ['O', 'F', 'F', 'S', 'E', 'T'];
    }
    SplitJoin(xs, ' ');
    NatToStringRoundTrip(count);
    NatToStringRoundTrip(offset);
  }

  /** On a builder with text, a second `Limit` is refused whatever its arguments. */
  lemma LimitOnlyOnce(c: Command, count: Int32, offset: Int32, count2: Int32, offset2: Int32)
    requires HasText(c)
    requires Limit(c, count, offset).Success?
    ensures Limit(Limit(c, count, offset).value, count2, offset2).Failure?
  {
    LimitShows(c, count, offset);
  }

  /** After `Limit`, the text holds ` LIMIT `. */
  lemma LimitShows(c: Command, count: nat, offset: nat)
    requires HasText(c)
    ensures Contains(Sql(Append(c, LimitText(count, offset))), " LIMIT ")
  {
    LimitTextShape(count, offset);
    AppendedSpacedKeywordShows(c, LimitText(count, offset), " LIMIT ", 0);
  }

  /** The clause opens with ` LIMIT ` and ends in a digit. */
  lemma LimitTextShape(count: nat, offset: nat)
    ensures OccursAt(LimitText(count, offset), " LIMIT ", 0)
    ensures var t := LimitText(count, offset); |t| > 0 && '0' <= t[|t| - 1] <= '9'
  {
    var t := LimitText(count, offset);
    assert t[0..7] == " LIMIT ";
    var n := NatToString(offset);
    assert t[|t| - 1] == n[|n| - 1];
  }
}

=== FILE: materializer.dfy ===
/**
  `DbDataReaderExtensions`: turning the rows of a cursor into entities. The cursor is
  a sequence of rows, each a map from column name to cell; an entity is the value
  each of the class's members ends up holding, in declaration order.
 */
module Materializer {

  import opened Wrappers
  import opened Text
  import opened Errors
  import opened TypeMap
  import opened Attributes
  import opened Command

  /** One cell of a result row: SQL NULL, or the provider's value (kept as its text). */
  datatype Cell = DbNull | Val(value: string)

  /** A result row: its cells by column name, as `GetOrdinal` finds them. */
  type Row = map<string, Cell>

  /** What one member of a new entity holds once the row has been read. */
  datatype MemberValue =
      /** Not assigned: what the parameterless constructor left there. */
    | Untouched
      /** Assigned `null`. */
    | NullValue
      /** Assigned the cell's value. */
    | Assigned(value: string)

  /** One value per member of the class, in declaration order. */
  type Entity = seq<MemberValue>

  // ---------------------------------------------------------------------------
  // SetPropertyValue
  // ---------------------------------------------------------------------------

  /** `string` and the seven value types the dispatch handles, plain or `Nullable<>`. */
  predicate Supported(t: ClrType) {
    || t.StringType?
    || (t.Value? && t.valueType in {ValueType.Decimal, ValueType.Double, ValueType.Single, ValueType.Int32,
                                     ValueType.Boolean, ValueType.Byte, ValueType.DateTime})
  }

  /** The kinds read behind an `IsDBNull` check: `string` and the `Nullable<>` forms. */
  predicate NullChecked(t: ClrType) {
    t.StringType? || (t.Value? && t.nullable)
  }

  /** `Type.ToString()` of a value type: its full name. */
  function ValueTypeName(v: ValueType): string {
    match v
    case Byte => "System.Byte"
    case SByte => "System.SByte"
    case Int16 => "System.Int16"
    case UInt16 => "System.UInt16"
    case Int32 => "System.Int32"
    case UInt32 => "System.UInt32"
    case Int64 => "System.Int64"
    case UInt64 => "System.UInt64"
    case Single => "System.Single"
    case Double => "System.Double"
    case Decimal => "System.Decimal"
    case Boolean => "System.Boolean"
    case Char => "System.Char"
    case Guid => "System.Guid"
    case DateTime => "System.DateTime"
    case DateTimeOffset => "System.DateTimeOffset"
    case OtherStruct(n) => n
  }

  /** `Type.ToString()` of a member kind. */
  function TypeText(t: ClrType): string {
    match t
    case Value(v, nullable) => if nullable then "System.Nullable`1[" + ValueTypeName(v) + "]" else ValueTypeName(v)
    case StringType => "System.String"
    case ByteArray => "System.Byte[]"
    case OtherClass(n) => n
  }

  /** The message of the `NotSupportedException` for a kind the dispatch lacks. */
  function UnsupportedMessage(t: ClrType): string {
    "Type '" + TypeText(t) + "' is not yet supported. Please create an issue. Thank you!"
  }

  /** `IsDBNull(column)`: a column the row lacks throws `IndexOutOfRangeException`. */
  function IsDbNull(row: Row, column: string): (r: Result<bool, Error>) {
    if column !in row then Failure(IndexOutOfRange(column)) else Success(row[column].DbNull?)
  }

  /** A typed getter such as `GetDecimal(column)`: a missing column throws, and so does a null cell. */
  function GetValue(row: Row, column: string): (r: Result<string, Error>) {
    if column !in row then Failure(IndexOutOfRange(column))
    else if row[column].DbNull? then Failure(InvalidCast(column))
    else Success(row[column].value)
  }

  /** A branch that checks for null first: `IsDBNull(column) ? null : GetX(column)`. */
  function ReadChecked(row: Row, column: string): (r: Result<MemberValue, Error>) {
    var isNull :- IsDbNull(row, column);
    if isNull then Success(NullValue)
    else
      var v :- GetValue(row, column);
      Success(Assigned(v))
  }

  /** A branch that reads without a null check: `GetX(column)`. */
  function ReadUnchecked(row: Row, column: string): (r: Result<MemberValue, Error>) {
    var v :- GetValue(row, column);
    Success(Assigned(v))
  }

  /**
    `SetPropertyValue`: the dispatch over the member's kind, branch by branch. The
    contract states what the branches add up to: an unsupported kind is refused before
    the row is touched, a missing column throws, a value is assigned, and a null cell
    becomes `null` exactly for the kinds behind a null check.
   */
  function ReadMember(kind: ClrType, column: string, row: Row): (r: Result<MemberValue, Error>)
    ensures !Supported(kind) ==> r == Failure(NotSupported(UnsupportedMessage(kind)))
    ensures Supported(kind) && column !in row ==> r == Failure(IndexOutOfRange(column))
    ensures Supported(kind) && column in row && row[column].Val? ==> r == Success(Assigned(row[column].value))
    ensures Supported(kind) && column in row && row[column].DbNull? && NullChecked(kind) ==> r == Success(NullValue)
    ensures Supported(kind) && column in row && row[column].DbNull? && !NullChecked(kind) ==> r == Failure(InvalidCast(column))
  {
    if kind == StringType then ReadChecked(row, column)
    else if kind == Value(ValueType.Decimal, false) then ReadUnchecked(row, column)
    else if kind == Value(ValueType.Decimal, true) then ReadChecked(row, column)
    else if kind == Value(ValueType.Double, false) then ReadUnchecked(row, column)
    else if kind == Value(ValueType.Double, true) then ReadChecked(row, column)
    else if kind == Value(ValueType.Single, false) then ReadUnchecked(row, column)
    else if kind == Value(ValueType.Single, true) then ReadChecked(row, column)
    else if kind == Value(ValueType.Int32, false) then ReadUnchecked(row, column)
    else if kind == Value(ValueType.Int32, true) then ReadChecked(row, column)
    else if kind == Value(ValueType.Boolean, false) then ReadUnchecked(row, column)
    else if kind == Value(ValueType.Boolean, true) then ReadChecked(row, column)
    else if kind == Value(ValueType.Byte, false) then ReadUnchecked(row, column)
    else if kind == Value(ValueType.Byte, true) then ReadChecked(row, column)
    else if kind == Value(ValueType.DateTime, false) then ReadUnchecked(row, column)
    else if kind == Value(ValueType.DateTime, true) then ReadChecked(row, column)
    else Failure(NotSupported(UnsupportedMessage(kind)))
  }

  // ---------------------------------------------------------------------------
  // Reading one row
  // ---------------------------------------------------------------------------

  /** The member is assigned from the row: it has a column attribute and a setter. */
  predicate IsRead(m: MemberDecl) {
    m.column.Some? && m.writable
  }

  /**
    The column each member's cell is read from: the attribute's name after the
    constructor's default (the member's own name when the declared one is blank).
    Members without an attribute are never read; they get the empty name.
   */
  function ColumnsRead(ms: seq<MemberDecl>): (r: seq<string>)
    ensures |r| == |ms|
    ensures forall i | 0 <= i < |ms| && ms[i].column.Some? :: r[i] == DefaultedColumn(ms[i]).name
  {
    seq(|ms|, i requires 0 <= i < |ms| => if ms[i].column.Some? then DefaultedColumn(ms[i]).name else "")
  }

  /** The column names as the reflection the materializer does sees them: the declared ones, blank or not. */
  function DeclaredColumns(ms: seq<MemberDecl>): (r: seq<string>)
    ensures |r| == |ms|
    ensures forall i | 0 <= i < |ms| && ms[i].column.Some? :: r[i] == ms[i].column.value.name
  {
    seq(|ms|, i requires 0 <= i < |ms| => if ms[i].column.Some? then ms[i].column.value.name else "")
  }

  /** One member of the loop in `FirstOrDefault`: skipped unless read, else `SetPropertyValue`. */
  function ReadOne(m: MemberDecl, column: string, row: Row): (r: Result<MemberValue, Error>) {
    if !IsRead(m) then Success(Untouched) else ReadMember(m.kind, column, row)
  }

  /**
    The loop over the members in `FirstOrDefault`: each member read from its column,
    in order, stopping at the first exception. Succeeds exactly when every member
    reads, and then each holds what its own read gave it; otherwise the error is the
    first member's that fails.
   */
  function Materialize(ms: seq<MemberDecl>, columns: seq<string>, row: Row): (r: Result<Entity, Error>)
    requires |columns| == |ms|
    ensures r.Success? <==> forall i | 0 <= i < |ms| :: ReadOne(ms[i], columns[i], row).Success?
    ensures r.Success? ==> |r.value| == |ms| && forall i | 0 <= i < |ms| :: r.value[i] == ReadOne(ms[i], columns[i], row).value
    ensures r.Failure? ==> exists i | 0 <= i < |ms| ::
      && ReadOne(ms[i], columns[i], row).Failure?
      && r.error == ReadOne(ms[i], columns[i], row).error
      && forall j | 0 <= j < i :: ReadOne(ms[j], columns[j], row).Success?
    decreases |ms|
  {
    if |ms| == 0 then Success([])
    else
      var v := ReadOne(ms[0], columns[0], row);
      if v.Failure? then Failure(v.error)
      else
        var rest := Materialize(ms[1..], columns[1..], row);
        if rest.Failure? then
          assert forall i | 1 <= i < |ms| :: ms[i] == ms[1..][i - 1] && columns[i] == columns[1..][i - 1];
          Failure(rest.error)
        else
          assert forall i | 1 <= i < |ms| :: ms[i] == ms[1..][i - 1] && columns[i] == columns[1..][i - 1];
          Success([v.value] + rest.value)
  }

  /** Members without a column attribute or without a setter keep their default. */
  lemma UnreadMembersUntouched(ms: seq<MemberDecl>, columns: seq<string>, row: Row)
    requires |columns| == |ms|
    requires Materialize(ms, columns, row).Success?
    ensures forall i | 0 <= i < |ms| && !IsRead(ms[i]) :: Materialize(ms, columns, row).value[i] == Untouched
  {
  }

  /**
    Cells are addressed by the column attribute's `Name`: two classes whose members
    differ only in their attributes' `ColumnAlias` read every row alike.
   */
  lemma ColumnAliasIgnored(ms: seq<MemberDecl>, ms2: seq<MemberDecl>, row: Row)
    requires |ms2| == |ms|
    requires forall i | 0 <= i < |ms| ::
      && ms2[i].name == ms[i].name && ms2[i].kind == ms[i].kind && ms2[i].writable == ms[i].writable
      && ms2[i].column.Some? == ms[i].column.Some?
      && (ms[i].column.Some? ==> ms2[i].column.value == ms[i].column.value.(columnAlias := ms2[i].column.value.columnAlias))
    ensures Materialize(ms2, DeclaredColumns(ms2), row) == Materialize(ms, DeclaredColumns(ms), row)
    ensures Materialize(ms2, ColumnsRead(ms2), row) == Materialize(ms, ColumnsRead(ms), row)
  {
    assert DeclaredColumns(ms2) == DeclaredColumns(ms);
    assert forall i | 0 <= i < |ms| :: ReadOne(ms2[i], DeclaredColumns(ms)[i], row) == ReadOne(ms[i], DeclaredColumns(ms)[i], row);
    MaterializeAlike(ms, ms2, DeclaredColumns(ms), row);
    assert ColumnsRead(ms2) == ColumnsRead(ms);
    assert forall i | 0 <= i < |ms| :: ReadOne(ms2[i], ColumnsRead(ms)[i], row) == ReadOne(ms[i], ColumnsRead(ms)[i], row);
    MaterializeAlike(ms, ms2, ColumnsRead(ms), row);
  }

  /** Two member lists that read alike member by member materialize alike. */
  lemma {:induction false} MaterializeAlike(ms: seq<MemberDecl>, ms2: seq<MemberDecl>, columns: seq<string>, row: Row)
    requires |ms2| == |ms| == |columns|
    requires forall i | 0 <= i < |ms| :: ReadOne(ms2[i], columns[i], row) == ReadOne(ms[i], columns[i], row)
    ensures Materialize(ms2, columns, row) == Materialize(ms, columns, row)
    decreases |ms|
  {
    if |ms| > 0 {
      assert forall i | 0 <= i < |ms| - 1 :: ms[1..][i] == ms[i + 1] && ms2[1..][i] == ms2[i + 1] && columns[1..][i] == columns[i + 1];
      MaterializeAlike(ms[1..], ms2[1..], columns[1..], row);
    }
  }

  /**
    The columns the materializer reads are the columns the command selected: for a
    constructed command, the `i`-th attributed member is read from the column name of
    the `i`-th property.
   */
  lemma ReadsSelectedColumns(e: EntityDecl, database: string, schema: string)
    requires New(e, database, schema).Success?
    ensures var ms := Attributed(e.members);
      forall i | 0 <= i < |ms| :: ColumnsRead(ms)[i] == New(e, database, schema).value.desc.properties[i].column.name
  {
    NewProperties(e, database, schema);
    ColumnMembersAreAttributed(e.members);
  }

  // ---------------------------------------------------------------------------
  // FirstOrDefault and ToList
  // ---------------------------------------------------------------------------

  /** What `FirstOrDefault` leaves: the entity read, if any, and the rows still ahead of the cursor. */
  datatype Fetch = Fetch(item: Option<Entity>, rest: seq<Row>)

  /**
    `FirstOrDefault<T>()` on the cursor, each member read from the column named in
    `columns`: `null` exactly when no row is left, otherwise one row consumed and read
    into a new entity.
   */
  function FetchBy(ms: seq<MemberDecl>, columns: seq<string>, cursor: seq<Row>): (r: Result<Fetch, Error>)
    requires |columns| == |ms|
    ensures |cursor| == 0 <==> r == Success(Fetch(None, cursor))
    ensures |cursor| > 0 ==> (r.Success? <==> Materialize(ms, columns, cursor[0]).Success?)
    ensures |cursor| > 0 && r.Failure? ==> r.error == Materialize(ms, columns, cursor[0]).error
    ensures |cursor| > 0 && r.Success? ==>
      r.value.rest == cursor[1..] && r.value.item == Some(Materialize(ms, columns, cursor[0]).value)
  {
    if |cursor| == 0 then Success(Fetch(None, cursor))
    else
      var item :- Materialize(ms, columns, cursor[0]);
      Success(Fetch(Some(item), cursor[1..]))
  }

  /**
    `FirstOrDefault<T>()` as written: every member is read from the name its column
    attribute declares, as reflection hands the attribute back.
   */
  function FirstOrDefault(ms: seq<MemberDecl>, cursor: seq<Row>): (r: Result<Fetch, Error>)
    ensures |cursor| == 0 <==> r == Success(Fetch(None, cursor))
    ensures |cursor| > 0 ==> (r.Success? <==> Materialize(ms, DeclaredColumns(ms), cursor[0]).Success?)
    ensures |cursor| > 0 && r.Success? ==>
      r.value.rest == cursor[1..] && r.value.item == Some(Materialize(ms, DeclaredColumns(ms), cursor[0]).value)
  {
    FetchBy(ms, DeclaredColumns(ms), cursor)
  }

  /**
    `FirstOrDefault<T>()` reading every member from the column the command selected
    for it: the declared name after the constructor's default.
   */
  function FirstOrDefaultCorrected(ms: seq<MemberDecl>, cursor: seq<Row>): (r: Result<Fetch, Error>)
    ensures |cursor| == 0 <==> r == Success(Fetch(None, cursor))
    ensures |cursor| > 0 ==> (r.Success? <==> Materialize(ms, ColumnsRead(ms), cursor[0]).Success?)
    ensures |cursor| > 0 && r.Success? ==>
      r.value.rest == cursor[1..] && r.value.item == Some(Materialize(ms, ColumnsRead(ms), cursor[0]).value)
  {
    FetchBy(ms, ColumnsRead(ms), cursor)
  }

  /** The two readings agree on every class whose column attributes all declare a name. */
  lemma FirstOrDefaultAgreesWhenNamed(ms: seq<MemberDecl>, cursor: seq<Row>)
    requires forall i | 0 <= i < |ms| && ms[i].column.Some? :: !IsBlank(ms[i].column.value.name)
    ensures FirstOrDefault(ms, cursor) == FirstOrDefaultCorrected(ms, cursor)
  {
    assert DeclaredColumns(ms) == ColumnsRead(ms);
  }

  /** Reading rows one after another with `read`, stopping at the first error. */
  function ReadEach(read: Row -> Result<Entity, Error>, rows: seq<Row>): (r: Result<seq<Entity>, Error>)
    decreases |rows|
  {
    if |rows| == 0 then Success([])
    else
      var item :- read(rows[0]);
      var more :- ReadEach(read, rows[1..]);
      Success([item] + more)
  }

  /** Reference definition of reading every row into an entity, members read from `columns`. */
  function ReadAllBy(ms: seq<MemberDecl>, columns: seq<string>, rows: seq<Row>): (r: Result<seq<Entity>, Error>)
    requires |columns| == |ms|
  {
    ReadEach(row => Materialize(ms, columns, row), rows)
  }

  /** `ReadEach` succeeds exactly when every row reads, and then gives each row's entity in row order. */
  lemma {:induction false} ReadEachSucceeds(read: Row -> Result<Entity, Error>, rows: seq<Row>)
    ensures ReadEach(read, rows).Success? <==> forall k | 0 <= k < |rows| :: read(rows[k]).Success?
    ensures ReadEach(read, rows).Success? ==>
      |ReadEach(read, rows).value| == |rows| && forall k | 0 <= k < |rows| :: ReadEach(read, rows).value[k] == read(rows[k]).value
    decreases |rows|
  {
    if |rows| > 0 {
      ReadEachSucceeds(read, rows[1..]);
      assert forall k | 1 <= k < |rows| :: rows[k] == rows[1..][k - 1];
    }
  }

  /** When `ReadEach` fails, its error is that of the first row that does not read. */
  lemma {:induction false} ReadEachFirstError(read: Row -> Result<Entity, Error>, rows: seq<Row>)
    requires ReadEach(read, rows).Failure?
    ensures exists k | 0 <= k < |rows| ::
      && read(rows[k]).Failure?
      && ReadEach(read, rows).error == read(rows[k]).error
      && forall j | 0 <= j < k :: read(rows[j]).Success?
    decreases |rows|
  {
    if read(rows[0]).Failure? {
      assert ReadEach(read, rows).error == read(rows[0]).error;
    } else {
      var tail := rows[1..];
      ReadEachFirstError(read, tail);
      var k :| 0 <= k < |tail| && read(tail[k]).Failure?
        && ReadEach(read, tail).error == read(tail[k]).error
        && forall j | 0 <= j < k :: read(tail[j]).Success?;
      assert rows[k + 1] == tail[k];
      forall j | 0 <= j < k + 1 ensures read(rows[j]).Success? {
        if j > 0 { assert rows[j] == tail[j - 1]; }
      }
    }
  }

  /**
    What `ToList` computes, row by row, whichever names the members are read from: it
    succeeds exactly when every row reads into an entity, and then gives one entity
    per row, in row order; otherwise its error is that of the first row that does not
    read.
   */
  lemma ReadAllMeaning(ms: seq<MemberDecl>, columns: seq<string>, rows: seq<Row>)
    requires |columns| == |ms|
    ensures ReadAllBy(ms, columns, rows).Success? <==> forall k | 0 <= k < |rows| :: Materialize(ms, columns, rows[k]).Success?
    ensures ReadAllBy(ms, columns, rows).Success? ==>
      && |ReadAllBy(ms, columns, rows).value| == |rows|
      && forall k | 0 <= k < |rows| :: ReadAllBy(ms, columns, rows).value[k] == Materialize(ms, columns, rows[k]).value
    ensures ReadAllBy(ms, columns, rows).Failure? ==> exists k | 0 <= k < |rows| ::
      && Materialize(ms, columns, rows[k]).Failure?
      && ReadAllBy(ms, columns, rows).error == Materialize(ms, columns, rows[k]).error
      && forall j | 0 <= j < k :: Materialize(ms, columns, rows[j]).Success?
  {
    var read := row => Materialize(ms, columns, row);
    ReadEachSucceeds(read, rows);
    if ReadAllBy(ms, columns, rows).Failure? {
      ReadEachFirstError(read, rows);
    }
  }

  /** `list` followed by what reading the rest gives, or the rest's error. */
  function Prepended(list: seq<Entity>, more: Result<seq<Entity>, Error>): Result<seq<Entity>, Error> {
    if more.Failure? then more else Success(list + more.value)
  }

  /**
    `ToList<T>()`: `FirstOrDefault` until it yields `null`, members read from
    `columns`. It reads every remaining row as the reference definition does; on
    success the cursor is exhausted, and on failure the row that failed is the last
    one consumed.
   */
  method ToListBy(ms: seq<MemberDecl>, columns: seq<string>, cursor: seq<Row>) returns (r: Result<seq<Entity>, Error>, rest: seq<Row>)
    requires |columns| == |ms|
    ensures r == ReadAllBy(ms, columns, cursor)
    ensures r.Success? ==> rest == []
    ensures r.Failure? ==> |rest| < |cursor| && Materialize(ms, columns, cursor[|cursor| - |rest| - 1]).Failure?
  {
    var list: seq<Entity> := [];
    rest := cursor;
    assert ReadAllBy(ms, columns, cursor).Success? ==> [] + ReadAllBy(ms, columns, cursor).value == ReadAllBy(ms, columns, cursor).value;
    while true
      invariant |rest| <= |cursor| && rest == cursor[|cursor| - |rest|..]
      invariant ReadAllBy(ms, columns, cursor) == Prepended(list, ReadAllBy(ms, columns, rest))
      decreases |rest|
    {
      var f := FetchBy(ms, columns, rest);
      FetchStep(ms, columns, rest);
      if f.Failure? {
        r := Failure(f.error);
        rest := rest[1..];
        return;
      }
      if f.value.item.None? {
        assert list + [] == list;
        r := Success(list);
        return;
      }
      var item := f.value.item.value;
      PrependedAppend(list, item, ReadAllBy(ms, columns, rest[1..]));
      list := list + [item];
      rest := f.value.rest;
    }
  }

  /** `ToList<T>()` as written, over the as-written `FirstOrDefault`: members read from their declared names. */
  method ToList(ms: seq<MemberDecl>, cursor: seq<Row>) returns (r: Result<seq<Entity>, Error>, rest: seq<Row>)
    ensures r.Success? <==> forall k | 0 <= k < |cursor| :: Materialize(ms, DeclaredColumns(ms), cursor[k]).Success?
    ensures r.Success? ==>
      && rest == [] && |r.value| == |cursor|
      && forall k | 0 <= k < |cursor| :: r.value[k] == Materialize(ms, DeclaredColumns(ms), cursor[k]).value
    ensures r.Failure? ==> |rest| < |cursor| && Materialize(ms, DeclaredColumns(ms), cursor[|cursor| - |rest| - 1]).Failure?
  {
    r, rest := ToListBy(ms, DeclaredColumns(ms), cursor);
    ReadAllMeaning(ms, DeclaredColumns(ms), cursor);
  }

  /** `ToList<T>()` over the corrected `FirstOrDefault`: members read from the columns the command selected. */
  method ToListCorrected(ms: seq<MemberDecl>, cursor: seq<Row>) returns (r: Result<seq<Entity>, Error>, rest: seq<Row>)
    ensures r.Success? <==> forall k | 0 <= k < |cursor| :: Materialize(ms, ColumnsRead(ms), cursor[k]).Success?
    ensures r.Success? ==>
      && rest == [] && |r.value| == |cursor|
      && forall k | 0 <= k < |cursor| :: r.value[k] == Materialize(ms, ColumnsRead(ms), cursor[k]).value
    ensures r.Failure? ==> |rest| < |cursor| && Materialize(ms, ColumnsRead(ms), cursor[|cursor| - |rest| - 1]).Failure?
  {
    r, rest := ToListBy(ms, ColumnsRead(ms), cursor);
    ReadAllMeaning(ms, ColumnsRead(ms), cursor);
  }

  /** One `FirstOrDefault` is one step of the reference definition. */
  lemma FetchStep(ms: seq<MemberDecl>, columns: seq<string>, rows: seq<Row>)
    requires |columns| == |ms|
    ensures FetchBy(ms, columns, rows).Failure? ==>
      |rows| > 0 && Materialize(ms, columns, rows[0]).Failure?
      && ReadAllBy(ms, columns, rows) == Failure(FetchBy(ms, columns, rows).error)
    ensures FetchBy(ms, columns, rows).Success? && FetchBy(ms, columns, rows).value.item.None? ==> rows == []
    ensures FetchBy(ms, columns, rows).Success? && FetchBy(ms, columns, rows).value.item.Some? ==>
      && |rows| > 0 && FetchBy(ms, columns, rows).value.rest == rows[1..]
      && ReadAllBy(ms, columns, rows) == Prepended([FetchBy(ms, columns, rows).value.item.value], ReadAllBy(ms, columns, rows[1..]))
  {
  }

  /** Prepending a list and then one more entity is prepending the longer list. */
  lemma PrependedAppend(list: seq<Entity>, item: Entity, more: Result<seq<Entity>, Error>)
    ensures Prepended(list, Prepended([item], more)) == Prepended(list + [item], more)
  {
    if more.Success? {
      assert list + ([item] + more.value) == list + [item] + more.value;
    }
  }

  // ---------------------------------------------------------------------------
  // The declared column name
  // ---------------------------------------------------------------------------

  /**
    A member whose attribute declares a blank name is selected by the command under
    its own name (the constructor's default), but the reflection in the materializer
    sees the declared blank name again: reading by the declared names fails on the
    row the query returns, while reading by the defaulted names assigns the value.
   */
  lemma BlankDeclaredNameNotRead(m: MemberDecl, v: string)
    requires IsRead(m) && Supported(m.kind) && IsBlank(m.column.value.name)
    ensures var row: Row := map[m.name := Val(v)];
      && Materialize([m], DeclaredColumns([m]), row) == Failure(IndexOutOfRange(m.column.value.name))
      && Materialize([m], ColumnsRead([m]), row) == Success([Assigned(v)])
    ensures var row: Row := map[m.name := Val(v)];
      && FirstOrDefault([m], [row]) == Failure(IndexOutOfRange(m.column.value.name))
      && FirstOrDefaultCorrected([m], [row]) == Success(Fetch(Some([Assigned(v)]), []))
  {
    var row: Row := map[m.name := Val(v)];
    NameNotBlank(m.name);
    assert m.column.value.name != m.name;
    assert DeclaredColumns([m])[0] !in row;
    assert ColumnsRead([m])[0] == m.name;
    assert ReadOne(m, ColumnsRead([m])[0], row) == Success(Assigned(v));
    var r := Materialize([m], ColumnsRead([m]), row);
    assert r.Success? && |r.value| == 1 && r.value[0] == Assigned(v);
    assert r.value == [Assigned(v)];
  }
}

=== FILE: orderby.dfy ===
/**
  `SnowflakeCommand<T>.OrderBy`, `OrderByAsc` and `OrderByDesc`: an ORDER BY clause
  from a selector and a direction, or from text, allowed once. The selector forms
  project `alias.column` names as `Select` does; the text form must name exactly one
  valid property, with or without the keyword and a direction.
 */
module OrderByClause {

  import opened Wrappers
  import opened Text
  import opened Errors
  import opened Command
  import opened Projection
  import opened Replacement

  const AlreadyOrdered: string := "Command already has an order by clause!"

  // ---------------------------------------------------------------------------
  // The selector forms
  // ---------------------------------------------------------------------------

  /** The protected `OrderBy(predicate, direction)`: ` ORDER BY ` names and direction appended, or the guard's exception. */
  function OrderByPredicate(c: Command, sel: Selector, direction: string): (r: Result<Command, Error>)
    ensures r.Failure? <==> Contains(Sql(c), "ORDER BY")
    ensures r.Failure? ==> r.error == InvalidOperation(AlreadyOrdered)
    ensures r.Success? ==> r.value == Append(c, SpacedClause("ORDER BY", ProjectionText(c.desc.properties, sel) + (" " + direction)))
    ensures r.Success? ==> EndsWith(r.value.builder, " " + direction) && EndsWith(r.value.builder, direction)
  {
    if Contains(Sql(c), "ORDER BY") then Failure(InvalidOperation(AlreadyOrdered))
    else
      var body := ProjectionText(c.desc.properties, sel);
      SpacedClauseEnds(c.builder, "ORDER BY", body, direction);
      Success(Append(c, SpacedClause("ORDER BY", body + (" " + direction))))
  }

  /** `OrderByAsc(predicate)`: ascending order by the projected names. */
  function OrderByAsc(c: Command, sel: Selector): (r: Result<Command, Error>)
    ensures r.Failure? <==> Contains(Sql(c), "ORDER BY")
    ensures r.Success? ==> r.value.desc == c.desc && r.value.parameters == c.parameters
    ensures r.Success? ==> EndsWith(r.value.builder, "ASC")
  {
    OrderByPredicate(c, sel, "ASC")
  }

  /** `OrderByDesc(predicate)`: descending order by the projected names. */
  function OrderByDesc(c: Command, sel: Selector): (r: Result<Command, Error>)
    ensures r.Failure? <==> Contains(Sql(c), "ORDER BY")
    ensures r.Success? ==> r.value.desc == c.desc && r.value.parameters == c.parameters
    ensures r.Success? ==> EndsWith(r.value.builder, "DESC")
  {
    OrderByPredicate(c, sel, "DESC")
  }

  /** A spaced clause whose body ends with a space and `word` leaves the builder ending with both. */
  lemma SpacedClauseEnds(b: string, kw: string, body: string, word: string)
    ensures EndsWith(b + SpacedClause(kw, body + (" " + word)), " " + word)
    ensures EndsWith(b + SpacedClause(kw, body + (" " + word)), word)
  {
    var s := b + SpacedClause(kw, body + (" " + word));
    assert s == (b + " " + kw + " " + body) + (" " + word);
    EndsWithConcat(b + " " + kw + " " + body, " " + word);
    assert s == (b + " " + kw + " " + body + " ") + word;
    EndsWithConcat(b + " " + kw + " " + body + " ", word);
  }

  /** `OrderBy…(x => x.Member)` appends that property's trimmed `alias.column` and the direction. */
  lemma OrderByMember(c: Command, param: Name, i: int, direction: string)
    requires !Contains(Sql(c), "ORDER BY") && RewritesCleanly(c.desc.properties, i)
    ensures var r := OrderByPredicate(c, Selector(param, MemberAccess(param, c.desc.properties[i].member)), direction);
      r.Success? && r.value.builder == c.builder + SpacedClause("ORDER BY", Trim(c.desc.properties[i].qualified) + (" " + direction))
  {
    MemberProjectionText(c.desc.properties, param, i);
  }

  /** `OrderBy…(x => new { x.A, x.B, … })` appends the picked properties' `alias.column` list and the direction. */
  lemma OrderByAnonymous(c: Command, d1: string, d2: string, param: Name, idx: seq<nat>, direction: string)
    requires !Contains(Sql(c), "ORDER BY") && Digits(d1) && Digits(d2) && |idx| > 0
    requires forall k | 0 <= k < |idx| :: idx[k] < |c.desc.properties| && RewritesCleanly(c.desc.properties, idx[k])
    ensures var r := OrderByPredicate(c, Selector(param, AnonymousObject(d1, d2, param, MembersAt(c.desc.properties, idx))), direction);
      r.Success? && r.value.builder
         == c.builder + SpacedClause("ORDER BY", Trim(Join(QualifiedAt(c.desc.properties, idx), ", ")) + (" " + direction))
  {
    AnonymousProjectionText(c.desc.properties, d1, d2, param, idx);
  }

  /** An ORDER BY clause from a selector form shows `ORDER BY`. */
  lemma OrderByPredicateShows(c: Command, sel: Selector, direction: string)
    requires OrderByPredicate(c, sel, direction).Success?
    ensures Contains(Sql(OrderByPredicate(c, sel, direction).value), "ORDER BY")
  {
    SpacedClauseShows(c, "ORDER BY", ProjectionText(c.desc.properties, sel) + (" " + direction));
  }

  // ---------------------------------------------------------------------------
  // The text form
  // ---------------------------------------------------------------------------

  /**
    What the text form, as written, checks against the whitelist: every `ORDER BY`,
    `ASC` and `DESC` anywhere in the text removed, then trimmed. This also cuts the
    letters out of column names such as `DESCRIPTION` or `CASCADE`.
   */
  function OrderByTestValueAsWritten(orderBy: string): (r: string)
    ensures |r| <= |orderBy|
  {
    var a := ReplaceAll(orderBy, "ORDER BY", "");
    var b := ReplaceAll(a, "ASC", "");
    var d := ReplaceAll(b, "DESC", "");
    ReplaceAllNotLonger(orderBy, "ORDER BY", "");
    ReplaceAllNotLonger(a, "ASC", "");
    ReplaceAllNotLonger(b, "DESC", "");
    Trim(d)
  }

  /** A trailing ` ASC` or ` DESC` word dropped from a trimmed text, and the rest trimmed. */
  function DropDirection(t: string): (r: string)
    ensures |r| <= |t|
  {
    if EndsWith(t, " ASC") then Trim(t[..|t| - 4])
    else if EndsWith(t, " DESC") then Trim(t[..|t| - 5])
    else t
  }

  /**
    The test value the text form evidently means: the direction removed only as the
    last word, and the keyword removed as in `GroupBy`, then trimmed.
   */
  function OrderByTestValue(orderBy: string): (r: string)
    ensures |r| <= |orderBy|
  {
    var t := Trim(orderBy);
    var u := DropDirection(t);
    ReplaceAllNotLonger(u, "ORDER BY", "");
    Trim(ReplaceAll(u, "ORDER BY", ""))
  }

  /** `OrderBy(orderBy)` with the evidently meant test value: the command with the keyword clause appended, or the exception. */
  function OrderByString(c: Command, orderBy: Option<string>): (r: Result<Command, Error>)
    ensures Contains(Sql(c), "ORDER BY") ==> r == Failure(InvalidOperation(AlreadyOrdered))
    ensures !Contains(Sql(c), "ORDER BY") && IsNullOrWhiteSpace(orderBy) ==>
      r == Failure(ArgumentNull("orderBy", "Value for order by clause may not be empty!"))
    ensures !Contains(Sql(c), "ORDER BY") && !IsNullOrWhiteSpace(orderBy) && !IsValidProperty(c.desc, OrderByTestValue(orderBy.value)) ==>
      r == Failure(Argument(NotAllowedMessage("Order By", c.desc, OrderByTestValue(orderBy.value))))
    ensures r.Success? <==>
      !Contains(Sql(c), "ORDER BY") && !IsNullOrWhiteSpace(orderBy) && IsValidProperty(c.desc, OrderByTestValue(orderBy.value))
    ensures r.Success? ==> r.value == Append(c, " " + KeywordClause("ORDER BY", orderBy.value))
  {
    if Contains(Sql(c), "ORDER BY") then
      Failure(InvalidOperation(AlreadyOrdered))
    else if IsNullOrWhiteSpace(orderBy) then
      Failure(ArgumentNull("orderBy", "Value for order by clause may not be empty!"))
    else
      var value := OrderByTestValue(orderBy.value);
      if !IsValidProperty(c.desc, value) then
        Failure(Argument(NotAllowedMessage("Order By", c.desc, value)))
      else
        Success(Append(c, " " + KeywordClause("ORDER BY", orderBy.value)))
  }

  /** `OrderBy(orderBy)` as written: the same guards and clause, with the as-written test value. */
  function OrderByStringAsWritten(c: Command, orderBy: Option<string>): (r: Result<Command, Error>)
    ensures Contains(Sql(c), "ORDER BY") ==> r == Failure(InvalidOperation(AlreadyOrdered))
    ensures !Contains(Sql(c), "ORDER BY") && IsNullOrWhiteSpace(orderBy) ==>
      r == Failure(ArgumentNull("orderBy", "Value for order by clause may not be empty!"))
    ensures !Contains(Sql(c), "ORDER BY") && !IsNullOrWhiteSpace(orderBy) && !IsValidProperty(c.desc, OrderByTestValueAsWritten(orderBy.value)) ==>
      r == Failure(Argument(NotAllowedMessage("Order By", c.desc, OrderByTestValueAsWritten(orderBy.value))))
    ensures r.Success? <==>
      !Contains(Sql(c), "ORDER BY") && !IsNullOrWhiteSpace(orderBy) && IsValidProperty(c.desc, OrderByTestValueAsWritten(orderBy.value))
    ensures r.Success? ==> r.value == Append(c, " " + KeywordClause("ORDER BY", orderBy.value))
  {
    if Contains(Sql(c), "ORDER BY") then
      Failure(InvalidOperation(AlreadyOrdered))
    else if IsNullOrWhiteSpace(orderBy) then
      Failure(ArgumentNull("orderBy", "Value for order by clause may not be empty!"))
    else
      var value := OrderByTestValueAsWritten(orderBy.value);
      if !IsValidProperty(c.desc, value) then
        Failure(Argument(NotAllowedMessage("Order By", c.desc, value)))
      else
        Success(Append(c, " " + KeywordClause("ORDER BY", orderBy.value)))
  }

  /** A text form, with a direction word after a space unless `direction` is empty. */
  function Directed(v: string, direction: string): (r: string)
    ensures direction == [] ==> r == v
    ensures direction != [] ==> r == v + (" " + direction)
  {
    if direction == [] then v else v + (" " + direction)
  }

  /** The meant test value drops a trailing direction word and gives back what was before it. */
  lemma DropDirectionOf(v: string, direction: string)
    requires |v| > 0 && !IsWhiteSpace(v[0]) && !IsWhiteSpace(v[|v| - 1])
    requires direction == "ASC" || direction == "DESC"
    ensures DropDirection(Trim(v + (" " + direction))) == v
  {
    var t := v + (" " + direction);
    assert t[0] == v[0] && t[|t| - 1] == 'C';
    TrimUnpadded(t);
    TrimUnpadded(v);
    EndsWithConcat(v, " " + direction);
    if direction == "ASC" {
      assert " " + direction == " ASC";
    } else {
      assert " " + direction == " DESC";
      assert t[|t| - 4] == 'D';
    }
  }

  /** Without a trailing direction word, nothing is dropped. */
  lemma DropNoDirection(v: string)
    requires |v| > 0 && !IsWhiteSpace(v[0]) && !IsWhiteSpace(v[|v| - 1])
    requires !EndsWith(v, " ASC") && !EndsWith(v, " DESC")
    ensures DropDirection(Trim(v)) == v
  {
    TrimUnpadded(v);
  }

  /**
    The meant test value of a property that lacks `ORDER BY`, written alone or after the
    keyword, and with or without a direction word (with none, the text must not already
    end in one), is the property.
   */
  lemma MeantTestValue(q: string, v: string, direction: string)
    requires |q| > 0 && !IsWhiteSpace(q[0]) && !IsWhiteSpace(q[|q| - 1]) && !Contains(q, "ORDER BY")
    requires v == q || v == "ORDER BY" + (" " + q)
    requires direction == "ASC" || direction == "DESC" || (direction == "" && !EndsWith(v, " ASC") && !EndsWith(v, " DESC"))
    ensures OrderByTestValue(Directed(v, direction)) == q
  {
    assert v[0] == q[0] || v[0] == 'O';
    assert v[|v| - 1] == q[|q| - 1];
    DroppedDirection(v, direction);
    LeadingKeywordDropped("ORDER BY", q);
  }

  /** `DropDirectionOf` and `DropNoDirection` together, for a text form with or without a direction word. */
  lemma DroppedDirection(v: string, direction: string)
    requires |v| > 0 && !IsWhiteSpace(v[0]) && !IsWhiteSpace(v[|v| - 1])
    requires direction == "ASC" || direction == "DESC" || (direction == "" && !EndsWith(v, " ASC") && !EndsWith(v, " DESC"))
    ensures DropDirection(Trim(Directed(v, direction))) == v
  {
    if direction == "" {
      DropNoDirection(v);
    } else {
      DropDirectionOf(v, direction);
    }
  }

  /** The meant text form accepts any of the writings `MeantTestValue` covers and appends its keyword clause. */
  lemma OrderByAccepts(c: Command, i: int, v: string, direction: string)
    requires !Contains(Sql(c), "ORDER BY") && 0 <= i < |c.desc.properties|
    requires var q := c.desc.properties[i].qualified;
      && |q| > 0 && !IsWhiteSpace(q[0]) && !IsWhiteSpace(q[|q| - 1]) && !Contains(q, "ORDER BY")
      && (v == q || v == "ORDER BY" + (" " + q))
    requires direction == "ASC" || direction == "DESC" || (direction == "" && !EndsWith(v, " ASC") && !EndsWith(v, " DESC"))
    ensures OrderByString(c, Some(Directed(v, direction))) == Success(Append(c, " " + KeywordClause("ORDER BY", Directed(v, direction))))
  {
    var q := c.desc.properties[i].qualified;
    MeantTestValue(q, v, direction);
    ValidPropertyAccepted(c.desc, i);
    assert !IsNullOrWhiteSpace(Some(Directed(v, direction))) by {
      assert v[0] == q[0] || v[0] == 'O';
      assert Directed(v, direction)[0] == v[0];
    }
  }

  /** Once a selector form has added its ORDER BY clause, every form refuses a second one. */
  lemma OrderByPredicateOnlyOnce(c: Command, sel: Selector, direction: string, sel2: Selector, again: Option<string>)
    requires OrderByPredicate(c, sel, direction).Success?
    ensures var r := OrderByPredicate(c, sel, direction).value;
      OrderByAsc(r, sel2).Failure? && OrderByDesc(r, sel2).Failure? && OrderByString(r, again).Failure?
  {
    OrderByPredicateShows(c, sel, direction);
  }

  /** Once the text form has added an ORDER BY clause that shows, every form refuses a second one. */
  lemma OrderByStringOnlyOnce(c: Command, orderBy: Option<string>, sel2: Selector, again: Option<string>)
    requires OrderByString(c, orderBy).Success?
    requires !StartsWithIgnoreCase(Trim(orderBy.value), "ORDER BY") || StartsWith(Trim(orderBy.value), "ORDER BY")
    ensures var r := OrderByString(c, orderBy).value;
      OrderByAsc(r, sel2).Failure? && OrderByDesc(r, sel2).Failure? && OrderByString(r, again).Failure?
  {
    KeywordClauseShows(c, "ORDER BY", orderBy.value);
  }

  // ---------------------------------------------------------------------------
  // Direction words inside a column name
  // ---------------------------------------------------------------------------

  /**
    As written, the text form rejects a valid property that holds `DESC` inside its
    name (and lacks `ORDER BY` and `ASC`) whenever every valid property has the same
    length: cutting `DESC` out shortens the test value below every entry of the
    whitelist. The meant test value keeps the name and accepts it.
   */
  lemma DirectionInsideNameRejected(c: Command, i: int)
    requires !Contains(Sql(c), "ORDER BY") && 0 <= i < |c.desc.properties|
    requires var q := c.desc.properties[i].qualified;
      && |q| > 0 && !IsWhiteSpace(q[0]) && !IsWhiteSpace(q[|q| - 1])
      && Contains(q, "DESC") && !Contains(q, "ORDER BY") && !Contains(q, "ASC")
      && !EndsWith(q, " ASC") && !EndsWith(q, " DESC")
    requires forall j | 0 <= j < |c.desc.properties| :: |c.desc.properties[j].qualified| == |c.desc.properties[i].qualified|
    ensures OrderByStringAsWritten(c, Some(c.desc.properties[i].qualified)).Failure?
    ensures OrderByString(c, Some(c.desc.properties[i].qualified)).Success?
  {
    var q := c.desc.properties[i].qualified;
    AsWrittenRefusesShortened(c, q);
    OrderByAccepts(c, i, q, "");
    assert Directed(q, "") == q;
  }

  /** As written, the text form refuses a text that `DESC` is cut out of when every valid property is as long as it. */
  lemma AsWrittenRefusesShortened(c: Command, q: string)
    requires Contains(q, "DESC") && !Contains(q, "ORDER BY") && !Contains(q, "ASC")
    requires forall j | 0 <= j < |c.desc.properties| :: |c.desc.properties[j].qualified| == |q|
    ensures OrderByStringAsWritten(c, Some(q)).Failure?
  {
    AsWrittenShortens(q);
    WrongLengthRejected(c.desc, OrderByTestValueAsWritten(q));
  }

  /** Cutting `DESC` out of a name that lacks the other two patterns makes the as-written test value shorter. */
  lemma AsWrittenShortens(q: string)
    requires Contains(q, "DESC") && !Contains(q, "ORDER BY") && !Contains(q, "ASC")
    ensures |OrderByTestValueAsWritten(q)| < |q|
  {
    ReplaceAllNotLonger(q, "DESC", "");
  }

  /** A column name holding a direction word, such as `DESCRIPTION`. */
  const DescriptionColumn: string := "a.DESCRIPTION"

  /**
    The concrete case: with `a.DESCRIPTION` as the only valid property, the text form as
    written refuses `a.DESCRIPTION` itself; the meant one accepts it.
   */
  lemma DescriptionColumnRejected(c: Command)
    requires !Contains(Sql(c), "ORDER BY")
    requires |c.desc.properties| == 1 && c.desc.properties[0].qualified == DescriptionColumn
    ensures OrderByStringAsWritten(c, Some(c.desc.properties[0].qualified)).Failure?
    ensures OrderByString(c, Some(c.desc.properties[0].qualified)).Success?
  {
    var q := c.desc.properties[0].qualified;
    DescriptionHoldsDesc(q);
    DescriptionLacksOrderBy(q);
    DescriptionLacksAsc(q);
    DescriptionEndsInName(q);
    forall j | 0 <= j < |c.desc.properties| ensures |c.desc.properties[j].qualified| == |q| {
      assert j == 0;
    }
    DirectionInsideNameRejected(c, 0);
  }

  /** `a.DESCRIPTION` holds `DESC`. */
  lemma DescriptionHoldsDesc(q: string)
    requires q == DescriptionColumn
    ensures Contains(q, "DESC")
  {
    assert q[2..6] == "DESC";
    OccursAtContains(q, "DESC", 2);
  }

  /** `a.DESCRIPTION` lacks `ORDER BY`: it has no `B`. */
  lemma DescriptionLacksOrderBy(q: string)
    requires q == DescriptionColumn
    ensures !Contains(q, "ORDER BY")
  {
    NotContainsByChar(q, "ORDER BY", 6);
  }

  /** `a.DESCRIPTION` lacks `ASC`: its only `a` is lower case. */
  lemma DescriptionLacksAsc(q: string)
    requires q == DescriptionColumn
    ensures !Contains(q, "ASC")
  {
    NotContainsByChar(q, "ASC", 0);
  }

  /** `a.DESCRIPTION` has no white space at its ends and ends in no direction word after a space. */
  lemma DescriptionEndsInName(q: string)
    requires q == DescriptionColumn
    ensures |q| > 0 && !IsWhiteSpace(q[0]) && !IsWhiteSpace(q[|q| - 1])
    ensures !EndsWith(q, " ASC") && !EndsWith(q, " DESC")
  {
    assert q[9] == 'T' && q[8] == 'P';
  }
}

=== FILE: projection.dfy ===
/**
  The projection text that `Select`, `GroupBy(predicate)` and the predicate form of
  `OrderBy` build from a selector lambda: the printed body with the parameter
  dropped, the compiler's anonymous type name removed, the parentheses dropped, the
  pieces between commas cut at their first `=` and trimmed, joined with `", "`, and
  each member name replaced by its `alias.column`.
 */
module Projection {

  import opened Text
  import opened Command
  import opened Replacement

  /**
    A selector lambda `param => body`, its body as `Expression.ToString()` prints it:
    a member access `param.Member`, or an anonymous object
    `new <>f__AnonymousType0`2(A = param.A, B = param.B)`.
   */
  datatype Selector = Selector(param: Name, body: string)

  // ---------------------------------------------------------------------------
  // The regex `new <>f__AnonymousType[0-9]{1,}`[0-9]{1,}`
  // ---------------------------------------------------------------------------

  /** `[0-9]`. */
  predicate IsDigit(c: char) {
    '0' <= c <= '9'
  }

  /** A run of one or more decimal digits. */
  predicate Digits(s: string) {
    |s| > 0 && forall k | 0 <= k < |s| :: IsDigit(s[k])
  }

  /** The length of the longest run of digits at the front of `s`. */
  function DigitRun(s: string): (n: nat)
    ensures n <= |s|
    ensures forall k | 0 <= k < n :: IsDigit(s[k])
    ensures n < |s| ==> !IsDigit(s[n])
    decreases |s|
  {
    if |s| == 0 || !IsDigit(s[0]) then 0 else 1 + DigitRun(s[1..])
  }

  /** The fixed front of the name the C# compiler gives an anonymous type. */
  const AnonymousPrefix: string := "new <>" + "f__AnonymousType"

  /**
    The length of the regex's match at the front of `s`, or 0 when there is none.
    Both digit runs are greedy; since a digit is never a backtick, backing off a
    shorter first run never finds another match.
   */
  function AnonymousMatch(s: string): (n: nat)
    ensures n <= |s|
    ensures n > 0 ==> StartsWith(s, AnonymousPrefix) && |AnonymousPrefix| < n
  {
    if !StartsWith(s, AnonymousPrefix) then 0
    else
      var d1 := DigitRun(s[|AnonymousPrefix|..]);
      var tick := |AnonymousPrefix| + d1;
      if d1 == 0 || tick >= |s| || s[tick] != '`' then 0
      else
        var d2 := DigitRun(s[tick + 1..]);
        if d2 == 0 then 0 else tick + 1 + d2
  }

  /** The anonymous type's name starts with `new <`. */
  lemma AnonymousPrefixFacts()
    ensures |AnonymousPrefix| == 22
    ensures AnonymousPrefix[4] == '<'
    ensures '.' !in AnonymousPrefix
  {
    var a, b := "new <>", "f__AnonymousType";
    assert '.' !in a && '.' !in b;
    assert AnonymousPrefix == a + b;
  }

  /** A text that starts with the anonymous type's name holds a `<`. */
  lemma AnonymousNameHasAngle(s: string)
    requires StartsWith(s, AnonymousPrefix)
    ensures '<' in s
  {
    AnonymousPrefixFacts();
    assert s[..22][4] == '<';
  }

  /**
    `Regex.Replace(s, "")`: matches found left to right without overlap are removed;
    where none starts, one character is kept and the scan moves on.
   */
  function RemoveAnonymousTypes(s: string): (r: string)
    ensures |r| <= |s|
    ensures '<' !in s ==> r == s
    decreases |s|
  {
    if |s| == 0 then []
    else
      var n := AnonymousMatch(s);
      assert '<' !in s ==> n == 0 by {
        if n > 0 {
          AnonymousNameHasAngle(s);
        }
      }
      if n > 0 then
        RemoveAnonymousTypes(s[n..])
      else
        var t := RemoveAnonymousTypes(s[1..]);
        assert '<' !in s ==> '<' !in s[1..];
        [s[0]] + t
  }

  /** A digit run followed by a non-digit is found whole. */
  lemma {:induction false} DigitRunOf(d: string, rest: string)
    requires forall k | 0 <= k < |d| :: IsDigit(d[k])
    requires |rest| == 0 || !IsDigit(rest[0])
    ensures DigitRun(d + rest) == |d|
    decreases |d|
  {
    if |d| > 0 {
      assert (d + rest)[1..] == d[1..] + rest;
      DigitRunOf(d[1..], rest);
    } else {
      assert d + rest == rest;
    }
  }

  /** The regex matches the compiler's name `new <>f__AnonymousType<d1>`<d2>` in front of a non-digit. */
  lemma AnonymousMatchOf(d1: string, d2: string, rest: string)
    requires Digits(d1) && Digits(d2)
    requires |rest| == 0 || !IsDigit(rest[0])
    ensures AnonymousMatch(TypeName(d1, d2) + rest) == |TypeName(d1, d2)|
  {
    var s := TypeName(d1, d2) + rest;
    var p := |AnonymousPrefix|;
    assert s[..p] == AnonymousPrefix;
    assert s[p..] == d1 + ("`" + (d2 + rest));
    DigitRunOf(d1, "`" + (d2 + rest));
    assert s[p + |d1|] == '`';
    assert s[p + |d1| + 1..] == d2 + rest;
    DigitRunOf(d2, rest);
  }

  /** The compiler's name in front of a text without `<` is removed, and nothing else is. */
  lemma RemoveAnonymousTypeName(d1: string, d2: string, rest: string)
    requires Digits(d1) && Digits(d2)
    requires |rest| == 0 || !IsDigit(rest[0])
    requires '<' !in rest
    ensures RemoveAnonymousTypes(TypeName(d1, d2) + rest) == rest
  {
    var s := TypeName(d1, d2) + rest;
    AnonymousMatchOf(d1, d2, rest);
    assert s[|TypeName(d1, d2)|..] == rest;
  }

  // ---------------------------------------------------------------------------
  // The pipeline
  // ---------------------------------------------------------------------------

  /** `_.Split("=")[0].Trim()`: the name in front of the first `=` of a piece. */
  function ColumnName(piece: string): string {
    Trim(Split(piece, '=')[0])
  }

  /** `ColumnName` of every piece, in order. */
  function ColumnNames(pieces: seq<string>): (r: seq<string>)
    ensures |r| == |pieces|
    decreases |pieces|
  {
    if |pieces| == 0 then [] else [ColumnName(pieces[0])] + ColumnNames(pieces[1..])
  }

  /**
    The projection before the member names are rewritten: the text
    `string.Join(", ", …)` produces from the printed body.
   */
  function ProjectedNames(sel: Selector): string {
    NamesOf(Unparenthesized(RemoveAnonymousTypes(StripParameter(sel.param, sel.body))))
  }

  /** The text with every parenthesis removed. */
  function Unparenthesized(t: string): string {
    ReplaceAll(ReplaceAll(t, "(", ""), ")", "")
  }

  /** The names in front of the comma pieces of `bare`, joined with `, `. */
  function NamesOf(bare: string): string {
    Join(ColumnNames(Split(bare, ',')), ", ")
  }

  /** The projection as it goes into the SQL: member names rewritten, then trimmed. */
  function ProjectionText(props: seq<Property>, sel: Selector): string {
    Trim(RewriteMembers(props, ProjectedNames(sel)))
  }

  // ---------------------------------------------------------------------------
  // What the expression printer produces for the two selector shapes
  // ---------------------------------------------------------------------------

  /** `param.Member`: a member access on the lambda's parameter. */
  function MemberAccess(param: Name, member: Name): string {
    param + ("." + member)
  }

  /** `Member = param.Member`: one initializer of an anonymous object (spelled as separate characters). */
  function Initializer(param: Name, member: Name): string {
    member + (" " + ("=" + (" " + MemberAccess(param, member))))
  }

  /** The initializers of `new { param.A, param.B, … }`, in order. */
  function Initializers(param: Name, members: seq<Name>): (r: seq<string>)
    ensures |r| == |members|
    decreases |members|
  {
    if |members| == 0 then [] else [Initializer(param, members[0])] + Initializers(param, members[1..])
  }

  /**
    The printed body of `param => new { param.A, param.B, … }`: the compiler's type
    name, with the type's number `d1` and its arity `d2`, then the initializers.
   */
  function AnonymousObject(d1: string, d2: string, param: Name, members: seq<Name>): string {
    TypeName(d1, d2) + ("(" + (Join(Initializers(param, members), ", ") + ")"))
  }

  /** The compiler's name of an anonymous type, `<>f__AnonymousType<d1>`<d2>`, after `new `. */
  function TypeName(d1: string, d2: string): string {
    AnonymousPrefix + (d1 + ("`" + d2))
  }

  /** `Member = Member`: an initializer once the parameter is dropped. */
  function Bare(member: Name): string {
    member + (" " + ("=" + (" " + member)))
  }

  /** `Bare` of every member, in order. */
  function Bares(members: seq<Name>): (r: seq<string>)
    ensures |r| == |members|
    decreases |members|
  {
    if |members| == 0 then [] else [Bare(members[0])] + Bares(members[1..])
  }

  // ---------------------------------------------------------------------------
  // Character facts
  // ---------------------------------------------------------------------------

  /** A character that is neither in an identifier nor in `" = "`. */
  predicate Punctuation(c: char) {
    !IdentifierChar(c) && c != ' ' && c != '='
  }

  /** A name holds no punctuation, no space and no `=`. */
  lemma NameLacks(m: Name, c: char)
    requires !IdentifierChar(c)
    ensures c !in m
  {
  }

  /** A bare initializer holds no punctuation. */
  lemma BareLacks(m: Name, c: char)
    requires Punctuation(c)
    ensures c !in Bare(m)
  {
    NameLacks(m, c);
  }

  /** A character absent from every piece and from the separator is absent from the join. */
  lemma {:induction false} JoinLacks(xs: seq<string>, sep: string, c: char)
    requires forall k | 0 <= k < |xs| :: c !in xs[k]
    requires c !in sep
    ensures c !in Join(xs, sep)
    decreases |xs|
  {
    if |xs| > 1 {
      JoinLacks(xs[1..], sep, c);
      assert Join(xs, sep) == xs[0] + sep + Join(xs[1..], sep);
    }
  }

  /** The joined bare initializers hold no punctuation. */
  lemma BaresLack(members: seq<Name>, c: char)
    requires Punctuation(c) && c != ','
    ensures c !in Join(Bares(members), ", ")
  {
    forall k | 0 <= k < |members| ensures c !in Bares(members)[k] {
      BaresAt(members, k);
      BareLacks(members[k], c);
    }
    JoinLacks(Bares(members), ", ", c);
  }

  /** `Bares` holds the bare initializer of each member. */
  lemma {:induction false} BaresAt(members: seq<Name>, k: int)
    requires 0 <= k < |members|
    ensures Bares(members)[k] == Bare(members[k])
    decreases |members|
  {
    if k > 0 {
      BaresAt(members[1..], k - 1);
    }
  }

  // ---------------------------------------------------------------------------
  // Stage 1: dropping `param.`
  // ---------------------------------------------------------------------------

  /** A text without a `.` holds no `param.`. */
  lemma NoDotNoAccess(param: Name, t: string)
    requires '.' !in t
    ensures !Contains(t, param + ".")
  {
    assert (param + ".")[|param|] == '.';
    NotContainsByChar(t, param + ".", |param|);
  }

  /** Dropping the parameter from `param.Member` leaves `Member`. */
  lemma StripMemberAccess(param: Name, m: Name)
    ensures StripParameter(param, MemberAccess(param, m)) == m
  {
    var pat := param + ".";
    var t := MemberAccess(param, m);
    assert t == pat + m;
    assert t[..|pat|] == pat && t[|pat|..] == m;
    NameLacks(m, '.');
    NoDotNoAccess(param, m);
  }

  /** A pass splits around ` = ` when the pattern has neither a space nor `=`. */
  lemma ReplaceAroundEquals(lhs: string, rhs: string, pat: string, rep: string)
    requires |pat| > 0 && ' ' !in pat && '=' !in pat
    ensures ReplaceAll(lhs + (" " + ("=" + (" " + rhs))), pat, rep)
      == ReplaceAll(lhs, pat, rep) + (" " + ("=" + (" " + ReplaceAll(rhs, pat, rep))))
  {
    ReplaceAllAroundSep(lhs, " ", "=" + (" " + rhs), pat, rep);
    ReplaceEqualsSpace(rhs, pat, rep);
  }

  /** A pass leaves a leading `= ` alone when the pattern has neither character. */
  lemma ReplaceEqualsSpace(rhs: string, pat: string, rep: string)
    requires |pat| > 0 && ' ' !in pat && '=' !in pat
    ensures ReplaceAll("=" + (" " + rhs), pat, rep) == "=" + (" " + ReplaceAll(rhs, pat, rep))
  {
    ReplaceAllLeadingSep("=", " " + rhs, pat, rep);
    ReplaceAllLeadingSep(" ", rhs, pat, rep);
  }

  /** A pass splits around `, ` when the pattern has neither a comma nor a space. */
  lemma ReplaceAroundComma(x: string, rest: string, pat: string, rep: string)
    requires |pat| > 0 && ' ' !in pat && ',' !in pat
    ensures ReplaceAll(x + ", " + rest, pat, rep) == ReplaceAll(x, pat, rep) + ", " + ReplaceAll(rest, pat, rep)
  {
    assert x + ", " + rest == x + ("," + (" " + rest));
    ReplaceAllAroundSep(x, ",", " " + rest, pat, rep);
    ReplaceAllLeadingSep(" ", rest, pat, rep);
    var a, b := ReplaceAll(x, pat, rep), ReplaceAll(rest, pat, rep);
    assert a + ("," + (" " + b)) == a + ", " + b;
  }

  /** A pass splits around parentheses when the pattern has none. */
  lemma ReplaceAroundParens(head: string, inner: string, pat: string, rep: string)
    requires |pat| > 0 && '(' !in pat && ')' !in pat
    ensures ReplaceAll(head + ("(" + (inner + ")")), pat, rep)
      == ReplaceAll(head, pat, rep) + ("(" + (ReplaceAll(inner, pat, rep) + ")"))
  {
    ReplaceAllAroundSep(head, "(", inner + ")", pat, rep);
    ReplaceAllTrailingSep(inner, ")", pat, rep);
  }

  /** `param.` has none of the characters the printer puts between names. */
  lemma AccessPatternLacks(param: Name, c: char)
    requires c != '.' && !IdentifierChar(c)
    ensures |param + "."| > 0 && c !in param + "."
  {
    NameLacks(param, c);
  }

  /** Dropping the parameter from an initializer leaves the bare initializer. */
  lemma StripInitializer(param: Name, m: Name)
    ensures StripParameter(param, Initializer(param, m)) == Bare(m)
  {
    AccessPatternLacks(param, ' ');
    AccessPatternLacks(param, '=');
    ReplaceAroundEquals(m, MemberAccess(param, m), param + ".", "");
    StripMemberAccess(param, m);
    NameLacks(m, '.');
    NoDotNoAccess(param, m);
  }

  /** Dropping the parameter from the joined initializers leaves the joined bare ones. */
  lemma {:induction false} StripInitializers(param: Name, members: seq<Name>)
    requires |members| > 0
    ensures StripParameter(param, Join(Initializers(param, members), ", ")) == Join(Bares(members), ", ")
    decreases |members|
  {
    var xs := Initializers(param, members);
    StripInitializer(param, members[0]);
    if |members| > 1 {
      AccessPatternLacks(param, ' ');
      AccessPatternLacks(param, ',');
      ReplaceAroundComma(xs[0], Join(xs[1..], ", "), param + ".", "");
      assert xs[1..] == Initializers(param, members[1..]);
      StripInitializers(param, members[1..]);
      assert Bares(members)[1..] == Bares(members[1..]);
    }
  }

  /** The compiler's type name holds no `.`. */
  lemma TypeNameLacksDot(d1: string, d2: string)
    requires Digits(d1) && Digits(d2)
    ensures '.' !in TypeName(d1, d2)
  {
    AnonymousPrefixFacts();
  }

  /** Dropping the parameter from `head(initializers)` touches only the initializers when `head` has no `.`. */
  lemma StripParenthesized(head: string, param: Name, members: seq<Name>)
    requires '.' !in head && |members| > 0
    ensures StripParameter(param, head + ("(" + (Join(Initializers(param, members), ", ") + ")")))
      == head + ("(" + (Join(Bares(members), ", ") + ")"))
  {
    AccessPatternLacks(param, '(');
    AccessPatternLacks(param, ')');
    ReplaceAroundParens(head, Join(Initializers(param, members), ", "), param + ".", "");
    NoDotNoAccess(param, head);
    StripInitializers(param, members);
  }

  /** Dropping the parameter from an anonymous object touches only the initializers. */
  lemma StripAnonymousObject(d1: string, d2: string, param: Name, members: seq<Name>)
    requires Digits(d1) && Digits(d2) && |members| > 0
    ensures StripParameter(param, AnonymousObject(d1, d2, param, members))
      == TypeName(d1, d2) + ("(" + (Join(Bares(members), ", ") + ")"))
  {
    TypeNameLacksDot(d1, d2);
    StripParenthesized(TypeName(d1, d2), param, members);
  }

  // ---------------------------------------------------------------------------
  // Stages 3 and 4: parentheses, pieces, names
  // ---------------------------------------------------------------------------

  /** Dropping the parentheses around a text that has none inside leaves the text. */
  lemma DropParens(x: string)
    requires '(' !in x && ')' !in x
    ensures Unparenthesized("(" + (x + ")")) == x
  {
    var t := "(" + (x + ")");
    assert t[..1] == "(" && t[1..] == x + ")";
    NotContainsByChar(x + ")", "(", 0);
    assert ReplaceAll(t, "(", "") == x + ")";
    NotContainsByChar(x, ")", 0);
    ReplaceAllConcat(x, ")", ")", "");
    ReplaceAllWhole(")", "");
  }

  /** Every text with a space in front. */
  function Padded(xs: seq<string>): (r: seq<string>)
    ensures |r| == |xs|
    decreases |xs|
  {
    if |xs| == 0 then [] else [" " + xs[0]] + Padded(xs[1..])
  }

  /** Joining with `,` texts that start with a space is joining with `, ` and putting a space in front. */
  lemma {:induction false} PaddedJoin(xs: seq<string>)
    requires |xs| > 0
    ensures Join(Padded(xs), ",") == " " + Join(xs, ", ")
    decreases |xs|
  {
    if |xs| > 1 {
      var ps := Padded(xs);
      assert ps[1..] == Padded(xs[1..]);
      PaddedJoin(xs[1..]);
      assert Join(ps, ",") == " " + xs[0] + "," + (" " + Join(xs[1..], ", "));
    }
  }

  /** The pieces `Split(',')` cuts a `, `-joined list into: the first, then the rest with a space in front. */
  function CommaPieces(xs: seq<string>): (r: seq<string>)
    requires |xs| > 0
    ensures |r| == |xs|
  {
    [xs[0]] + Padded(xs[1..])
  }

  /** Joining with `, ` is joining the comma pieces with `,`. */
  lemma CommaSpaceJoin(xs: seq<string>)
    requires |xs| > 0
    ensures Join(xs, ", ") == Join(CommaPieces(xs), ",")
  {
    if |xs| > 1 {
      CommaPiecesJoin(xs);
      PaddedJoin(xs[1..]);
      CommaSpaceHead(xs);
    } else {
      assert CommaPieces(xs) == [xs[0]];
    }
  }

  /** The comma pieces joined: the first, a comma, the padded rest joined. */
  lemma CommaPiecesJoin(xs: seq<string>)
    requires |xs| > 1
    ensures Join(CommaPieces(xs), ",") == xs[0] + "," + Join(Padded(xs[1..]), ",")
  {
    JoinCons(xs[0], Padded(xs[1..]), ",");
  }

  /** A `, `-join: the first, a comma, a space, the rest joined. */
  lemma CommaSpaceHead(xs: seq<string>)
    requires |xs| > 1
    ensures xs[0] + "," + (" " + Join(xs[1..], ", ")) == Join(xs, ", ")
  {
    var rest := Join(xs[1..], ", ");
    assert xs[0] + "," + (" " + rest) == xs[0] + ", " + rest;
  }

  /** `Padded` holds each text with a space in front. */
  lemma {:induction false} PaddedAt(xs: seq<string>, k: int)
    requires 0 <= k < |xs|
    ensures Padded(xs)[k] == " " + xs[k]
    decreases |xs|
  {
    if k > 0 {
      PaddedAt(xs[1..], k - 1);
    }
  }

  /** A name is not white space at either end. */
  lemma NameUnpadded(m: Name)
    ensures !IsWhiteSpace(m[0]) && !IsWhiteSpace(m[|m| - 1])
  {
    assert IdentifierChar(m[0]) && IdentifierChar(m[|m| - 1]);
  }

  /** The name in front of a bare initializer, with or without a leading space, is the member. */
  lemma ColumnNameOfBare(lead: string, m: Name)
    requires lead == "" || lead == " "
    ensures ColumnName(lead + Bare(m)) == m
  {
    var a := lead + (m + " ");
    assert lead + Bare(m) == a + (['='] + (" " + m));
    NameLacks(m, '=');
    assert '=' !in a;
    SplitPrefix(a, " " + m, '=');
    NameUnpadded(m);
    assert a == lead + m + " ";
    TrimPadded(lead, m, " ");
  }

  /** The names in front of padded bare initializers are the members. */
  lemma {:induction false} ColumnNamesOfPadded(ms: seq<Name>)
    ensures ColumnNames(Padded(Bares(ms))) == ms
    decreases |ms|
  {
    if |ms| > 0 {
      var ps := Padded(Bares(ms));
      assert Bares(ms)[1..] == Bares(ms[1..]);
      assert ps[1..] == Padded(Bares(ms[1..]));
      ColumnNameOfBare(" ", ms[0]);
      ColumnNamesOfPadded(ms[1..]);
    }
  }

  /** No comma piece of the bare initializers holds a comma. */
  lemma CommaPiecesLackComma(ms: seq<Name>)
    requires |ms| > 0
    ensures forall k | 0 <= k < |ms| :: ',' !in CommaPieces(Bares(ms))[k]
  {
    var xs := Bares(ms);
    var pieces := CommaPieces(xs);
    forall k | 0 <= k < |pieces| ensures ',' !in pieces[k] {
      BaresAt(ms, k);
      BareLacks(ms[k], ',');
      if k > 0 {
        PaddedAt(xs[1..], k - 1);
        assert pieces[k] == " " + Bare(ms[k]);
      }
    }
  }

  /** Splitting the joined bare initializers at commas and taking the names gives back the members. */
  lemma NamesOfBares(ms: seq<Name>)
    requires |ms| > 0
    ensures ColumnNames(Split(Join(Bares(ms), ", "), ',')) == ms
  {
    SplitBares(ms);
    ColumnNamesOfPieces(ms);
  }

  /** Splitting the joined bare initializers at commas gives their comma pieces. */
  lemma SplitBares(ms: seq<Name>)
    requires |ms| > 0
    ensures Split(Join(Bares(ms), ", "), ',') == CommaPieces(Bares(ms))
  {
    CommaSpaceJoin(Bares(ms));
    CommaPiecesLackComma(ms);
    SplitCommaJoin(CommaPieces(Bares(ms)));
  }

  /** `SplitJoin` for the comma. */
  lemma SplitCommaJoin(pieces: seq<string>)
    requires |pieces| > 0
    requires forall k | 0 <= k < |pieces| :: ',' !in pieces[k]
    ensures Split(Join(pieces, ","), ',') == pieces
  {
    forall k, j | 0 <= k < |pieces| && 0 <= j < |pieces[k]| ensures pieces[k][j] != ',' {
      assert ',' !in pieces[k];
    }
    SplitJoin(pieces, ',');
  }

  /** The names in front of the comma pieces of the bare initializers are the members. */
  lemma ColumnNamesOfPieces(ms: seq<Name>)
    requires |ms| > 0
    ensures ColumnNames(CommaPieces(Bares(ms))) == ms
  {
    var pieces := CommaPieces(Bares(ms));
    assert Bares(ms)[1..] == Bares(ms[1..]);
    assert pieces == [Bare(ms[0])] + Padded(Bares(ms[1..]));
    ColumnNamesCons(Bare(ms[0]), Padded(Bares(ms[1..])));
    ColumnNameOfFrontBare(ms[0]);
    ColumnNamesOfPadded(ms[1..]);
    assert ms == [ms[0]] + ms[1..];
  }

  /** `ColumnNames` one piece at a time. */
  lemma ColumnNamesCons(p: string, ps: seq<string>)
    ensures ColumnNames([p] + ps) == [ColumnName(p)] + ColumnNames(ps)
  {
    assert ([p] + ps)[1..] == ps;
  }

  /** The name in front of a bare initializer without a leading space is the member. */
  lemma ColumnNameOfFrontBare(m: Name)
    ensures ColumnName(Bare(m)) == m
  {
    ColumnNameOfBare("", m);
    assert "" + Bare(m) == Bare(m);
  }

  // ---------------------------------------------------------------------------
  // The projection of the two selector shapes
  // ---------------------------------------------------------------------------

  /** `param => param.Member` projects to `Member`. */
  lemma MemberProjection(param: Name, m: Name)
    ensures ProjectedNames(Selector(param, MemberAccess(param, m))) == m
  {
    StripMemberAccess(param, m);
    NameLacks(m, '<');
    assert RemoveAnonymousTypes(m) == m;
    NameLacks(m, '(');
    NotContainsByChar(m, "(", 0);
    NameLacks(m, ')');
    NotContainsByChar(m, ")", 0);
    assert Unparenthesized(m) == m;
    NameLacks(m, ',');
    SplitNoSeparator(m, ',');
    NameLacks(m, '=');
    SplitNoSeparator(m, '=');
    NameUnpadded(m);
    TrimPadded("", m, "");
    assert "" + m + "" == m;
    assert ColumnNames([m]) == [ColumnName(m)];
  }

  /** `param => new { param.A, param.B, … }` projects to `A, B, …`. */
  lemma AnonymousProjection(d1: string, d2: string, param: Name, ms: seq<Name>)
    requires Digits(d1) && Digits(d2) && |ms| > 0
    ensures ProjectedNames(Selector(param, AnonymousObject(d1, d2, param, ms))) == Join(ms, ", ")
  {
    AnonymousStripped(d1, d2, param, ms);
    NamesOfBares(ms);
  }

  /** Dropping the parameter, the type name and the parentheses leaves the bare initializers. */
  lemma AnonymousStripped(d1: string, d2: string, param: Name, ms: seq<Name>)
    requires Digits(d1) && Digits(d2) && |ms| > 0
    ensures Unparenthesized(RemoveAnonymousTypes(StripParameter(param, AnonymousObject(d1, d2, param, ms))))
      == Join(Bares(ms), ", ")
  {
    var inner := Join(Bares(ms), ", ");
    var wrapped := "(" + (inner + ")");
    StripAnonymousObject(d1, d2, param, ms);
    AnonymousTypeDropped(d1, d2, ms);
    BaresLack(ms, '(');
    BaresLack(ms, ')');
    DropParens(inner);
  }

  /** The type name in front of the parenthesized initializers is removed. */
  lemma AnonymousTypeDropped(d1: string, d2: string, ms: seq<Name>)
    requires Digits(d1) && Digits(d2)
    ensures var wrapped := "(" + (Join(Bares(ms), ", ") + ")");
      RemoveAnonymousTypes(TypeName(d1, d2) + wrapped) == wrapped
  {
    var wrapped := "(" + (Join(Bares(ms), ", ") + ")");
    BaresLack(ms, '<');
    assert '<' !in wrapped;
    RemoveAnonymousTypeName(d1, d2, wrapped);
  }

  // ---------------------------------------------------------------------------
  // Member names to `alias.column`
  // ---------------------------------------------------------------------------

  /** A text holding no member name of `props` is left alone by the rewrite. */
  lemma {:induction false} RewriteUntouched(props: seq<Property>, t: string)
    requires forall j | 0 <= j < |props| :: !Contains(t, props[j].member)
    ensures RewriteMembers(props, t) == t
    decreases |props|
  {
    if |props| > 0 {
      assert forall j | 0 <= j < |props| - 1 :: props[1..][j] == props[j + 1];
      RewriteUntouched(props[1..], t);
    }
  }

  /**
    Property `i` is rewritten cleanly: no earlier member name occurs inside its member
    name, and no later member name occurs inside its `alias.column`.
   */
  predicate RewritesCleanly(props: seq<Property>, i: int) {
    && 0 <= i < |props|
    && (forall j | 0 <= j < i :: !Contains(props[i].member, props[j].member))
    && (forall j | i < j < |props| :: !Contains(props[i].qualified, props[j].member))
  }

  /** Dropping the first property keeps the others clean. */
  lemma RewritesCleanlyTail(props: seq<Property>, i: int)
    requires 0 < i && RewritesCleanly(props, i)
    ensures RewritesCleanly(props[1..], i - 1)
  {
    var tl := props[1..];
    assert forall j | 0 <= j < |tl| :: tl[j] == props[j + 1];
  }

  /** A cleanly rewritten member name becomes its property's `alias.column`. */
  lemma {:induction false} RewriteMember(props: seq<Property>, i: int)
    requires RewritesCleanly(props, i)
    ensures RewriteMembers(props, props[i].member) == props[i].qualified
    decreases |props|
  {
    var tl := props[1..];
    assert forall j | 0 <= j < |tl| :: tl[j] == props[j + 1];
    if i == 0 {
      ReplaceAllWhole(props[0].member, props[0].qualified);
      RewriteUntouched(tl, props[0].qualified);
    } else {
      assert !Contains(props[i].member, props[0].member);
      RewritesCleanlyTail(props, i);
      RewriteMember(tl, i - 1);
    }
  }

  /** Each text with every occurrence of `pat` replaced. */
  function ReplaceEach(xs: seq<string>, pat: string, rep: string): (r: seq<string>)
    requires |pat| > 0
    ensures |r| == |xs|
  {
    seq(|xs|, k requires 0 <= k < |xs| => ReplaceAll(xs[k], pat, rep))
  }

  /** Each text with the member names rewritten. */
  function RewriteEach(props: seq<Property>, xs: seq<string>): (r: seq<string>)
    ensures |r| == |xs|
  {
    seq(|xs|, k requires 0 <= k < |xs| => RewriteMembers(props, xs[k]))
  }

  /** A pass over a `, `-joined list is a pass over each piece, when the pattern has no comma or space. */
  lemma {:induction false} ReplaceAllOverJoin(xs: seq<string>, pat: string, rep: string)
    requires |pat| > 0 && ' ' !in pat && ',' !in pat
    ensures ReplaceAll(Join(xs, ", "), pat, rep) == Join(ReplaceEach(xs, pat, rep), ", ")
    decreases |xs|
  {
    var ys := ReplaceEach(xs, pat, rep);
    if |xs| == 0 {
      assert ReplaceAll([], pat, rep) == [];
    } else if |xs| > 1 {
      ReplaceAroundComma(xs[0], Join(xs[1..], ", "), pat, rep);
      ReplaceAllOverJoin(xs[1..], pat, rep);
      assert ys[1..] == ReplaceEach(xs[1..], pat, rep);
    }
  }

  /** Rewriting member names in a `, `-joined list rewrites each piece on its own. */
  lemma {:induction false} RewriteMembersOverJoin(props: seq<Property>, xs: seq<string>)
    ensures RewriteMembers(props, Join(xs, ", ")) == Join(RewriteEach(props, xs), ", ")
    decreases |props|
  {
    if |props| == 0 {
      assert RewriteEach(props, xs) == xs;
    } else {
      var m, q := props[0].member, props[0].qualified;
      NameLacks(m, ' ');
      NameLacks(m, ',');
      ReplaceAllOverJoin(xs, m, q);
      RewriteMembersOverJoin(props[1..], ReplaceEach(xs, m, q));
      assert RewriteEach(props[1..], ReplaceEach(xs, m, q)) == RewriteEach(props, xs);
    }
  }

  /** The member names of the properties `idx` picks, in that order. */
  function MembersAt(props: seq<Property>, idx: seq<nat>): (r: seq<Name>)
    requires forall k | 0 <= k < |idx| :: idx[k] < |props|
    ensures |r| == |idx|
  {
    seq(|idx|, k requires 0 <= k < |idx| => props[idx[k]].member)
  }

  /** The `alias.column` of the properties `idx` picks, in that order. */
  function QualifiedAt(props: seq<Property>, idx: seq<nat>): (r: seq<string>)
    requires forall k | 0 <= k < |idx| :: idx[k] < |props|
    ensures |r| == |idx|
  {
    seq(|idx|, k requires 0 <= k < |idx| => props[idx[k]].qualified)
  }

  /** `param => param.Member` becomes the member's `alias.column` when its property rewrites cleanly. */
  lemma MemberProjectionText(props: seq<Property>, param: Name, i: int)
    requires RewritesCleanly(props, i)
    ensures ProjectionText(props, Selector(param, MemberAccess(param, props[i].member))) == Trim(props[i].qualified)
  {
    MemberProjection(param, props[i].member);
    RewriteMember(props, i);
  }

  /**
    `param => new { param.A, param.B, … }` becomes `alias.A, alias.B, …` (each member
    its own property's `alias.column`) when every picked property rewrites cleanly.
   */
  lemma AnonymousProjectionText(props: seq<Property>, d1: string, d2: string, param: Name, idx: seq<nat>)
    requires Digits(d1) && Digits(d2) && |idx| > 0
    requires forall k | 0 <= k < |idx| :: idx[k] < |props| && RewritesCleanly(props, idx[k])
    ensures ProjectionText(props, Selector(param, AnonymousObject(d1, d2, param, MembersAt(props, idx))))
      == Trim(Join(QualifiedAt(props, idx), ", "))
  {
    var ms := MembersAt(props, idx);
    AnonymousProjection(d1, d2, param, ms);
    RewriteMembersOverJoin(props, ms);
    forall k | 0 <= k < |idx| ensures RewriteEach(props, ms)[k] == QualifiedAt(props, idx)[k] {
      RewriteMember(props, idx[k]);
    }
    assert RewriteEach(props, ms) == QualifiedAt(props, idx);
  }

  /**
    The rewrite is by substring, not by identifier: when an earlier property's member
    name is a prefix of a later one's (`Id` before `IdCard`), the later name is caught
    by the earlier rewrite and keeps its tail (`a.ID` + `Card`).
   */
  lemma EarlierPrefixCaptures(props: seq<Property>, tail: string)
    requires |props| == 2 && |tail| > 0
    requires props[1].member == props[0].member + tail
    requires !Contains(tail, props[0].member)
    requires !Contains(props[0].qualified + tail, props[1].member)
    ensures RewriteMembers(props, props[1].member) == props[0].qualified + tail
  {
    var m, q := props[0].member, props[0].qualified;
    var tl := props[1..];
    assert RewriteMembers(props, props[1].member) == RewriteMembers(tl, ReplaceAll(m + tail, m, q));
    ReplaceAtFront(m, tail, q);
    assert |tl| == 1 && tl[0] == props[1];
    RewriteUntouched(tl, q + tail);
  }

  /** A text starting with the pattern and holding it nowhere else has just its front replaced. */
  lemma ReplaceAtFront(pat: string, tail: string, rep: string)
    requires |pat| > 0 && !Contains(tail, pat)
    ensures ReplaceAll(pat + tail, pat, rep) == rep + tail
  {
    assert (pat + tail)[..|pat|] == pat && (pat + tail)[|pat|..] == tail;
  }
}

=== FILE: replacement.dfy ===
/**
  What repeated ordinal `Replace` passes do and do not do to a text: which
  occurrences they remove, which characters survive them, and how a pass splits
  over a character the pattern lacks.
 */
module Replacement {

  import opened Text

  /** No character of `rep` occurs in `pat`. */
  predicate Disjoint(pat: string, rep: string) {
    forall b | 0 <= b < |rep| :: rep[b] !in pat
  }

  /** A pass splits around a character the pattern lacks. */
  lemma ReplaceAllAroundChar(a: string, c: char, b: string, pat: string, rep: string)
    requires |pat| > 0 && c !in pat
    ensures ReplaceAll(a + [c] + b, pat, rep) == ReplaceAll(a, pat, rep) + [c] + ReplaceAll(b, pat, rep)
  {
    var t := [c] + b;
    calc {
      ReplaceAll(a + [c] + b, pat, rep);
      { assert a + [c] + b == a + t; }
      ReplaceAll(a + t, pat, rep);
      { ReplaceAllBeforeSeparator(a, t, pat, rep); }
      ReplaceAll(a, pat, rep) + ReplaceAll(t, pat, rep);
      { assert pat[0] in pat; ReplaceAllLeadingChar(c, b, pat, rep); }
      ReplaceAll(a, pat, rep) + ([c] + ReplaceAll(b, pat, rep));
      ReplaceAll(a, pat, rep) + [c] + ReplaceAll(b, pat, rep);
    }
  }

  /** A pass splits in front of a text whose first character the pattern lacks. */
  lemma ReplaceAllBeforeSeparator(a: string, t: string, pat: string, rep: string)
    requires |pat| > 0 && |t| > 0 && t[0] !in pat
    ensures ReplaceAll(a + t, pat, rep) == ReplaceAll(a, pat, rep) + ReplaceAll(t, pat, rep)
  {
    NoStraddleBySeparator(a, t, pat);
    ReplaceAllConcat(a, t, pat, rep);
  }

  /** `ReplaceAllAroundChar` for a one-character separator text, nested to the right. */
  lemma ReplaceAllAroundSep(a: string, sep: string, b: string, pat: string, rep: string)
    requires |pat| > 0 && |sep| == 1 && sep[0] !in pat
    ensures ReplaceAll(a + (sep + b), pat, rep) == ReplaceAll(a, pat, rep) + (sep + ReplaceAll(b, pat, rep))
  {
    assert sep == [sep[0]];
    assert a + (sep + b) == a + [sep[0]] + b;
    ReplaceAllAroundChar(a, sep[0], b, pat, rep);
  }

  /** A pass leaves a one-character text in front alone when the pattern lacks it. */
  lemma ReplaceAllLeadingSep(sep: string, b: string, pat: string, rep: string)
    requires |pat| > 0 && |sep| == 1 && sep[0] !in pat
    ensures ReplaceAll(sep + b, pat, rep) == sep + ReplaceAll(b, pat, rep)
  {
    assert sep == [sep[0]];
    assert pat[0] in pat;
    ReplaceAllLeadingChar(sep[0], b, pat, rep);
  }

  /** A pass leaves a one-character text at the end alone when the pattern lacks it. */
  lemma ReplaceAllTrailingSep(a: string, sep: string, pat: string, rep: string)
    requires |pat| > 0 && |sep| == 1 && sep[0] !in pat
    ensures ReplaceAll(a + sep, pat, rep) == ReplaceAll(a, pat, rep) + sep
  {
    assert sep == [sep[0]];
    assert pat[|pat| - 1] in pat;
    ReplaceAllTrailingChar(a, sep[0], pat, rep);
  }

  /**
    A front of the result free of `rep`'s first character was copied from the
    input: no replacement happened there.
   */
  lemma {:induction false} RepFreePrefixKept(t: string, pat: string, rep: string, n: nat)
    requires |pat| > 0 && |rep| > 0
    requires n <= |ReplaceAll(t, pat, rep)|
    requires forall j | 0 <= j < n :: ReplaceAll(t, pat, rep)[j] != rep[0]
    ensures n <= |t| && ReplaceAll(t, pat, rep)[..n] == t[..n]
    decreases |t|
  {
    if n > 0 {
      var r := ReplaceAll(t, pat, rep);
      assert r[0] != rep[0];
      if !StartsWith(t, pat) {
        var u := ReplaceAll(t[1..], pat, rep);
        assert r == [t[0]] + u;
        forall j | 0 <= j < n - 1 ensures u[j] != rep[0] {
          assert u[j] == r[j + 1];
        }
        RepFreePrefixKept(t[1..], pat, rep, n - 1);
        assert r[..n] == [t[0]] + u[..n - 1];
        assert t[..n] == [t[0]] + t[1..][..n - 1];
      }
    }
  }

  /**
    A pass whose replacement shares no character with `p` creates no occurrence
    of `p`: if the input lacks `p`, so does the output.
   */
  lemma {:induction false} NoNewOccurrence(s: string, q: string, rep: string, p: string)
    requires |q| > 0 && |p| > 0 && |rep| > 0
    requires Disjoint(p, rep)
    requires !Contains(s, p)
    ensures !Contains(ReplaceAll(s, q, rep), p)
    decreases |s|
  {
    var r := ReplaceAll(s, q, rep);
    if StartsWith(s, q) {
      var t := ReplaceAll(s[|q|..], q, rep);
      assert r == rep + t;
      NotContainsSuffix(s, |q|, p);
      NoNewOccurrence(s[|q|..], q, rep, p);
      NoOccurrenceAfterRep(rep, t, p);
    } else if |s| > 0 {
      var t := ReplaceAll(s[1..], q, rep);
      assert r[1..] == t;
      NotContainsSuffix(s, 1, p);
      NoNewOccurrence(s[1..], q, rep, p);
      if |p| <= |r| {
        FrontNotOccurrence(s, q, rep, p);
      }
      NoOccurrenceAfterHead(r, t, p);
    }
  }

  /** A replacement sharing no character with `p`, put in front of a text without `p`, creates no `p`. */
  lemma NoOccurrenceAfterRep(rep: string, t: string, p: string)
    requires |p| > 0 && Disjoint(p, rep) && !Contains(t, p)
    ensures !Contains(rep + t, p)
  {
    var r := rep + t;
    ContainsIff(r, p);
    ContainsIff(t, p);
    assert p[0] in p;
    forall i ensures !OccursAt(r, p, i) {
      if 0 <= i < |rep| && i + |p| <= |r| {
        assert r[i..i + |p|][0] == rep[i];
        assert rep[i] !in p;
      } else if |rep| <= i && i + |p| <= |r| {
        assert r[i..i + |p|] == t[i - |rep|..i - |rep| + |p|];
        assert !OccursAt(t, p, i - |rep|);
      }
    }
  }

  /** A text whose tail lacks `p` and whose front is not `p` lacks `p`. */
  lemma NoOccurrenceAfterHead(r: string, t: string, p: string)
    requires |r| > 0 && r[1..] == t && !Contains(t, p)
    requires |p| <= |r| ==> r[..|p|] != p
    ensures !Contains(r, p)
  {
    ContainsIff(r, p);
    ContainsIff(t, p);
    forall i ensures !OccursAt(r, p, i) {
      if 0 < i && i + |p| <= |r| {
        assert r[i..i + |p|] == t[i - 1..i - 1 + |p|];
        assert !OccursAt(t, p, i - 1);
      }
    }
  }

  /**
    The step of `NoNewOccurrence` at the front: a text that does not start with
    `p` and is copied character by character does not start with `p` afterwards.
   */
  lemma FrontNotOccurrence(s: string, q: string, rep: string, p: string)
    requires |q| > 0 && |p| > 0 && |rep| > 0 && |s| > 0
    requires Disjoint(p, rep)
    requires !StartsWith(s, q) && !StartsWith(s, p)
    requires |p| <= |ReplaceAll(s, q, rep)|
    ensures ReplaceAll(s, q, rep)[..|p|] != p
  {
    var r := ReplaceAll(s, q, rep);
    var t := ReplaceAll(s[1..], q, rep);
    assert r == [s[0]] + t;
    var n := |p| - 1;
    if forall j | 0 <= j < n :: t[j] != rep[0] {
      RepFreePrefixKept(s[1..], q, rep, n);
      assert r[..|p|] == [s[0]] + t[..n];
      assert s[..|p|] == [s[0]] + s[1..][..n];
    } else {
      var j :| 0 <= j < n && t[j] == rep[0];
      assert r[..|p|][j + 1] == t[j];
      assert rep[0] !in p;
    }
  }

  /** The absence of a pattern carries over from a text to its suffixes. */
  lemma NotContainsSuffix(s: string, d: int, p: string)
    requires 0 <= d <= |s| && !Contains(s, p)
    ensures !Contains(s[d..], p)
  {
    if Contains(s[d..], p) {
      ContainsSlice(s, d, |s|, s[d..], p);
    }
  }

  /** After a pass whose replacement shares no character with the pattern, the pattern is gone. */
  lemma {:induction false} ReplaceAllRemoves(s: string, q: string, rep: string)
    requires |q| > 0 && |rep| > 0
    requires Disjoint(q, rep)
    ensures !Contains(ReplaceAll(s, q, rep), q)
    decreases |s|
  {
    var r := ReplaceAll(s, q, rep);
    if StartsWith(s, q) {
      var t := ReplaceAll(s[|q|..], q, rep);
      assert r == rep + t;
      ReplaceAllRemoves(s[|q|..], q, rep);
      NoOccurrenceAfterRep(rep, t, q);
    } else if |s| > 0 {
      var t := ReplaceAll(s[1..], q, rep);
      assert r[1..] == t;
      ReplaceAllRemoves(s[1..], q, rep);
      if |q| <= |r| {
        FrontNotOccurrence(s, q, rep, q);
      }
      NoOccurrenceAfterHead(r, t, q);
    }
  }

  /** A character the pattern lacks survives a pass. */
  lemma {:induction false} KeepsChar(s: string, q: string, rep: string, c: char)
    requires |q| > 0 && c !in q && c in s
    ensures c in ReplaceAll(s, q, rep)
    decreases |s|
  {
    var r := ReplaceAll(s, q, rep);
    if StartsWith(s, q) {
      var t := ReplaceAll(s[|q|..], q, rep);
      assert r == rep + t;
      var k :| 0 <= k < |s| && s[k] == c;
      assert s[..|q|] == q;
      if k >= |q| {
        assert s[|q|..][k - |q|] == c;
        KeepsChar(s[|q|..], q, rep, c);
        assert c in t;
      }
    } else {
      var t := ReplaceAll(s[1..], q, rep);
      assert r == [s[0]] + t;
      if s[0] != c {
        var k :| 0 <= k < |s| && s[k] == c;
        assert s[1..][k - 1] == c;
        KeepsChar(s[1..], q, rep, c);
        assert c in t;
      }
    }
  }

  /** A character that is neither in the pattern nor in the text stays out of the result when the replacement lacks it too. */
  lemma {:induction false} AvoidsChar(s: string, q: string, rep: string, c: char)
    requires |q| > 0 && c !in s && c !in rep
    ensures c !in ReplaceAll(s, q, rep)
    decreases |s|
  {
    if StartsWith(s, q) {
      var s' := s[|q|..];
      assert forall k | 0 <= k < |s'| :: s'[k] == s[k + |q|];
      AvoidsChar(s', q, rep, c);
    } else if |s| > 0 {
      var s' := s[1..];
      assert forall k | 0 <= k < |s'| :: s'[k] == s[k + 1];
      AvoidsChar(s', q, rep, c);
    }
  }

  /** A pass whose replacement is no longer than its pattern never lengthens the text, and shortens it when it replaces something with something shorter. */
  lemma {:induction false} ReplaceAllNotLonger(s: string, pat: string, rep: string)
    requires |pat| > 0 && |rep| <= |pat|
    ensures |ReplaceAll(s, pat, rep)| <= |s|
    ensures Contains(s, pat) && |rep| < |pat| ==> |ReplaceAll(s, pat, rep)| < |s|
    decreases |s|
  {
    if StartsWith(s, pat) {
      ReplaceAllNotLonger(s[|pat|..], pat, rep);
    } else if |s| > 0 {
      ReplaceAllNotLonger(s[1..], pat, rep);
    }
  }

  /**
    A keyword in front of a text that lacks it, separated by a space, is all a pass
    removing the keyword removes: trimming then gives the text back, as it does
    when the keyword was never there.
   */
  lemma LeadingKeywordDropped(kw: string, q: string)
    requires |kw| > 0 && kw[0] != ' ' && !Contains(q, kw)
    requires |q| > 0 && !IsWhiteSpace(q[0]) && !IsWhiteSpace(q[|q| - 1])
    ensures Trim(ReplaceAll(kw + (" " + q), kw, "")) == q
    ensures Trim(ReplaceAll(q, kw, "")) == q
  {
    var s := kw + (" " + q);
    assert s[..|kw|] == kw && s[|kw|..] == " " + q;
    var t := " " + q;
    assert t[1..] == q;
    NoOccurrenceAfterHead(t, q, kw);
    assert ReplaceAll(s, kw, "") == t;
    TrimPadded(" ", q, "");
    assert " " + q + "" == t;
    TrimPadded("", q, "");
    assert "" + q + "" == q;
  }
}

=== FILE: select.dfy ===
/**
  `SnowflakeCommand<T>.Select`: the column list the constructor wrote after `SELECT`
  is replaced, everywhere in the builder, by the `alias.column` list the selector
  projects. There is no guard: a second call finds the column list gone.
 */
module SelectClause {

  import opened Wrappers
  import opened Text
  import opened Errors
  import opened Command
  import opened Projection

  /** `Select(predicate)`: the command with its column list replaced, or the exception `Replace` throws. */
  function Select(c: Command, sel: Selector): (r: Result<Command, Error>)
    ensures r.Failure? <==> c.desc.columns == []
    ensures r.Failure? ==> r.error == EmptyReplaceTarget
    ensures r.Success? ==> r.value.desc == c.desc && r.value.parameters == c.parameters
    ensures r.Success? && !Contains(c.builder, c.desc.columns) ==> r.value.builder == c.builder
  {
    if |c.desc.columns| == 0 then Failure(EmptyReplaceTarget)
    else Success(c.(builder := ReplaceAll(c.builder, c.desc.columns, ProjectionText(c.desc.properties, sel))))
  }

  /** Where the column list was, the projected list (when it is not empty) now shows in `Sql`. */
  lemma SelectShows(c: Command, sel: Selector)
    requires Select(c, sel).Success? && Contains(c.builder, c.desc.columns)
    requires ProjectionText(c.desc.properties, sel) != []
    ensures Contains(Sql(Select(c, sel).value), ProjectionText(c.desc.properties, sel))
  {
    var p := ProjectionText(c.desc.properties, sel);
    TrimEnds(RewriteMembers(c.desc.properties, ProjectedNames(sel)));
    assert StartsWith(p, p);
    ReplacedShows(c.builder, c.desc.columns, p, p);
  }

  /** `Select(x => x.Member)` puts that property's trimmed `alias.column` where the column list was. */
  lemma SelectMember(c: Command, param: Name, i: int)
    requires c.desc.columns != [] && RewritesCleanly(c.desc.properties, i)
    ensures var sel := Selector(param, MemberAccess(param, c.desc.properties[i].member));
      Select(c, sel).Success?
      && Select(c, sel).value.builder == ReplaceAll(c.builder, c.desc.columns, Trim(c.desc.properties[i].qualified))
  {
    MemberProjectionText(c.desc.properties, param, i);
  }

  /** `Select(x => new { x.A, x.B, … })` puts the picked properties' `alias.column` list where the column list was. */
  lemma SelectAnonymous(c: Command, d1: string, d2: string, param: Name, idx: seq<nat>)
    requires c.desc.columns != [] && Digits(d1) && Digits(d2) && |idx| > 0
    requires forall k | 0 <= k < |idx| :: idx[k] < |c.desc.properties| && RewritesCleanly(c.desc.properties, idx[k])
    ensures var sel := Selector(param, AnonymousObject(d1, d2, param, MembersAt(c.desc.properties, idx)));
      Select(c, sel).Success?
      && Select(c, sel).value.builder
         == ReplaceAll(c.builder, c.desc.columns, Trim(Join(QualifiedAt(c.desc.properties, idx), ", ")))
  {
    AnonymousProjectionText(c.desc.properties, d1, d2, param, idx);
  }

  /**
    On a freshly constructed command with a column list, `Select` succeeds and the
    projected list shows in `Sql`: the column list sits right after `SELECT `.
   */
  lemma SelectAfterNew(e: EntityDecl, database: string, schema: string, sel: Selector)
    requires New(e, database, schema).Success?
    requires New(e, database, schema).value.desc.columns != []
    requires ProjectionText(New(e, database, schema).value.desc.properties, sel) != []
    ensures Select(New(e, database, schema).value, sel).Success?
    ensures Contains(Sql(Select(New(e, database, schema).value, sel).value),
                     ProjectionText(New(e, database, schema).value.desc.properties, sel))
  {
    var c := New(e, database, schema).value;
    SelectAfterHead(c, FromClause(database, schema, c.desc.table), JoinClauses(database, schema, c.desc.joins), sel);
  }

  /** A builder holding the column list right after `SELECT ` shows the projected list once `Select` ran. */
  lemma SelectAfterHead(c: Command, from: string, joins: string, sel: Selector)
    requires c.builder == "SELECT " + c.desc.columns + from + joins
    requires c.desc.columns != [] && ProjectionText(c.desc.properties, sel) != []
    ensures Select(c, sel).Success?
    ensures Contains(Sql(Select(c, sel).value), ProjectionText(c.desc.properties, sel))
  {
    ContainsAfterHead(c.desc.columns, from, joins);
    SelectShows(c, sel);
  }

  /** The column list is in the text that starts with it after `SELECT `. */
  lemma ContainsAfterHead(columns: string, from: string, joins: string)
    ensures Contains("SELECT " + columns + from + joins, columns)
  {
    var b := "SELECT " + columns + from + joins;
    assert b[7..7 + |columns|] == columns;
    OccursAtContains(b, columns, 7);
  }
}

=== FILE: selecthead.dfy ===
/**
  Facts about the opening words of a query (`SELECT `, `SELECT DISTINCT `,
  `SELECT TOP n `) that the DISTINCT and TOP rewrites rely on: where `SELECT`
  can occur in them and what replacing it does. Each fact about a fixed word
  is a lemma of its own.
 */
module SelectHead {

  import opened Text

  /** `SELECT` has no space. */
  lemma SelectHasNoSpace()
    ensures forall j | 0 <= j < |"SELECT"| :: "SELECT"[j] != ' '
  {
  }

  /** The head `SELECT ` holds `SELECT` only at its start. */
  lemma SelectHeadClear()
    ensures !Contains("SELECT "[1..], "SELECT")
  {
    NotContainsByChar("SELECT "[1..], "SELECT", 0);
  }

  /** The head `SELECT DISTINCT ` holds `SELECT` only at its start. */
  lemma DistinctHeadClear()
    ensures !Contains("SELECT DISTINCT "[1..], "SELECT")
  {
    DistinctHeadSplit();
    ElectDClear();
    IstinctClear();
    DistinctSeamClear();
    NotContainsConcat("ELECT D", "ISTINCT ", "SELECT");
  }

  /** No `SELECT` straddles the cut of `DistinctHeadSplit`. */
  lemma DistinctSeamClear()
    ensures NoStraddle("ELECT D", "ISTINCT ", "SELECT")
  {
    NoStraddleBySeparator("ELECT D", "ISTINCT ", "SELECT");
  }

  /** `SELECT DISTINCT ` past its first letter, cut before its only other `S`. */
  lemma DistinctHeadSplit()
    ensures "SELECT DISTINCT "[1..] == "ELECT D" + "ISTINCT "
  {
  }

  /** `ELECT D` has no `S`. */
  lemma ElectDClear()
    ensures !Contains("ELECT D", "SELECT")
  {
    NotContainsByChar("ELECT D", "SELECT", 0);
  }

  /** `ISTINCT ` has no `E`. */
  lemma IstinctClear()
    ensures !Contains("ISTINCT ", "SELECT")
  {
    NotContainsByChar("ISTINCT ", "SELECT", 1);
  }

  /** `SELECT ` is `SELECT` and a space. */
  lemma SelectSpaceSplit()
    ensures "SELECT " == "SELECT" + " "
  {
  }

  /** `SELECT DISTINCT` is the head `SELECT ` and `DISTINCT`. */
  lemma SelectDistinctSplit()
    ensures "SELECT DISTINCT" == "SELECT " + "DISTINCT"
  {
  }

  /** `SELECT DISTINCT ` is `SELECT DISTINCT` and a space. */
  lemma SelectDistinctSpaceSplit()
    ensures "SELECT DISTINCT " == "SELECT DISTINCT" + " "
  {
  }

  /** `SELECT TOP` is the head `SELECT ` and `TOP`. */
  lemma SelectTopSplit()
    ensures "SELECT TOP" == "SELECT " + "TOP"
  {
  }

  /** `SELECT DISTINCT TOP` is the head `SELECT ` and `DISTINCT TOP`. */
  lemma SelectDistinctTopSplit()
    ensures "SELECT DISTINCT TOP" == "SELECT " + "DISTINCT TOP"
  {
  }

  /** `SELECT DISTINCT TOP` is the head `SELECT DISTINCT ` and `TOP`. */
  lemma DistinctTopSplit()
    ensures "SELECT DISTINCT TOP" == "SELECT DISTINCT " + "TOP"
  {
  }

  /** `DISTINCT TOP` starts with `DISTINCT`. */
  lemma DistinctTopStartsDistinct()
    ensures StartsWith("DISTINCT TOP", "DISTINCT")
  {
    StartsWithConcat("DISTINCT", " TOP");
    assert "DISTINCT" + " TOP" == "DISTINCT TOP";
  }

  /** `SELECT DISTINCT` starts with `SELECT` and ends in a letter. */
  lemma SelectDistinctIsKeyword()
    ensures StartsWith("SELECT DISTINCT", "SELECT") && !IsWhiteSpace("SELECT DISTINCT"[14])
  {
    StartsWithConcat("SELECT", " DISTINCT");
    assert "SELECT" + " DISTINCT" == "SELECT DISTINCT";
  }

  /** `SELECT TOP` starts with `SELECT` and ends in a letter. */
  lemma SelectTopIsKeyword()
    ensures StartsWith("SELECT TOP", "SELECT") && !IsWhiteSpace("SELECT TOP"[9])
  {
    StartsWithConcat("SELECT", " TOP");
    assert "SELECT" + " TOP" == "SELECT TOP";
  }

  /** `SELECT DISTINCT TOP` starts with `SELECT` and ends in a letter. */
  lemma SelectDistinctTopIsKeyword()
    ensures StartsWith("SELECT DISTINCT TOP", "SELECT") && !IsWhiteSpace("SELECT DISTINCT TOP"[18])
  {
    StartsWithConcat("SELECT", " DISTINCT TOP");
    assert "SELECT" + " DISTINCT TOP" == "SELECT DISTINCT TOP";
  }

  /** The middle ` TOP n ` of the head `SELECT TOP n `. */
  function TopMid(n: string): string {
    " TOP " + n + " "
  }

  /** The head `SELECT TOP n ` is `SELECT` followed by ` TOP n `. */
  lemma TopHeadSplit(n: string)
    ensures "SELECT TOP " + n + " " == "SELECT" + TopMid(n)
  {
    TopLiteralSplit();
    Assoc("SELECT", " TOP ", n);
    Assoc("SELECT", " TOP " + n, " ");
  }

  /** `SELECT TOP ` is `SELECT` and ` TOP `. */
  lemma TopLiteralSplit()
    ensures "SELECT TOP " == "SELECT" + " TOP "
  {
  }

  /** `SELECT DISTINCT` followed by ` TOP n ` is the head `SELECT DISTINCT TOP n `. */
  lemma DistinctTopHeadJoin(n: string)
    ensures "SELECT DISTINCT" + TopMid(n) == "SELECT DISTINCT TOP " + n + " "
  {
    DistinctTopLiteralSplit();
    Assoc("SELECT DISTINCT", " TOP ", n);
    Assoc("SELECT DISTINCT", " TOP " + n, " ");
  }

  /** `SELECT DISTINCT TOP ` is `SELECT DISTINCT` and ` TOP `. */
  lemma DistinctTopLiteralSplit()
    ensures "SELECT DISTINCT TOP " == "SELECT DISTINCT" + " TOP "
  {
  }

  /** A run of digits has no `S`. */
  lemma DigitsHaveNoS(n: string)
    requires forall j | 0 <= j < |n| :: '0' <= n[j] <= '9'
    ensures forall j | 0 <= j < |n| :: n[j] != 'S'
  {
  }

  /** ` TOP n ` has no `S`, so no `SELECT`, and ends in a space. */
  lemma TopMidClear(n: string)
    requires forall j | 0 <= j < |n| :: '0' <= n[j] <= '9'
    ensures forall j | 0 <= j < |TopMid(n)| :: TopMid(n)[j] != 'S'
    ensures !Contains(TopMid(n), "SELECT")
    ensures TopMid(n)[|TopMid(n)| - 1] == ' '
  {
    DigitsHaveNoS(n);
    TopHasNoS();
    NoCharInConcat(" TOP ", n, 'S');
    NoCharInConcat(" TOP " + n, " ", 'S');
    NotContainsByChar(TopMid(n), "SELECT", 0);
  }

  /** ` TOP ` has no `S`. */
  lemma TopHasNoS()
    ensures forall j | 0 <= j < |" TOP "| :: " TOP "[j] != 'S'
  {
  }

  /** `SELECT` past its first letter has no `S`. */
  lemma ElectHasNoS()
    ensures forall j | 0 <= j < |"SELECT"[1..]| :: "SELECT"[1..][j] != 'S'
  {
  }

  /** The head `SELECT TOP n ` holds `SELECT` only at its start. */
  lemma TopHeadClear(n: string)
    requires forall j | 0 <= j < |n| :: '0' <= n[j] <= '9'
    ensures !Contains(("SELECT TOP " + n + " ")[1..], "SELECT")
  {
    var mid := TopMid(n);
    TopHeadSplit(n);
    TopMidClear(n);
    ElectHasNoS();
    assert ("SELECT" + mid)[1..] == "SELECT"[1..] + mid;
    NoCharInConcat("SELECT"[1..], mid, 'S');
    NotContainsByChar("SELECT"[1..] + mid, "SELECT", 0);
  }

  /** A query opening with `SELECT DISTINCT ` does not start with `SELECT TOP`. */
  lemma DistinctHeadNotTop(rest: string)
    ensures !StartsWith("SELECT DISTINCT " + rest, "SELECT TOP")
  {
    var s := "SELECT DISTINCT " + rest;
    assert s[7] == 'D';
    NotStartsWithAt(s, "SELECT TOP", 7);
  }

  /** A query opening with `SELECT TOP n ` does not start with `SELECT DISTINCT`. */
  lemma TopHeadNotDistinct(n: string, rest: string)
    ensures !StartsWith("SELECT TOP " + n + " " + rest, "SELECT DISTINCT")
  {
    var s := "SELECT TOP " + n + " " + rest;
    assert s[7] == 'T';
    NotStartsWithAt(s, "SELECT DISTINCT", 7);
  }

  /** Replacing `SELECT` in `SELECT ` + `rest` touches only the opening word. */
  lemma SelectReplace(rest: string, rep: string)
    requires !Contains(rest, "SELECT")
    ensures ReplaceAll("SELECT " + rest, "SELECT", rep) == rep + " " + rest
  {
    SelectHasNoSpace();
    SelectSpaceSplit();
    NotContainsLonger(" ", "SELECT");
    ReplaceFrontWord("SELECT", " ", rest, rep);
  }

  /** Only the `SELECT` that opens the head `SELECT TOP n ` is rewritten to `SELECT DISTINCT`. */
  lemma DistinctAfterTopReplace(n: string, rest: string)
    requires !Contains(rest, "SELECT")
    requires forall j | 0 <= j < |n| :: '0' <= n[j] <= '9'
    ensures ReplaceAll("SELECT TOP " + n + " " + rest, "SELECT", "SELECT DISTINCT") == "SELECT DISTINCT TOP " + n + " " + rest
  {
    SelectHasNoSpace();
    TopHeadSplit(n);
    TopMidClear(n);
    ReplaceFrontWord("SELECT", TopMid(n), rest, "SELECT DISTINCT");
    DistinctTopHeadJoin(n);
  }

  /** Replacing `SELECT DISTINCT` in `SELECT DISTINCT ` + `rest` touches only the opening words. */
  lemma DistinctReplace(rest: string, rep: string)
    requires !Contains(rest, "SELECT")
    ensures ReplaceAll("SELECT DISTINCT " + rest, "SELECT DISTINCT", rep) == rep + " " + rest
  {
    var tail := " " + rest;
    SelectDistinctSpaceSplit();
    Assoc("SELECT DISTINCT", " ", rest);
    Assoc(rep, " ", rest);
    NotContainsLonger(" ", "SELECT");
    SelectHasNoSpace();
    NoStraddleBySpaceEnd(" ", rest, "SELECT");
    NotContainsConcat(" ", rest, "SELECT");
    SelectDistinctIsKeyword();
    ContainsPrefixOf(tail, "SELECT DISTINCT", "SELECT");
    ReplaceAllOnlyAtFront("SELECT DISTINCT", tail, rep);
  }
}

=== FILE: text.dfy ===
/**
  Ordinal string operations of the .NET base library that the command builder relies
  on: white-space tests, `Trim`, `StartsWith`, `Contains`, `Replace` (every occurrence,
  scanning left to right), `Split`, `string.Join` and decimal rendering of integers.
 */
module Text {

  import opened Wrappers

  /** `char.IsWhiteSpace`: the characters of the Unicode White_Space property. */
  predicate IsWhiteSpace(c: char) {
    || c == ' '
    || '\t' <= c <= '\r'
    || c == '\U{0085}'
    || c == '\U{00A0}'
    || c == '\U{1680}'
    || '\U{2000}' <= c <= '\U{200A}'
    || c == '\U{2028}'
    || c == '\U{2029}'
    || c == '\U{202F}'
    || c == '\U{205F}'
    || c == '\U{3000}'
  }

  /** Every character is white space (the empty string included). */
  predicate IsBlank(s: string) {
    forall i | 0 <= i < |s| :: IsWhiteSpace(s[i])
  }

  /** The first index at or after `i` that holds no white space; `|s|` when there is none. */
  function SkipWhite(s: string, i: nat): (r: nat)
    requires i <= |s|
    ensures i <= r <= |s|
    ensures forall j | i <= j < r :: IsWhiteSpace(s[j])
    ensures r < |s| ==> !IsWhiteSpace(s[r])
    decreases |s| - i
  {
    if i == |s| || !IsWhiteSpace(s[i]) then i else SkipWhite(s, i + 1)
  }

  /** The end of `s[lo..hi]` once its trailing white space is dropped. */
  function DropWhite(s: string, lo: nat, hi: nat): (r: nat)
    requires lo <= hi <= |s|
    ensures lo <= r <= hi
    ensures forall j | r <= j < hi :: IsWhiteSpace(s[j])
    ensures r > lo ==> !IsWhiteSpace(s[r - 1])
    decreases hi
  {
    if hi == lo || !IsWhiteSpace(s[hi - 1]) then hi else DropWhite(s, lo, hi - 1)
  }

  /** Where the trimmed text starts in `s`. */
  function TrimLo(s: string): (r: nat)
    ensures r <= |s|
  {
    SkipWhite(s, 0)
  }

  /** Where the trimmed text ends in `s`. */
  function TrimHi(s: string): (r: nat)
    ensures TrimLo(s) <= r <= |s|
  {
    DropWhite(s, TrimLo(s), |s|)
  }

  /** `string.Trim()`: removes white space at both ends. */
  function Trim(s: string): string {
    s[TrimLo(s)..TrimHi(s)]
  }

  /** `string.IsNullOrWhiteSpace`. */
  predicate IsNullOrWhiteSpace(s: Option<string>) {
    s.None? || IsBlank(s.value)
  }

  /** Ordinal `StartsWith`. */
  predicate StartsWith(s: string, p: string) {
    |p| <= |s| && s[..|p|] == p
  }

  /** Ordinal `EndsWith`. */
  predicate EndsWith(s: string, p: string) {
    |p| <= |s| && s[|s| - |p|..] == p
  }

  /** `p` occurs in `s` at position `i`. */
  predicate OccursAt(s: string, p: string, i: int) {
    0 <= i && i + |p| <= |s| && s[i..i + |p|] == p
  }

  /** Ordinal `Contains`: some suffix of `s` starts with `p`. */
  predicate Contains(s: string, p: string)
    decreases |s|
  {
    StartsWith(s, p) || (|s| > 0 && Contains(s[1..], p))
  }

  /** Upper-cases the ASCII letters and leaves every other character alone. */
  function ToUpperAscii(c: char): char {
    if 'a' <= c <= 'z' then (c as int - 32) as char else c
  }

  /** `StartsWith(p, ignoreCase: true, InvariantCulture)` for the ASCII keywords the builder tests. */
  predicate StartsWithIgnoreCase(s: string, p: string) {
    |p| <= |s| && forall i | 0 <= i < |p| :: ToUpperAscii(s[i]) == ToUpperAscii(p[i])
  }

  /**
    Ordinal `Replace(pat, rep)` on a string or `StringBuilder`: every occurrence of
    `pat`, found left to right without overlap, is replaced by `rep`. .NET rejects an
    empty `pat`, hence the precondition.
   */
  function ReplaceAll(s: string, pat: string, rep: string): (r: string)
    requires |pat| > 0
    ensures !Contains(s, pat) ==> r == s
    ensures Contains(s, pat) ==> Contains(r, rep)
    decreases |s|
  {
    if StartsWith(s, pat) then
      var r := rep + ReplaceAll(s[|pat|..], pat, rep);
      assert r[..|rep|] == rep;
      r
    else if |s| == 0 then
      []
    else
      var t := ReplaceAll(s[1..], pat, rep);
      var r := [s[0]] + t;
      assert r[1..] == t;
      r
  }

  /** `s.Split(c)`: the pieces between the occurrences of `c`, so one more piece than separators. */
  function Split(s: string, c: char): (r: seq<string>)
    ensures |r| > 0
    decreases |s|
  {
    if |s| == 0 then
      [[]]
    else if s[0] == c then
      [[]] + Split(s[1..], c)
    else
      var rest := Split(s[1..], c);
      [[s[0]] + rest[0]] + rest[1..]
  }

  /** `string.Join(sep, xs)`. */
  function Join(xs: seq<string>, sep: string): string
    decreases |xs|
  {
    if |xs| == 0 then []
    else if |xs| == 1 then xs[0]
    else xs[0] + sep + Join(xs[1..], sep)
  }

  /** Joining a list with a head puts the head and a separator in front of the rest. */
  lemma JoinCons(x: string, xs: seq<string>, sep: string)
    requires |xs| > 0
    ensures Join([x] + xs, sep) == x + sep + Join(xs, sep)
  {
    assert ([x] + xs)[1..] == xs;
  }

  /** The decimal digit for `d`. */
  function Digit(d: nat): char
    requires d < 10
  {
    "0123456789"[d]
  }

  /** `Int32.ToString()` of a non-negative value: decimal digits without leading zeros. */
  function NatToString(n: nat): (r: string)
    ensures |r| > 0
    ensures forall i | 0 <= i < |r| :: '0' <= r[i] <= '9'
    ensures |r| > 1 ==> r[0] != '0'
    decreases n
  {
    if n < 10 then [Digit(n)] else NatToString(n / 10) + [Digit(n % 10)]
  }

  /** `Int32.ToString()` with the invariant culture's minus sign. */
  function IntToString(n: int): string {
    if n < 0 then "-" + NatToString(-n) else NatToString(n)
  }

  /** Reads a string of decimal digits back as a number; the inverse of `NatToString`. */
  function ParseDigits(s: string): nat
    requires forall i | 0 <= i < |s| :: '0' <= s[i] <= '9'
    decreases |s|
  {
    if |s| == 0 then 0 else 10 * ParseDigits(s[..|s| - 1]) + (s[|s| - 1] as int - '0' as int)
  }

  // ---------------------------------------------------------------------------
  // Lemmas
  // ---------------------------------------------------------------------------

  /** `Contains` means an occurrence at some position. */
  lemma {:induction false} ContainsIff(s: string, p: string)
    ensures Contains(s, p) <==> exists i :: OccursAt(s, p, i)
    decreases |s|
  {
    if StartsWith(s, p) {
      assert OccursAt(s, p, 0);
    } else if |s| > 0 {
      ContainsIff(s[1..], p);
      forall i ensures OccursAt(s, p, i) <==> (i >= 1 && OccursAt(s[1..], p, i - 1)) {
        if i >= 1 && i + |p| <= |s| {
          assert s[1..][i - 1..i - 1 + |p|] == s[i..i + |p|];
        }
        if i == 0 && |p| <= |s| {
          assert s[..|p|] == s[0..|p|];
        }
      }
      if Contains(s[1..], p) {
        var j :| OccursAt(s[1..], p, j);
        assert OccursAt(s, p, j + 1);
      }
      if exists i :: OccursAt(s, p, i) {
        var i :| OccursAt(s, p, i);
        assert OccursAt(s[1..], p, i - 1);
      }
    }
  }

  /** An occurrence at a known position witnesses `Contains`. */
  lemma OccursAtContains(s: string, p: string, i: int)
    requires OccursAt(s, p, i)
    ensures Contains(s, p)
  {
    ContainsIff(s, p);
  }

  /** A pattern holding a character the text lacks does not occur in it. */
  lemma NotContainsByChar(s: string, p: string, k: int)
    requires 0 <= k < |p|
    requires forall j | 0 <= j < |s| :: s[j] != p[k]
    ensures !Contains(s, p)
  {
    ContainsIff(s, p);
    forall i ensures !OccursAt(s, p, i) {
      if 0 <= i && i + |p| <= |s| {
        assert s[i..i + |p|][k] == s[i + k];
      }
    }
  }

  /** A pattern longer than the text does not occur in it. */
  lemma NotContainsLonger(s: string, p: string)
    requires |p| > |s|
    ensures !Contains(s, p)
  {
    ContainsIff(s, p);
  }

  /** A text holding a pattern is at least as long as the pattern. */
  lemma ContainsNoShorter(s: string, p: string)
    requires Contains(s, p)
    ensures |p| <= |s|
  {
    ContainsIff(s, p);
  }

  /** An occurrence inside a part is an occurrence inside the whole. */
  lemma ContainsConcat(a: string, b: string, p: string)
    requires Contains(a, p) || Contains(b, p)
    ensures Contains(a + b, p)
  {
    ContainsIff(a, p);
    ContainsIff(b, p);
    if Contains(a, p) {
      var i :| OccursAt(a, p, i);
      assert (a + b)[i..i + |p|] == a[i..i + |p|];
      OccursAtContains(a + b, p, i);
    } else {
      var i :| OccursAt(b, p, i);
      assert (a + b)[|a| + i..|a| + i + |p|] == b[i..i + |p|];
      OccursAtContains(a + b, p, |a| + i);
    }
  }

  /** An occurrence inside a slice is an occurrence inside the whole. */
  lemma ContainsSlice(s: string, i: int, j: int, u: string, p: string)
    requires 0 <= i <= j <= |s| && u == s[i..j]
    requires Contains(u, p)
    ensures Contains(s, p)
  {
    ContainsIff(u, p);
    var k :| OccursAt(u, p, k);
    forall m | 0 <= m < |p| ensures s[i + k + m] == p[m] {
      assert u[k..k + |p|][m] == p[m];
    }
    assert s[i + k..i + k + |p|] == p;
    OccursAtContains(s, p, i + k);
  }

  /** Neither part holds the pattern and no occurrence straddles the seam: the whole does not hold it. */
  lemma NotContainsConcat(a: string, b: string, p: string)
    requires !Contains(a, p) && !Contains(b, p)
    requires NoStraddle(a, b, p)
    ensures !Contains(a + b, p)
  {
    ContainsIff(a, p);
    ContainsIff(b, p);
    ContainsIff(a + b, p);
    forall i ensures !OccursAt(a + b, p, i) {
      if 0 <= i && i + |p| <= |a| {
        assert (a + b)[i..i + |p|] == a[i..i + |p|];
        assert !OccursAt(a, p, i);
      }
      if |a| <= i && i + |p| <= |a + b| {
        assert (a + b)[i..i + |p|] == b[i - |a|..i - |a| + |p|];
        assert !OccursAt(b, p, i - |a|);
      }
    }
  }

  /** What the trimmed text holds, the text holds. */
  lemma ContainsOfTrim(s: string, p: string)
    ensures Contains(Trim(s), p) ==> Contains(s, p)
  {
    var u := Trim(s);
    if Contains(u, p) {
      ContainsSlice(s, TrimLo(s), TrimHi(s), u, p);
    }
  }

  /**
    An occurrence with a non-white-space character at or before its start and at or
    after its end survives trimming, whatever the pattern's own ends are.
   */
  lemma ContainsTrimGuarded(s: string, p: string, i: int, lo: int, hi: int)
    requires OccursAt(s, p, i)
    requires 0 <= lo <= i && lo <= hi < |s| && i + |p| <= hi + 1
    requires !IsWhiteSpace(s[lo]) && !IsWhiteSpace(s[hi])
    ensures Contains(Trim(s), p)
  {
    TrimBounds(s, lo, hi);
    OccursInSlice(s, p, i, TrimLo(s), TrimHi(s), Trim(s));
    OccursAtContains(Trim(s), p, i - TrimLo(s));
  }

  /** Trimming keeps everything between two non-white-space characters. */
  lemma TrimBounds(s: string, lo: int, hi: int)
    requires 0 <= lo <= hi < |s|
    requires !IsWhiteSpace(s[lo]) && !IsWhiteSpace(s[hi])
    ensures TrimLo(s) <= lo && hi < TrimHi(s)
  {
  }

  /** An occurrence lying inside a slice is an occurrence in the slice. */
  lemma OccursInSlice(s: string, p: string, i: int, lo: int, hi: int, u: string)
    requires 0 <= lo <= i && i + |p| <= hi <= |s| && u == s[lo..hi]
    ensures OccursAt(s, p, i) ==> OccursAt(u, p, i - lo)
  {
    var a := s[i..i + |p|];
    var b := u[i - lo..i - lo + |p|];
    forall m | 0 <= m < |p| ensures a[m] == b[m] {
    }
    assert a == b;
  }

  /** A text starting with the pattern contains it. */
  lemma StartsWithContains(s: string, p: string)
    requires StartsWith(s, p)
    ensures Contains(s, p)
  {
  }

  /** Concatenation regroups. */
  lemma Assoc(a: string, b: string, c: string)
    ensures a + (b + c) == a + b + c
  {
  }

  /** A text starts with any of its prefixes. */
  lemma StartsWithConcat(a: string, b: string)
    ensures StartsWith(a + b, a)
  {
    assert (a + b)[..|a|] == a;
  }

  /** A character missing from both parts is missing from their concatenation. */
  lemma NoCharInConcat(a: string, b: string, ch: char)
    requires forall j | 0 <= j < |a| :: a[j] != ch
    requires forall j | 0 <= j < |b| :: b[j] != ch
    ensures forall j | 0 <= j < |a + b| :: (a + b)[j] != ch
  {
    forall j | 0 <= j < |a + b| ensures (a + b)[j] != ch {
      if j >= |a| {
        assert (a + b)[j] == b[j - |a|];
      }
    }
  }

  /**
    Replacing a pattern the text holds leaves the replacement in the trimmed result,
    and so any prefix of it whose ends are not white space.
   */
  lemma ReplacedShows(s: string, pat: string, rep: string, kw: string)
    requires |pat| > 0 && StartsWith(rep, kw)
    requires |kw| > 0 && !IsWhiteSpace(kw[0]) && !IsWhiteSpace(kw[|kw| - 1])
    ensures Contains(s, pat) ==> Contains(Trim(ReplaceAll(s, pat, rep)), kw)
  {
    var r := ReplaceAll(s, pat, rep);
    ContainsPrefixOf(r, rep, kw);
    if Contains(r, kw) {
      ContainsTrim(r, kw);
    }
  }

  /** No occurrence of `pat` in `a + b` begins in `a` and ends in `b`. */
  predicate NoStraddle(a: string, b: string, pat: string) {
    forall i | 0 <= i < |a| < i + |pat| :: !OccursAt(a + b, pat, i)
  }

  /** A slice of a suffix is a slice of the whole, shifted. */
  lemma SliceOfSuffix(x: string, d: int, i: int, n: int)
    requires 0 <= d && 0 <= i && 0 <= n && d + i + n <= |x|
    ensures x[d..][i..i + n] == x[d + i..d + i + n]
  {
    var u := x[d..][i..i + n];
    var v := x[d + i..d + i + n];
    forall m | 0 <= m < n ensures u[m] == v[m] {
    }
  }

  /** Replacing in a concatenation is replacing in each part, when no occurrence straddles the seam. */
  lemma {:induction false} ReplaceAllConcat(a: string, b: string, pat: string, rep: string)
    requires |pat| > 0
    requires NoStraddle(a, b, pat)
    ensures ReplaceAll(a + b, pat, rep) == ReplaceAll(a, pat, rep) + ReplaceAll(b, pat, rep)
    decreases |a|
  {
    if |a| == 0 {
      assert a + b == b;
    } else {
      var d := if StartsWith(a + b, pat) then |pat| else 1;
      FrontStep(a, b, pat);
      NoStraddleShift(a, b, pat, d);
      ReplaceAllConcat(a[d..], b, pat, rep);
    }
  }

  /** The first step of `ReplaceAll` on `a + b` is the one it takes on `a`, when nothing straddles. */
  lemma FrontStep(a: string, b: string, pat: string)
    requires |pat| > 0 && |a| > 0
    requires NoStraddle(a, b, pat)
    ensures StartsWith(a + b, pat) <==> StartsWith(a, pat)
    ensures StartsWith(a, pat) ==> (a + b)[|pat|..] == a[|pat|..] + b
    ensures (a + b)[1..] == a[1..] + b
  {
    if StartsWith(a + b, pat) {
      assert OccursAt(a + b, pat, 0);
      assert a[..|pat|] == (a + b)[..|pat|];
    }
    if |pat| <= |a| {
      assert (a + b)[..|pat|] == a[..|pat|];
      assert (a + b)[|pat|..] == a[|pat|..] + b;
    }
  }

  /** Dropping a front of `a` keeps the seam free of occurrences. */
  lemma NoStraddleShift(a: string, b: string, pat: string, d: int)
    requires 0 < d <= |a|
    requires NoStraddle(a, b, pat)
    ensures NoStraddle(a[d..], b, pat)
  {
    var a' := a[d..];
    assert (a + b)[d..] == a' + b;
    forall i | 0 <= i < |a'| < i + |pat| ensures !OccursAt(a' + b, pat, i) {
      if i + |pat| <= |a' + b| {
        SliceOfSuffix(a + b, d, i, |pat|);
        assert !OccursAt(a + b, pat, i + d);
      }
    }
  }


  /** A seam character that the pattern lacks rules out straddling occurrences. */
  lemma NoStraddleBySeparator(a: string, b: string, pat: string)
    requires |b| > 0 && forall j | 0 <= j < |pat| :: pat[j] != b[0]
    ensures NoStraddle(a, b, pat)
  {
    forall i | 0 <= i < |a| < i + |pat| ensures !OccursAt(a + b, pat, i) {
      if i + |pat| <= |a + b| {
        assert (a + b)[i..i + |pat|][|a| - i] == b[0];
      }
    }
  }

  /** A closing character that the pattern does not end with rules out straddling occurrences. */
  lemma NoStraddleByLastChar(a: string, c: char, pat: string)
    requires |pat| > 0 && pat[|pat| - 1] != c
    ensures NoStraddle(a, [c], pat)
  {
    forall i | 0 <= i < |a| < i + |pat| ensures !OccursAt(a + [c], pat, i) {
      if i + |pat| <= |a| + 1 {
        assert (a + [c])[i..i + |pat|][|pat| - 1] == c;
      }
    }
  }

  /** A single leading character that does not begin the pattern passes through replacement. */
  lemma ReplaceAllLeadingChar(c: char, s: string, pat: string, rep: string)
    requires |pat| > 0 && pat[0] != c
    ensures ReplaceAll([c] + s, pat, rep) == [c] + ReplaceAll(s, pat, rep)
  {
    assert ([c] + s)[1..] == s;
  }

  /** A single trailing character that does not end the pattern passes through replacement. */
  lemma ReplaceAllTrailingChar(s: string, c: char, pat: string, rep: string)
    requires |pat| > 0 && pat[|pat| - 1] != c
    ensures ReplaceAll(s + [c], pat, rep) == ReplaceAll(s, pat, rep) + [c]
  {
    NoStraddleByLastChar(s, c, pat);
    ReplaceAllConcat(s, [c], pat, rep);
    NotContainsByChar([c], pat, |pat| - 1);
  }

  /** A text that is exactly the pattern becomes exactly the replacement. */
  lemma ReplaceAllWhole(pat: string, rep: string)
    requires |pat| > 0
    ensures ReplaceAll(pat, pat, rep) == rep
  {
    assert pat[..|pat|] == pat;
    assert pat[|pat|..] == [];
  }

  /** Replacement of a pattern found only at the front rewrites just that front. */
  lemma ReplaceAllOnlyAtFront(pat: string, rest: string, rep: string)
    requires |pat| > 0
    requires !Contains(rest, pat)
    ensures ReplaceAll(pat + rest, pat, rep) == rep + rest
  {
    assert (pat + rest)[..|pat|] == pat;
    assert (pat + rest)[|pat|..] == rest;
  }

  /** Trimming never touches an occurrence whose ends are not white space. */
  lemma ContainsTrim(s: string, p: string)
    requires Contains(s, p)
    requires |p| > 0 && !IsWhiteSpace(p[0]) && !IsWhiteSpace(p[|p| - 1])
    ensures Contains(Trim(s), p)
  {
    ContainsIff(s, p);
    var i :| OccursAt(s, p, i);
    assert s[i..i + |p|][0] == s[i];
    assert s[i..i + |p|][|p| - 1] == s[i + |p| - 1];
    ContainsTrimGuarded(s, p, i, i, i + |p| - 1);
  }

  /** A prefix whose first and last characters are not white space survives trimming. */
  lemma StartsWithTrim(s: string, p: string)
    requires StartsWith(s, p)
    requires |p| > 0 && !IsWhiteSpace(p[0]) && !IsWhiteSpace(p[|p| - 1])
    ensures StartsWith(Trim(s), p)
  {
    assert s[..|p|][0] == s[0];
    assert s[..|p|][|p| - 1] == s[|p| - 1];
    TrimBounds(s, 0, |p| - 1);
    assert Trim(s)[..|p|] == s[..|p|];
  }

  /**
    A pattern that begins with a word can occur in `head + rest` only at the front when
    the word occurs neither in `head` past its first character nor in `rest`, and
    `head` ends in a space the word lacks.
   */
  lemma OccursOnlyAtFront(head: string, rest: string, w: string, p: string)
    requires |w| > 0 && StartsWith(p, w)
    requires |head| > 0 && head[|head| - 1] == ' '
    requires forall j | 0 <= j < |w| :: w[j] != ' '
    requires !Contains(head[1..], w) && !Contains(rest, w)
    ensures Contains(head + rest, p) <==> StartsWith(head + rest, p)
  {
    var s := head + rest;
    ContainsIff(s, p);
    forall i | 1 <= i ensures !OccursAt(s, p, i) {
      WordNotAfterFront(head, rest, w, i);
      OccursPrefix(s, p, w, i);
    }
    if StartsWith(s, p) {
      assert OccursAt(s, p, 0);
    }
  }

  /** Where a text occurs, so does each of its prefixes. */
  lemma OccursPrefix(s: string, p: string, w: string, i: int)
    requires StartsWith(p, w)
    ensures OccursAt(s, p, i) ==> OccursAt(s, w, i)
  {
    if OccursAt(s, p, i) {
      assert s[i..i + |p|][..|w|] == s[i..i + |w|];
    }
  }

  /** The word of `OccursOnlyAtFront` occurs nowhere past the front. */
  lemma WordNotAfterFront(head: string, rest: string, w: string, i: int)
    requires |w| > 0 && 1 <= i
    requires |head| > 0 && head[|head| - 1] == ' '
    requires forall j | 0 <= j < |w| :: w[j] != ' '
    requires !Contains(head[1..], w) && !Contains(rest, w)
    ensures !OccursAt(head + rest, w, i)
  {
    if i + |w| <= |head| - 1 {
      NotInsideHead(head, rest, w, i);
    } else if i < |head| {
      NotAcrossSpace(head + rest, w, i, |head| - 1);
    } else {
      NotInsideRest(head, rest, w, i);
    }
  }

  /** An occurrence ending before the head's last character would lie in `head[1..]`. */
  lemma NotInsideHead(head: string, rest: string, w: string, i: int)
    requires 1 <= i && i + |w| <= |head| - 1
    requires !Contains(head[1..], w)
    ensures !OccursAt(head + rest, w, i)
  {
    var h := head[1..];
    assert h == (head + rest)[1..|head|];
    OccursInSlice(head + rest, w, i, 1, |head|, h);
    ContainsIff(h, w);
    assert !OccursAt(h, w, i - 1);
  }

  /** An occurrence covering a space is impossible for a word without spaces. */
  lemma NotAcrossSpace(s: string, w: string, i: int, k: int)
    requires 0 <= i <= k < i + |w| && k < |s| && s[k] == ' '
    requires forall j | 0 <= j < |w| :: w[j] != ' '
    ensures !OccursAt(s, w, i)
  {
    if i + |w| <= |s| {
      assert s[i..i + |w|][k - i] == ' ' != w[k - i];
    }
  }

  /** An occurrence starting in `rest` would lie in `rest`. */
  lemma NotInsideRest(head: string, rest: string, w: string, i: int)
    requires |head| <= i
    requires !Contains(rest, w)
    ensures !OccursAt(head + rest, w, i)
  {
    if i + |w| <= |head + rest| {
      assert rest == (head + rest)[|head|..|head + rest|];
      OccursInSlice(head + rest, w, i, |head|, |head + rest|, rest);
      ContainsIff(rest, w);
      assert !OccursAt(rest, w, i - |head|);
    }
  }

  /**
    A word without spaces that opens the text, followed by a space-ended middle
    and a rest that do not hold it, is replaced only there.
   */
  lemma ReplaceFrontWord(w: string, mid: string, rest: string, rep: string)
    requires |w| > 0 && forall j | 0 <= j < |w| :: w[j] != ' '
    requires |mid| > 0 && mid[|mid| - 1] == ' '
    requires !Contains(mid, w) && !Contains(rest, w)
    ensures ReplaceAll(w + mid + rest, w, rep) == rep + mid + rest
  {
    var tail := mid + rest;
    NoStraddleBySpaceEnd(mid, rest, w);
    NotContainsConcat(mid, rest, w);
    ReplaceAllOnlyAtFront(w, tail, rep);
    assert w + mid + rest == w + tail;
    assert rep + mid + rest == rep + tail;
  }

  /** Whoever holds a text holds each of its prefixes. */
  lemma ContainsPrefixOf(s: string, p: string, w: string)
    requires StartsWith(p, w)
    ensures Contains(s, p) ==> Contains(s, w)
  {
    ContainsIff(s, p);
    if Contains(s, p) {
      var i :| OccursAt(s, p, i);
      assert s[i..i + |p|][..|w|] == s[i..i + |w|];
      OccursAtContains(s, w, i);
    }
  }

  /** A left part ending in a space rules out straddling occurrences of a pattern without spaces. */
  lemma NoStraddleBySpaceEnd(a: string, b: string, pat: string)
    requires |a| > 0 && a[|a| - 1] == ' '
    requires forall j | 0 <= j < |pat| :: pat[j] != ' '
    ensures NoStraddle(a, b, pat)
  {
    forall i | 0 <= i < |a| < i + |pat| ensures !OccursAt(a + b, pat, i) {
      if i + |pat| <= |a + b| {
        assert (a + b)[i..i + |pat|][|a| - 1 - i] == a[|a| - 1];
      }
    }
  }

  /** Replacing a pattern without spaces in `head + rest`, where `head` ends in a space and `rest` lacks the pattern, leaves `rest` alone. */
  lemma ReplaceAllSpacedHead(head: string, rest: string, pat: string, rep: string)
    requires |pat| > 0 && |head| > 0 && head[|head| - 1] == ' '
    requires forall j | 0 <= j < |pat| :: pat[j] != ' '
    requires !Contains(rest, pat)
    ensures ReplaceAll(head + rest, pat, rep) == ReplaceAll(head, pat, rep) + rest
  {
    NoStraddleBySpaceEnd(head, rest, pat);
    ReplaceAllConcat(head, rest, pat, rep);
  }

  /** A text that starts with something other than white space starts with whatever its trimmed form starts with. */
  lemma StartsWithOfTrim(s: string, p: string)
    requires |s| > 0 && !IsWhiteSpace(s[0])
    ensures StartsWith(Trim(s), p) ==> StartsWith(s, p)
  {
    var u := Trim(s);
    assert TrimLo(s) == 0;
    if StartsWith(u, p) {
      assert u[..|p|] == s[..|p|];
    }
  }

  /** After a common head, starting with `head + q` is starting with `q`. */
  lemma StartsWithAfterHead(head: string, rest: string, q: string)
    ensures StartsWith(head + rest, head + q) <==> StartsWith(rest, q)
  {
    if StartsWith(rest, q) {
      assert (head + rest)[..|head + q|] == head + rest[..|q|];
    }
    if StartsWith(head + rest, head + q) {
      assert rest[..|q|] == (head + rest)[..|head + q|][|head|..];
    }
  }

  /** One differing character rules out a prefix. */
  lemma NotStartsWithAt(s: string, p: string, k: int)
    requires 0 <= k < |p| && k < |s| && s[k] != p[k]
    ensures !StartsWith(s, p)
  {
    if |p| <= |s| {
      assert s[..|p|][k] == s[k];
    }
  }

  /** Starting with a text means starting with each of its prefixes. */
  lemma StartsWithPrefixOf(s: string, p: string, w: string)
    requires StartsWith(p, w)
    ensures StartsWith(s, p) ==> StartsWith(s, w)
  {
    if StartsWith(s, p) {
      assert s[..|w|] == s[..|p|][..|w|];
    }
  }

  /** A right part whose first character occurs in the pattern at most at its start rules out straddling occurrences. */
  lemma NoStraddleByHead(a: string, b: string, pat: string)
    requires |b| > 0 && forall j | 1 <= j < |pat| :: pat[j] != b[0]
    ensures NoStraddle(a, b, pat)
  {
    forall i | 0 <= i < |a| < i + |pat| ensures !OccursAt(a + b, pat, i) {
      if i + |pat| <= |a + b| {
        assert (a + b)[i..i + |pat|][|a| - i] == b[0];
      }
    }
  }

  /** Trimming yields the empty string exactly for blank input. */
  lemma TrimEmptyIffBlank(s: string)
    ensures Trim(s) == [] <==> IsBlank(s)
  {
    if !IsBlank(s) {
      var j :| 0 <= j < |s| && !IsWhiteSpace(s[j]);
      TrimBounds(s, j, j);
    }
  }

  /** Trimming removes blank padding around a text whose ends are not white space. */
  lemma TrimPadded(lead: string, core: string, trail: string)
    requires IsBlank(lead) && IsBlank(trail)
    requires |core| > 0 && !IsWhiteSpace(core[0]) && !IsWhiteSpace(core[|core| - 1])
    ensures Trim(lead + core + trail) == core
  {
    var s := lead + core + trail;
    var lo, hi := |lead|, |lead| + |core| - 1;
    assert s[lo] == core[0] && s[hi] == core[|core| - 1];
    TrimBounds(s, lo, hi);
    assert forall j | 0 <= j < lo :: s[j] == lead[j];
    assert forall j | hi < j < |s| :: s[j] == trail[j - |lead| - |core|];
    assert TrimLo(s) == lo;
    assert TrimHi(s) == hi + 1;
    assert s[lo..hi + 1] == core;
  }

  /** A trimmed text that is not empty starts and ends with something other than white space. */
  lemma TrimEnds(s: string)
    requires |Trim(s)| > 0
    ensures !IsWhiteSpace(Trim(s)[0]) && !IsWhiteSpace(Trim(s)[|Trim(s)| - 1])
  {
    var t := Trim(s);
    assert t[0] == s[TrimLo(s)];
    assert t[|t| - 1] == s[TrimHi(s) - 1];
  }

  /** A text with no white space at either end is its own trim. */
  lemma TrimUnpadded(s: string)
    requires |s| > 0 && !IsWhiteSpace(s[0]) && !IsWhiteSpace(s[|s| - 1])
    ensures Trim(s) == s
  {
    TrimPadded("", s, "");
    assert "" + s + "" == s;
  }

  /** A text ends with what was appended to it, and what is left in front is the rest. */
  lemma EndsWithConcat(a: string, b: string)
    ensures EndsWith(a + b, b) && (a + b)[..|a|] == a
  {
    assert (a + b)[|a|..] == b;
  }

  /** Trimming is idempotent. */
  lemma TrimIdempotent(s: string)
    ensures Trim(Trim(s)) == Trim(s)
  {
    var t := Trim(s);
    if |t| > 0 {
      assert t[0] == s[TrimLo(s)];
      assert t[|t| - 1] == s[TrimHi(s) - 1];
      TrimBounds(t, 0, |t| - 1);
    }
  }

  /** Decimal rendering round-trips through `ParseDigits`. */
  lemma {:induction false} NatToStringRoundTrip(n: nat)
    ensures ParseDigits(NatToString(n)) == n
    decreases n
  {
    if n >= 10 {
      var s := NatToString(n);
      assert s[..|s| - 1] == NatToString(n / 10);
      NatToStringRoundTrip(n / 10);
    }
  }

  /** Distinct numbers render as distinct strings. */
  lemma NatToStringInjective(m: nat, n: nat)
    requires NatToString(m) == NatToString(n)
    ensures m == n
  {
    NatToStringRoundTrip(m);
    NatToStringRoundTrip(n);
  }

  /** `Split` inverts `Join` when no piece holds the separator. */
  lemma {:induction false} SplitJoin(xs: seq<string>, c: char)
    requires |xs| > 0
    requires forall k, j | 0 <= k < |xs| && 0 <= j < |xs[k]| :: xs[k][j] != c
    ensures Split(Join(xs, [c]), c) == xs
    decreases |xs|
  {
    if |xs| == 1 {
      SplitNoSeparator(xs[0], c);
    } else {
      SplitJoin(xs[1..], c);
      assert Join(xs, [c]) == xs[0] + ([c] + Join(xs[1..], [c]));
      SplitPrefix(xs[0], Join(xs[1..], [c]), c);
      assert [xs[0]] + xs[1..] == xs;
    }
  }

  /** A text without the separator splits into itself. */
  lemma {:induction false} SplitNoSeparator(s: string, c: char)
    requires forall j | 0 <= j < |s| :: s[j] != c
    ensures Split(s, c) == [s]
    decreases |s|
  {
    if |s| > 0 {
      SplitNoSeparator(s[1..], c);
      assert [s[0]] + s[1..] == s;
    }
  }

  /** Splitting `a + c + b`, with no separator inside `a`, yields `a` then the pieces of `b`. */
  lemma {:induction false} SplitPrefix(a: string, b: string, c: char)
    requires forall j | 0 <= j < |a| :: a[j] != c
    ensures Split(a + ([c] + b), c) == [a] + Split(b, c)
    decreases |a|
  {
    if |a| == 0 {
      assert a + ([c] + b) == [c] + b;
      assert ([c] + b)[1..] == b;
    } else {
      assert (a + ([c] + b))[1..] == a[1..] + ([c] + b);
      SplitPrefix(a[1..], b, c);
      assert [a[0]] + a[1..] == a;
    }
  }

  /** `Join` inverts `Split`: splitting loses nothing. */
  lemma {:induction false} JoinSplit(s: string, c: char)
    ensures Join(Split(s, c), [c]) == s
    decreases |s|
  {
    if |s| > 0 {
      JoinSplit(s[1..], c);
      var rest := Split(s[1..], c);
      if s[0] == c {
        assert Split(s, c) == [[]] + rest;
        assert Join([[]] + rest, [c]) == [] + [c] + Join(rest, [c]);
        assert s == [s[0]] + s[1..];
      } else {
        var first := [s[0]] + rest[0];
        assert Split(s, c) == [first] + rest[1..];
        if |rest| == 1 {
          assert s == [s[0]] + rest[0];
        } else {
          assert Join(rest, [c]) == rest[0] + [c] + Join(rest[1..], [c]);
          assert s == [s[0]] + s[1..];
        }
      }
    }
  }
}

=== FILE: top.dfy ===
/**
  `SnowflakeCommand<T>.Top`: `SELECT TOP n` (or `SELECT DISTINCT TOP n` after
  `IsDistinct`), at most once. Like the source's `StringBuilder.Replace`, the rewrite
  touches every occurrence in the builder.
 */
module TopClause {

  import opened Wrappers
  import opened Text
  import opened Errors
  import opened Command
  import opened SelectHead
  import opened DistinctClause

  /** `Top(amount)`: the rewritten command, or the exception the method throws. */
  function Top(c: Command, amount: Int32): (r: Result<Command, Error>)
    ensures Contains(Sql(c), "SELECT DISTINCT TOP") || Contains(Sql(c), "SELECT TOP") ==>
      r == Failure(InvalidOperation("Command is already marked using top amount!"))
    ensures !Contains(Sql(c), "SELECT DISTINCT TOP") && !Contains(Sql(c), "SELECT TOP") && amount <= 0 ==>
      r == Failure(ArgumentOutOfRange("amount", "Amount must be a positive integer!"))
    ensures r.Success? <==> !Contains(Sql(c), "SELECT DISTINCT TOP") && !Contains(Sql(c), "SELECT TOP") && amount > 0
    ensures r.Success? ==> r.value.desc == c.desc && r.value.parameters == c.parameters
    ensures r.Success? && StartsWith(Sql(c), "SELECT DISTINCT") ==>
      r.value.builder == ReplaceAll(c.builder, "SELECT DISTINCT", "SELECT DISTINCT TOP " + NatToString(amount))
    ensures r.Success? && !StartsWith(Sql(c), "SELECT DISTINCT") ==>
      r.value.builder == ReplaceAll(c.builder, "SELECT", "SELECT TOP " + NatToString(amount))
  {
    if Contains(Sql(c), "SELECT DISTINCT TOP") || Contains(Sql(c), "SELECT TOP") then
      Failure(InvalidOperation("Command is already marked using top amount!"))
    else if amount <= 0 then
      Failure(ArgumentOutOfRange("amount", "Amount must be a positive integer!"))
    else if StartsWith(Sql(c), "SELECT DISTINCT") then
      Success(c.(builder := ReplaceAll(c.builder, "SELECT DISTINCT", "SELECT DISTINCT TOP " + NatToString(amount))))
    else
      Success(c.(builder := ReplaceAll(c.builder, "SELECT", "SELECT TOP " + NatToString(amount))))
  }

  /** On a plain builder that does not go on with `DISTINCT`, there is no `SELECT DISTINCT TOP`. */
  lemma PlainSelectNoDistinctTop(c: Command, rest: string)
    requires PlainSelect(c, rest) && !StartsWith(rest, "DISTINCT")
    ensures !Contains(Sql(c), "SELECT DISTINCT TOP")
  {
    SelectDistinctTopIsKeyword();
    PlainSelectOccurrence(c, rest, "SELECT DISTINCT TOP");
    SelectDistinctTopSplit();
    StartsWithAfterHead("SELECT ", rest, "DISTINCT TOP");
    DistinctTopStartsDistinct();
    StartsWithPrefixOf(rest, "DISTINCT TOP", "DISTINCT");
  }

  /** On a plain builder that does not go on with `TOP`, there is no `SELECT TOP`. */
  lemma PlainSelectNoTop(c: Command, rest: string)
    requires PlainSelect(c, rest) && !StartsWith(rest, "TOP")
    ensures !Contains(Sql(c), "SELECT TOP")
  {
    SelectTopIsKeyword();
    PlainSelectOccurrence(c, rest, "SELECT TOP");
    SelectTopSplit();
    StartsWithAfterHead("SELECT ", rest, "TOP");
  }

  /** On a plain builder that does not go on with `DISTINCT`, the query does not start with `SELECT DISTINCT`. */
  lemma PlainSelectNotStartingDistinct(c: Command, rest: string)
    requires c.builder == "SELECT " + rest && !StartsWith(rest, "DISTINCT")
    ensures !StartsWith(Sql(c), "SELECT DISTINCT")
  {
    SelectDistinctSplit();
    StartsWithAfterHead("SELECT ", rest, "DISTINCT");
    assert c.builder[0] == "SELECT "[0];
    StartsWithOfTrim(c.builder, "SELECT DISTINCT");
  }

  /** On a plain builder, the opening word becomes `SELECT TOP n`. */
  lemma TopOnPlainSelect(c: Command, rest: string, amount: Int32)
    requires PlainSelect(c, rest) && !StartsWith(rest, "DISTINCT") && !StartsWith(rest, "TOP")
    requires amount > 0
    ensures Top(c, amount) == Success(c.(builder := "SELECT TOP " + NatToString(amount) + " " + rest))
  {
    PlainSelectNoDistinctTop(c, rest);
    PlainSelectNoTop(c, rest);
    PlainSelectNotStartingDistinct(c, rest);
    SelectReplace(rest, "SELECT TOP " + NatToString(amount));
  }

  /** A builder opening with `SELECT DISTINCT ` followed by columns without `SELECT`: what `IsDistinct` gives a plain builder. */
  predicate DistinctSelect(c: Command, rest: string) {
    c.builder == "SELECT DISTINCT " + rest && !Contains(rest, "SELECT")
  }

  /** In a distinct plain builder, a keyword that begins with `SELECT` occurs exactly when the builder starts with it. */
  lemma DistinctSelectOccurrence(c: Command, rest: string, p: string)
    requires DistinctSelect(c, rest)
    requires StartsWith(p, "SELECT") && !IsWhiteSpace(p[|p| - 1])
    ensures Contains(Sql(c), p) <==> StartsWith(c.builder, p)
  {
    DistinctHeadClear();
    HeadOccurrence(c, "SELECT DISTINCT ", rest, p);
  }

  /** A distinct plain builder that does not go on with `TOP` has no `SELECT DISTINCT TOP`. */
  lemma DistinctSelectNoDistinctTop(c: Command, rest: string)
    requires DistinctSelect(c, rest) && !StartsWith(rest, "TOP")
    ensures !Contains(Sql(c), "SELECT DISTINCT TOP")
  {
    SelectDistinctTopIsKeyword();
    DistinctSelectOccurrence(c, rest, "SELECT DISTINCT TOP");
    DistinctTopSplit();
    StartsWithAfterHead("SELECT DISTINCT ", rest, "TOP");
  }

  /** A distinct plain builder has no `SELECT TOP`. */
  lemma DistinctSelectNoTop(c: Command, rest: string)
    requires DistinctSelect(c, rest)
    ensures !Contains(Sql(c), "SELECT TOP")
  {
    SelectTopIsKeyword();
    DistinctSelectOccurrence(c, rest, "SELECT TOP");
    DistinctHeadNotTop(rest);
  }

  /** A distinct plain builder starts with `SELECT DISTINCT`. */
  lemma DistinctSelectStartsDistinct(c: Command, rest: string)
    requires DistinctSelect(c, rest)
    ensures StartsWith(Sql(c), "SELECT DISTINCT")
  {
    SelectDistinctSpaceSplit();
    StartsWithConcat("SELECT DISTINCT", " " + rest);
    Assoc("SELECT DISTINCT", " ", rest);
    StartsWithTrim(c.builder, "SELECT DISTINCT");
  }

  /** After `IsDistinct` on a plain builder, the head becomes `SELECT DISTINCT TOP n`. */
  lemma TopOnDistinctSelect(c: Command, rest: string, amount: Int32)
    requires DistinctSelect(c, rest) && !StartsWith(rest, "TOP")
    requires amount > 0
    ensures Top(c, amount) == Success(c.(builder := "SELECT DISTINCT TOP " + NatToString(amount) + " " + rest))
  {
    DistinctSelectNoDistinctTop(c, rest);
    DistinctSelectNoTop(c, rest);
    DistinctSelectStartsDistinct(c, rest);
    DistinctReplace(rest, "SELECT DISTINCT TOP " + NatToString(amount));
  }

  /** `IsDistinct` after `Top` on a plain builder: the head becomes `SELECT DISTINCT TOP n`. */
  lemma DistinctAfterTop(c: Command, rest: string, n: string)
    requires c.builder == "SELECT TOP " + n + " " + rest && !Contains(rest, "SELECT")
    requires forall j | 0 <= j < |n| :: '0' <= n[j] <= '9'
    ensures IsDistinct(c) == Success(c.(builder := "SELECT DISTINCT TOP " + n + " " + rest))
  {
    DistinctAfterTopNotDistinct(c, rest, n);
    DistinctAfterTopReplace(n, rest);
  }

  /** A builder opening with `SELECT TOP n ` is not yet distinct. */
  lemma DistinctAfterTopNotDistinct(c: Command, rest: string, n: string)
    requires c.builder == "SELECT TOP " + n + " " + rest && !Contains(rest, "SELECT")
    requires forall j | 0 <= j < |n| :: '0' <= n[j] <= '9'
    ensures !Contains(Sql(c), "SELECT DISTINCT")
  {
    var head := "SELECT TOP " + n + " ";
    TopHeadClear(n);
    SelectDistinctIsKeyword();
    HeadOccurrence(c, head, rest, "SELECT DISTINCT");
    TopHeadNotDistinct(n, rest);
  }

  /**
    `Top` and `IsDistinct` commute on a plain builder: either order yields
    `SELECT DISTINCT TOP n` followed by the rest.
   */
  lemma TopAndDistinctCommute(c: Command, rest: string, amount: Int32)
    requires PlainSelect(c, rest) && !StartsWith(rest, "DISTINCT") && !StartsWith(rest, "TOP")
    requires amount > 0
    ensures IsDistinct(c).Success? && Top(IsDistinct(c).value, amount).Success?
    ensures Top(c, amount).Success? && IsDistinct(Top(c, amount).value).Success?
    ensures Top(IsDistinct(c).value, amount) == IsDistinct(Top(c, amount).value)
    ensures Top(IsDistinct(c).value, amount).value.builder == "SELECT DISTINCT TOP " + NatToString(amount) + " " + rest
  {
    DistinctOnPlainSelect(c, rest);
    TopOnDistinctSelect(IsDistinct(c).value, rest, amount);
    TopOnPlainSelect(c, rest, amount);
    DistinctAfterTop(Top(c, amount).value, rest, NatToString(amount));
  }

  /** On a builder that holds `SELECT`, a second `Top` is refused whatever its amount. */
  lemma TopOnlyOnce(c: Command, amount: Int32, again: Int32)
    requires Top(c, amount).Success?
    requires Contains(c.builder, "SELECT")
    ensures Top(Top(c, amount).value, again).Failure?
  {
    var n := NatToString(amount);
    if StartsWith(Sql(c), "SELECT DISTINCT") {
      DistinctTopShows(c.builder, n);
    } else {
      TopShows(c.builder, n);
    }
  }

  /** A distinct query rewritten by `Top` holds `SELECT DISTINCT TOP`. */
  lemma DistinctTopShows(b: string, n: string)
    requires StartsWith(Trim(b), "SELECT DISTINCT")
    ensures Contains(Trim(ReplaceAll(b, "SELECT DISTINCT", "SELECT DISTINCT TOP " + n)), "SELECT DISTINCT TOP")
  {
    StartsWithContains(Trim(b), "SELECT DISTINCT");
    ContainsOfTrim(b, "SELECT DISTINCT");
    DistinctTopLiteralSplit();
    StartsWithConcat("SELECT DISTINCT TOP", " " + n);
    Assoc("SELECT DISTINCT TOP", " ", n);
    SelectDistinctTopIsKeyword();
    ReplacedShows(b, "SELECT DISTINCT", "SELECT DISTINCT TOP " + n, "SELECT DISTINCT TOP");
  }

  /** A query holding `SELECT` rewritten by `Top` holds `SELECT TOP`. */
  lemma TopShows(b: string, n: string)
    requires Contains(b, "SELECT")
    ensures Contains(Trim(ReplaceAll(b, "SELECT", "SELECT TOP " + n)), "SELECT TOP")
  {
    StartsWithConcat("SELECT TOP", " " + n);
    Assoc("SELECT TOP", " ", n);
    SelectTopIsKeyword();
    ReplacedShows(b, "SELECT", "SELECT TOP " + n, "SELECT TOP");
  }

  /**
    Every `SELECT` is rewritten, a sub-select inside a WHERE string included: a builder
    holding a second `SELECT ` gets `TOP n` there too.
   */
  lemma TopRewritesSubSelect(c: Command, mid: string, tail: string, amount: Int32)
    requires c.builder == "SELECT " + mid + "SELECT " + tail
    requires !Contains(mid, "SELECT") && !Contains(tail, "SELECT")
    requires |mid| > 0 && mid[0] != 'D'
    requires Top(c, amount).Success?
    ensures var rep := "SELECT TOP " + NatToString(amount);
      Top(c, amount).value.builder == rep + " " + mid + rep + " " + tail
  {
    var b := c.builder;
    Assoc("SELECT " + mid, "SELECT ", tail);
    NotDistinctByEighth(b, mid, "SELECT " + tail);
    TopRewritesEverySelect(c, amount);
    TwoSelectsReplace(mid, tail, "SELECT TOP " + NatToString(amount));
  }

  /** On a query that does not start with `SELECT DISTINCT`, `Top` replaces every `SELECT`. */
  lemma TopRewritesEverySelect(c: Command, amount: Int32)
    requires Top(c, amount).Success?
    ensures !StartsWith(Trim(c.builder), "SELECT DISTINCT") ==>
      Top(c, amount).value.builder == ReplaceAll(c.builder, "SELECT", "SELECT TOP " + NatToString(amount))
  {
  }

  /** A query `SELECT ` + `mid` + … whose eighth character is not `D` does not start with `SELECT DISTINCT`. */
  lemma NotDistinctByEighth(b: string, mid: string, tail: string)
    requires b == "SELECT " + mid + tail
    requires |mid| > 0 && mid[0] != 'D'
    ensures !StartsWith(Trim(b), "SELECT DISTINCT")
  {
    assert b[7] == mid[0];
    NotStartsWithAt(b, "SELECT DISTINCT", 7);
    assert b[0] == "SELECT "[0];
    StartsWithOfTrim(b, "SELECT DISTINCT");
  }

  /** Both opening words of `SELECT mid SELECT tail` are replaced. */
  lemma TwoSelectsReplace(mid: string, tail: string, rep: string)
    requires !Contains(mid, "SELECT") && !Contains(tail, "SELECT")
    ensures ReplaceAll("SELECT " + mid + "SELECT " + tail, "SELECT", rep) == rep + " " + mid + rep + " " + tail
  {
    var first := "SELECT " + mid;
    var second := "SELECT " + tail;
    Assoc(first, "SELECT ", tail);
    SelectRestsOnS(first, second);
    ReplaceAllConcat(first, second, "SELECT", rep);
    SelectReplace(mid, rep);
    SelectReplace(tail, rep);
    Assoc(rep + " " + mid, rep + " ", tail);
    Assoc(rep + " " + mid, rep, " ");
  }

  /** No occurrence of `SELECT` straddles a seam followed by `S`. */
  lemma SelectRestsOnS(a: string, b: string)
    requires |b| > 0 && b[0] == 'S'
    ensures NoStraddle(a, b, "SELECT")
  {
    SelectRestHasNoS();
    NoStraddleByHead(a, b, "SELECT");
  }

  /** `SELECT` has no `S` after its first letter. */
  lemma SelectRestHasNoS()
    ensures forall j | 1 <= j < |"SELECT"| :: "SELECT"[j] != 'S'
  {
  }
}

=== FILE: typemap.dfy ===
/**
  The dictionary from CLR types to ADO.NET `DbType` values that the command uses
  to type the parameters it extracts from a predicate.
 */
module TypeMap {

  import opened Wrappers

  /** The CLR value types the map knows, plus any other struct. */
  datatype ValueType =
    | Byte | SByte | Int16 | UInt16 | Int32 | UInt32 | Int64 | UInt64
    | Single | Double | Decimal | Boolean | Char | Guid | DateTime | DateTimeOffset
    | OtherStruct(structName: string)

  /** A CLR type as far as the model needs it: a value type (possibly `Nullable<>`), `string`, `byte[]`, or another class. */
  datatype ClrType =
    | Value(valueType: ValueType, nullable: bool)
    | StringType
    | ByteArray
    | OtherClass(className: string)

  /** The members of `System.Data.DbType` the map produces. */
  datatype DbType =
    | Byte | SByte | Int16 | UInt16 | Int32 | UInt32 | Int64 | UInt64
    | Single | Double | Decimal | Boolean | String | StringFixedLength
    | Guid | DateTime | DateTimeOffset | Binary

  /** The `DbType` of a known value type; `None` for any other struct. */
  function ValueDbType(v: ValueType): (r: Option<DbType>)
    ensures r.None? <==> v.OtherStruct?
  {
    match v
    case Byte => Some(DbType.Byte)
    case SByte => Some(DbType.SByte)
    case Int16 => Some(DbType.Int16)
    case UInt16 => Some(DbType.UInt16)
    case Int32 => Some(DbType.Int32)
    case UInt32 => Some(DbType.UInt32)
    case Int64 => Some(DbType.Int64)
    case UInt64 => Some(DbType.UInt64)
    case Single => Some(DbType.Single)
    case Double => Some(DbType.Double)
    case Decimal => Some(DbType.Decimal)
    case Boolean => Some(DbType.Boolean)
    case Char => Some(DbType.StringFixedLength)
    case Guid => Some(DbType.Guid)
    case DateTime => Some(DbType.DateTime)
    case DateTimeOffset => Some(DbType.DateTimeOffset)
    case OtherStruct(_) => None
  }

  /** `typeMap[t]`, `None` where the dictionary would throw `KeyNotFoundException`. */
  function Lookup(t: ClrType): (r: Option<DbType>)
    ensures t.Value? ==> r == ValueDbType(t.valueType)
  {
    match t
    case Value(v, _) => ValueDbType(v)
    case StringType => Some(DbType.String)
    case ByteArray => Some(DbType.Binary)
    case OtherClass(_) => None
  }

  /** The number of entries in the dictionary. */
  const EntryCount: nat := 34

  /**
    The dictionary's `i`-th entry in the order the source lists them: the first
    twelve value types, `string`, the other four value types, `byte[]`, then the
    sixteen `Nullable<>` forms.
   */
  function EntryAt(i: nat): (e: (ClrType, DbType))
    requires i < EntryCount
  {
    if i < 12 then ValueEntry(KnownValueType(i), false)
    else if i == 12 then (StringType, DbType.String)
    else if i < 17 then ValueEntry(KnownValueType(i - 1), false)
    else if i == 17 then (ByteArray, DbType.Binary)
    else ValueEntry(KnownValueType(i - 18), true)
  }

  /** The entry for a known value type, plain or nullable. */
  function ValueEntry(v: ValueType, nullable: bool): (e: (ClrType, DbType))
    requires !v.OtherStruct?
  {
    (Value(v, nullable), ValueDbType(v).value)
  }

  /** The sixteen value types the map lists, in the order it lists them. */
  function KnownValueType(i: nat): (v: ValueType)
    requires i < 16
    ensures !v.OtherStruct?
  {
    match i
    case 0 => ValueType.Byte
    case 1 => ValueType.SByte
    case 2 => ValueType.Int16
    case 3 => ValueType.UInt16
    case 4 => ValueType.Int32
    case 5 => ValueType.UInt32
    case 6 => ValueType.Int64
    case 7 => ValueType.UInt64
    case 8 => ValueType.Single
    case 9 => ValueType.Double
    case 10 => ValueType.Decimal
    case 11 => ValueType.Boolean
    case 12 => ValueType.Char
    case 13 => ValueType.Guid
    case 14 => ValueType.DateTime
    case 15 => ValueType.DateTimeOffset
  }

  /** The position of a known value type among the sixteen. */
  function Ordinal(v: ValueType): (i: nat)
    requires !v.OtherStruct?
    ensures i < 16 && KnownValueType(i) == v
  {
    match v
    case Byte => 0
    case SByte => 1
    case Int16 => 2
    case UInt16 => 3
    case Int32 => 4
    case UInt32 => 5
    case Int64 => 6
    case UInt64 => 7
    case Single => 8
    case Double => 9
    case Decimal => 10
    case Boolean => 11
    case Char => 12
    case Guid => 13
    case DateTime => 14
    case DateTimeOffset => 15
  }

  /** `Ordinal` undoes `KnownValueType`. */
  lemma OrdinalInverse(i: nat)
    requires i < 16
    ensures Ordinal(KnownValueType(i)) == i
  {
  }

  /** Where a key sits among the entries; `EntryCount` for a type the map does not list. */
  function Position(t: ClrType): (i: nat)
    ensures i <= EntryCount
    ensures i < EntryCount ==> EntryAt(i).0 == t
  {
    match t
    case Value(v, n) =>
      if v.OtherStruct? then EntryCount
      else if n then 18 + Ordinal(v)
      else if Ordinal(v) < 12 then Ordinal(v)
      else Ordinal(v) + 1
    case StringType => 12
    case ByteArray => 17
    case OtherClass(_) => EntryCount
  }

  /** Each entry's key sits where `Position` says, so no key is listed twice. */
  lemma EntriesAreADictionary(i: nat, j: nat)
    requires i < EntryCount && j < EntryCount
    ensures Position(EntryAt(i).0) == i
    ensures i != j ==> EntryAt(i).0 != EntryAt(j).0
  {
    PositionOfEntry(i);
    PositionOfEntry(j);
  }

  /** The key of entry `i` sits at `i`. */
  lemma PositionOfEntry(i: nat)
    requires i < EntryCount
    ensures Position(EntryAt(i).0) == i
  {
    if i < 12 {
      OrdinalInverse(i);
    } else if 12 < i < 17 {
      OrdinalInverse(i - 1);
    } else if 17 < i {
      OrdinalInverse(i - 18);
    }
  }

  /** Every listed entry is what `Lookup` answers. */
  lemma EntryIsLookedUp(i: nat)
    requires i < EntryCount
    ensures Lookup(EntryAt(i).0) == Some(EntryAt(i).1)
  {
  }

  /** `Lookup` answers exactly what the listed entries say, both ways. */
  lemma LookupMatchesEntries(t: ClrType, d: DbType)
    ensures Lookup(t) == Some(d) <==> exists i | 0 <= i < EntryCount :: EntryAt(i) == (t, d)
  {
    if Lookup(t) == Some(d) {
      var i := Position(t);
      assert i < EntryCount by {
        match t
        case Value(v, n) =>
        case _ =>
      }
      EntryIsLookedUp(i);
      assert EntryAt(i) == (t, d);
    }
    forall i | 0 <= i < EntryCount && EntryAt(i) == (t, d) ensures Lookup(t) == Some(d) {
      EntryIsLookedUp(i);
    }
  }

  /** A `Nullable<T>` maps to the same `DbType` as `T`. */
  lemma NullableMapsLikeUnderlying(v: ValueType)
    ensures Lookup(Value(v, true)) == Lookup(Value(v, false))
  {
  }

  /** The runtime type of a boxed value: boxing a `Nullable<T>` that has a value yields a `T`. */
  function RuntimeType(t: ClrType): (r: ClrType)
    ensures !(r.Value? && r.nullable)
    ensures Lookup(r) == Lookup(t)
  {
    match t
    case Value(v, _) => Value(v, false)
    case _ => t
  }
}

=== FILE: walk.dfy ===
/**
  `WalkExpression`: the walk over a predicate's expression tree that turns every
  value captured from the caller into a positional parameter of the command.

  Compiling and invoking a captured member is replaced by the `Boxed` value the
  tree carries for it. The `replacements` dictionary is kept as its keys in
  insertion order; its values are never read.
 */
module Walk {

  import opened Wrappers
  import opened Text
  import opened Errors
  import TypeMap
  import opened Expressions
  import Command

  /** What the walk accumulates: the command's `ParameterList` and the dictionary's keys. */
  datatype WalkState = WalkState(parameters: seq<Command.Parameter>, keys: seq<string>)

  /** A member access printed with `value(`: it reads a closure, so its value comes from the caller. */
  predicate Captured(text: string) {
    Contains(text, "value(")
  }

  /** A leaf the walk turns into a parameter when it first meets it. */
  predicate IsCapture(e: Expr) {
    e.Member? && Captured(e.text)
  }

  /** A capture whose printing is not yet a key. */
  predicate Fresh(keys: seq<string>, e: Expr) {
    IsCapture(e) && e.text !in keys
  }

  /** A member whose value is not null and whose runtime type the type map lists. */
  predicate Mapped(e: Expr) {
    e.Member? && e.value.Some? && TypeMap.Lookup(TypeMap.RuntimeType(e.value.value.declared)).Some?
  }

  /** The parameter a mapped capture becomes at position `n` (0-based) of the list: index `n + 1`, its type, its text. */
  function ParameterOf(n: nat, e: Expr): (p: Command.Parameter)
    requires Mapped(e)
    ensures p.index == NatToString(n + 1) && p.value == e.value.value.text
    ensures Some(p.dbType) == TypeMap.Lookup(e.value.value.declared)
  {
    Command.Parameter(NatToString(n + 1), TypeMap.Lookup(TypeMap.RuntimeType(e.value.value.declared)).value, e.value.value.text)
  }

  /** The message of the `NotSupportedException` for a node kind the walk does not handle. */
  function UnknownType(nodeType: string): string {
    "Unknown type \"" + nodeType + "\"."
  }

  /**
    The walk at a leaf. A fresh capture is evaluated: a null value fails on
    `GetType`, a type the map lacks fails on the lookup, anything else appends a
    parameter and a key. Any other member, a known capture and a constant change
    nothing; any other node kind is not supported.
   */
  function Visit(s: WalkState, e: Expr): (r: Result<WalkState, Error>)
    requires IsLeaf(e)
    ensures e.Other? ==> r == Failure(NotSupported(UnknownType(e.nodeType)))
    ensures Fresh(s.keys, e) && e.value.None? ==> r == Failure(NullReference(e.text))
    ensures Fresh(s.keys, e) && e.value.Some? && !Mapped(e) ==>
      r == Failure(KeyNotFound(TypeMap.RuntimeType(e.value.value.declared)))
    ensures r.Success? <==> !e.Other? && (Fresh(s.keys, e) ==> Mapped(e))
    ensures r.Success? && !Fresh(s.keys, e) ==> r.value == s
    ensures r.Success? && Fresh(s.keys, e) ==>
      r.value == WalkState(s.parameters + [ParameterOf(|s.parameters|, e)], s.keys + [e.text])
  {
    match e
    case Member(text, value) =>
      if !Captured(text) || text in s.keys then Success(s)
      else if value.None? then Failure(NullReference(text))
      else
        var t := TypeMap.RuntimeType(value.value.declared);
        var db := TypeMap.Lookup(t);
        if db.None? then Failure(KeyNotFound(t))
        else Success(WalkState(s.parameters + [Command.Parameter(NatToString(|s.parameters| + 1), db.value, value.value.text)], s.keys + [text]))
    case Constant(_) => Success(s)
    case Other(n, _) => Failure(NotSupported(UnknownType(n)))
  }

  /**
    `WalkExpression`: member accesses and constants are leaves, both sides of a
    comparison or logical operator are walked left first, a call's arguments in
    order (its target is not walked, an extension call's receiver is the first
    argument), a lambda's body.
   */
  function Walk(s: WalkState, e: Expr): Result<WalkState, Error>
    decreases e, 1
  {
    match e
    case Binary(_, l, r) =>
      var s1 :- Walk(s, l);
      Walk(s1, r)
    case Call(_, _, args) => WalkArgs(s, args)
    case ExtensionCall(receiver, _, args) =>
      var s1 :- Walk(s, receiver);
      WalkArgs(s1, args)
    case Lambda(_, body) => Walk(s, body)
    case _ => Visit(s, e)
  }

  /** `Walk` over a call's arguments, in order. */
  function WalkArgs(s: WalkState, args: seq<Expr>): Result<WalkState, Error>
    decreases args, 0
  {
    if |args| == 0 then Success(s)
    else
      var s1 :- Walk(s, args[0]);
      WalkArgs(s1, args[1..])
  }

  // ---------------------------------------------------------------------------
  // The walk as a fold over the leaves
  // ---------------------------------------------------------------------------

  /** `Visit` over a sequence of leaves, stopping at the first failure. */
  function WalkLeaves(s: WalkState, leaves: seq<Expr>): Result<WalkState, Error>
    requires forall i | 0 <= i < |leaves| :: IsLeaf(leaves[i])
    decreases |leaves|
  {
    if |leaves| == 0 then Success(s)
    else
      var s1 :- Visit(s, leaves[0]);
      WalkLeaves(s1, leaves[1..])
  }

  /** Continue a fold with more leaves unless it already failed. */
  function Then(r: Result<WalkState, Error>, leaves: seq<Expr>): Result<WalkState, Error>
    requires forall i | 0 <= i < |leaves| :: IsLeaf(leaves[i])
  {
    if r.Failure? then r else WalkLeaves(r.value, leaves)
  }

  /** Folding over two runs of leaves is folding over the first, then the second. */
  lemma {:induction false} WalkLeavesConcat(s: WalkState, a: seq<Expr>, b: seq<Expr>)
    requires forall i | 0 <= i < |a| :: IsLeaf(a[i])
    requires forall i | 0 <= i < |b| :: IsLeaf(b[i])
    ensures forall i | 0 <= i < |a + b| :: IsLeaf((a + b)[i])
    ensures WalkLeaves(s, a + b) == Then(WalkLeaves(s, a), b)
    decreases |a|
  {
    if |a| > 0 {
      assert (a + b)[0] == a[0];
      assert (a + b)[1..] == a[1..] + b;
      var v := Visit(s, a[0]);
      if v.Success? {
        WalkLeavesConcat(v.value, a[1..], b);
      }
    } else {
      assert a + b == b;
    }
  }

  /** The walk visits exactly the leaves `Leaves` lists, in that order. */
  lemma {:induction false} WalkIsFold(s: WalkState, e: Expr)
    ensures Walk(s, e) == WalkLeaves(s, Leaves(e))
    decreases e, 1
  {
    match e
    case Member(_, _) =>
    case Constant(_) =>
    case Other(_, _) =>
    case Binary(_, l, r) =>
      WalkIsFold(s, l);
      WalkLeavesConcat(s, Leaves(l), Leaves(r));
      var w := Walk(s, l);
      if w.Success? {
        WalkIsFold(w.value, r);
      }
    case Call(_, _, args) =>
      WalkArgsIsFold(s, args);
    case ExtensionCall(receiver, _, args) =>
      WalkIsFold(s, receiver);
      WalkLeavesConcat(s, Leaves(receiver), ArgLeaves(args));
      var w := Walk(s, receiver);
      if w.Success? {
        WalkArgsIsFold(w.value, args);
      }
    case Lambda(_, body) =>
      WalkIsFold(s, body);
  }

  /** `WalkIsFold` for a call's arguments. */
  lemma {:induction false} WalkArgsIsFold(s: WalkState, args: seq<Expr>)
    ensures WalkArgs(s, args) == WalkLeaves(s, ArgLeaves(args))
    decreases args, 0
  {
    if |args| > 0 {
      WalkIsFold(s, args[0]);
      WalkLeavesConcat(s, Leaves(args[0]), ArgLeaves(args[1..]));
      var w := Walk(s, args[0]);
      if w.Success? {
        WalkArgsIsFold(w.value, args[1..]);
      }
    }
  }

  /**
    `x.Contains(y)` prints alike whether `Contains` is an instance method or an
    extension method, but only the extension form walks `x`: a captured `x` becomes a
    parameter there and stays unreplaced text in the instance form.
   */
  lemma ExtensionReceiverIsWalked(x: Expr, m: string, y: Expr)
    requires IsCapture(x) && y.Constant?
    ensures Render(ExtensionCall(x, m, [y]), 0) == Render(Call(Some(x), m, [y]), 0)
    ensures Leaves(Call(Some(x), m, [y])) == [y]
    ensures Leaves(ExtensionCall(x, m, [y])) == [x, y]
  {
    assert [y][1..] == [];
    assert ArgLeaves([y]) == [y];
  }

  // ---------------------------------------------------------------------------
  // What the walk does, stated over the leaves
  // ---------------------------------------------------------------------------

  /** The printings of the captures among `leaves`, in order, repeats included. */
  function CaptureTexts(leaves: seq<Expr>): (r: seq<string>)
    ensures forall t | t in r :: Captured(t)
    decreases |leaves|
  {
    if |leaves| == 0 then []
    else (if IsCapture(leaves[0]) then [leaves[0].text] else []) + CaptureTexts(leaves[1..])
  }

  /** The first capture among `leaves` printed as `t`. */
  function FirstCapture(leaves: seq<Expr>, t: string): (e: Expr)
    requires t in CaptureTexts(leaves)
    ensures IsCapture(e) && e.text == t && e in leaves
    decreases |leaves|
  {
    if IsCapture(leaves[0]) && leaves[0].text == t then leaves[0]
    else FirstCapture(leaves[1..], t)
  }

  /** Leaf `i` is a capture met for the first time: neither a key already nor printed by an earlier capture. */
  predicate FreshAt(keys: seq<string>, leaves: seq<Expr>, i: int)
    requires 0 <= i < |leaves|
  {
    Fresh(keys, leaves[i]) && leaves[i].text !in CaptureTexts(leaves[..i])
  }

  /** No node of an unsupported kind, and every capture met for the first time evaluates to a mapped value. */
  predicate Walkable(keys: seq<string>, leaves: seq<Expr>) {
    forall i | 0 <= i < |leaves| :: !leaves[i].Other? && (FreshAt(keys, leaves, i) ==> Mapped(leaves[i]))
  }

  /** No element twice. */
  predicate Distinct(xs: seq<string>) {
    forall i, j | 0 <= i < j < |xs| :: xs[i] != xs[j]
  }

  /** The keys after visiting one leaf. */
  function KeysAfter(keys: seq<string>, e: Expr): seq<string> {
    if Fresh(keys, e) then keys + [e.text] else keys
  }

  /** Peeling the first leaf off `CaptureTexts`. */
  lemma CaptureTextsCons(leaves: seq<Expr>, i: int)
    requires 0 < i <= |leaves|
    ensures CaptureTexts(leaves[..i]) == (if IsCapture(leaves[0]) then [leaves[0].text] else []) + CaptureTexts(leaves[1..][..i - 1])
  {
    assert leaves[..i][1..] == leaves[1..][..i - 1];
  }

  /** Whether a later leaf is met for the first time does not depend on whether the first leaf was already a key. */
  lemma FreshAtStep(keys: seq<string>, leaves: seq<Expr>, i: int)
    requires 0 < i < |leaves|
    ensures FreshAt(keys, leaves, i) == FreshAt(KeysAfter(keys, leaves[0]), leaves[1..], i - 1)
  {
    CaptureTextsCons(leaves, i);
    assert leaves[1..][i - 1] == leaves[i];
  }

  /** `Walkable` peeled at the first leaf. */
  lemma WalkableStep(keys: seq<string>, leaves: seq<Expr>)
    requires |leaves| > 0
    ensures Walkable(keys, leaves) <==>
      && !leaves[0].Other? && (Fresh(keys, leaves[0]) ==> Mapped(leaves[0]))
      && Walkable(KeysAfter(keys, leaves[0]), leaves[1..])
  {
    var k1 := KeysAfter(keys, leaves[0]);
    assert leaves[..0] == [];
    forall i | 0 < i < |leaves| ensures FreshAt(keys, leaves, i) == FreshAt(k1, leaves[1..], i - 1) {
      FreshAtStep(keys, leaves, i);
    }
    if Walkable(k1, leaves[1..]) && !leaves[0].Other? && (Fresh(keys, leaves[0]) ==> Mapped(leaves[0])) {
      forall i | 0 < i < |leaves| ensures !leaves[i].Other? && (FreshAt(keys, leaves, i) ==> Mapped(leaves[i])) {
        assert leaves[1..][i - 1] == leaves[i];
      }
    }
    if Walkable(keys, leaves) {
      forall i | 0 <= i < |leaves| - 1
        ensures !leaves[1..][i].Other? && (FreshAt(k1, leaves[1..], i) ==> Mapped(leaves[1..][i]))
      {
        assert leaves[1..][i] == leaves[i + 1];
      }
    }
  }

  /** The walk over leaves succeeds exactly when they are `Walkable` from the keys it starts with. */
  lemma {:induction false} WalkLeavesSucceedsIff(s: WalkState, leaves: seq<Expr>)
    requires forall i | 0 <= i < |leaves| :: IsLeaf(leaves[i])
    ensures WalkLeaves(s, leaves).Success? <==> Walkable(s.keys, leaves)
    decreases |leaves|
  {
    if |leaves| > 0 {
      WalkableStep(s.keys, leaves);
      var v := Visit(s, leaves[0]);
      if v.Success? {
        assert v.value.keys == KeysAfter(s.keys, leaves[0]);
        WalkLeavesSucceedsIff(v.value, leaves[1..]);
      }
    }
  }

  /**
    What a successful walk over leaves leaves behind: the keys it started with,
    followed by new keys, no key twice, and together exactly the starting keys and
    the captured printings.
   */
  lemma {:induction false} WalkLeavesKeys(s: WalkState, leaves: seq<Expr>)
    requires forall i | 0 <= i < |leaves| :: IsLeaf(leaves[i])
    requires Distinct(s.keys)
    requires WalkLeaves(s, leaves).Success?
    ensures |s.keys| <= |WalkLeaves(s, leaves).value.keys|
    ensures WalkLeaves(s, leaves).value.keys[..|s.keys|] == s.keys
    ensures Distinct(WalkLeaves(s, leaves).value.keys)
    ensures forall t :: t in WalkLeaves(s, leaves).value.keys <==> t in s.keys || t in CaptureTexts(leaves)
    ensures |WalkLeaves(s, leaves).value.keys| <= |s.keys| + |CaptureTexts(leaves)|
    decreases |leaves|
  {
    if |leaves| > 0 {
      var s1 := Visit(s, leaves[0]).value;
      assert s1.keys == KeysAfter(s.keys, leaves[0]);
      assert s1.keys[..|s.keys|] == s.keys;
      WalkLeavesKeys(s1, leaves[1..]);
      var r := WalkLeaves(s1, leaves[1..]).value;
      assert r.keys[..|s1.keys|][..|s.keys|] == r.keys[..|s.keys|];
    }
  }

  /**
    `p`, at position `n` (0-based) of the parameter list, stands for the value of
    member `e`: it is numbered `n + 1` and has the value's mapped type and text.
   */
  predicate Describes(p: Command.Parameter, n: nat, e: Expr) {
    && e.Member? && e.value.Some?
    && p.index == NatToString(n + 1)
    && Some(p.dbType) == TypeMap.Lookup(TypeMap.RuntimeType(e.value.value.declared))
    && p.value == e.value.value.text
  }

  /**
    From `s` to `r` the walk over `leaves` appended one parameter per new key, in
    the same order, each describing the first capture printed as that key.
   */
  predicate ParametersFollowKeys(s: WalkState, r: WalkState, leaves: seq<Expr>) {
    && |s.keys| <= |r.keys|
    && |r.parameters| == |s.parameters| + (|r.keys| - |s.keys|)
    && r.parameters[..|s.parameters|] == s.parameters
    && forall j | |s.keys| <= j < |r.keys| ::
      && r.keys[j] in CaptureTexts(leaves)
      && Describes(r.parameters[|s.parameters| + (j - |s.keys|)], |s.parameters| + (j - |s.keys|), FirstCapture(leaves, r.keys[j]))
  }

  /** The parameters a successful walk over leaves appends follow its new keys. */
  lemma {:induction false} WalkLeavesParameters(s: WalkState, leaves: seq<Expr>)
    requires forall i | 0 <= i < |leaves| :: IsLeaf(leaves[i])
    requires Distinct(s.keys)
    requires WalkLeaves(s, leaves).Success?
    ensures ParametersFollowKeys(s, WalkLeaves(s, leaves).value, leaves)
    decreases |leaves|
  {
    if |leaves| > 0 {
      var x := leaves[0];
      var s1 := Visit(s, x).value;
      var r := WalkLeaves(s, leaves).value;
      assert r == WalkLeaves(s1, leaves[1..]).value;
      assert s1.keys == KeysAfter(s.keys, x);
      WalkLeavesKeys(s1, leaves[1..]);
      WalkLeavesParameters(s1, leaves[1..]);
      if Fresh(s.keys, x) {
        FreshStep(s, leaves, r);
      } else {
        assert s1 == s;
        KnownStep(s, leaves, r);
      }
    }
  }

  /** The first capture printed `t` among leaves is the one among the rest when the first leaf is not it. */
  lemma FirstCaptureTail(leaves: seq<Expr>, t: string)
    requires |leaves| > 0 && t in CaptureTexts(leaves[1..])
    requires !(IsCapture(leaves[0]) && leaves[0].text == t)
    ensures t in CaptureTexts(leaves) && FirstCapture(leaves, t) == FirstCapture(leaves[1..], t)
  {
  }

  /** The step of `WalkLeavesParameters` over a first leaf that is a fresh capture. */
  lemma FreshStep(s: WalkState, leaves: seq<Expr>, r: WalkState)
    requires |leaves| > 0 && forall i | 0 <= i < |leaves| :: IsLeaf(leaves[i])
    requires Fresh(s.keys, leaves[0]) && Visit(s, leaves[0]).Success?
    requires var s1 := Visit(s, leaves[0]).value;
      && |s1.keys| <= |r.keys| && r.keys[..|s1.keys|] == s1.keys && Distinct(r.keys)
      && ParametersFollowKeys(s1, r, leaves[1..])
    ensures ParametersFollowKeys(s, r, leaves)
  {
    var x := leaves[0];
    var s1 := Visit(s, x).value;
    assert s1.keys == s.keys + [x.text];
    assert s1.parameters == s.parameters + [ParameterOf(|s.parameters|, x)];
    assert r.parameters[..|s1.parameters|][..|s.parameters|] == r.parameters[..|s.parameters|];
    assert r.keys[|s.keys|] == s1.keys[|s.keys|] == x.text;
    forall j | |s.keys| <= j < |r.keys|
      ensures r.keys[j] in CaptureTexts(leaves)
      ensures Describes(r.parameters[|s.parameters| + (j - |s.keys|)], |s.parameters| + (j - |s.keys|), FirstCapture(leaves, r.keys[j]))
    {
      if j == |s.keys| {
        assert r.parameters[|s.parameters|] == s1.parameters[|s.parameters|];
      } else {
        assert r.keys[j] != x.text;
        FirstCaptureTail(leaves, r.keys[j]);
      }
    }
  }

  /** The step of `WalkLeavesParameters` over a first leaf that adds nothing. */
  lemma KnownStep(s: WalkState, leaves: seq<Expr>, r: WalkState)
    requires |leaves| > 0 && forall i | 0 <= i < |leaves| :: IsLeaf(leaves[i])
    requires IsCapture(leaves[0]) ==> leaves[0].text in s.keys
    requires |s.keys| <= |r.keys| && r.keys[..|s.keys|] == s.keys && Distinct(r.keys)
    requires ParametersFollowKeys(s, r, leaves[1..])
    ensures ParametersFollowKeys(s, r, leaves)
  {
    forall j | |s.keys| <= j < |r.keys|
      ensures r.keys[j] in CaptureTexts(leaves)
      ensures Describes(r.parameters[|s.parameters| + (j - |s.keys|)], |s.parameters| + (j - |s.keys|), FirstCapture(leaves, r.keys[j]))
    {
      var t := r.keys[j];
      assert t in CaptureTexts(leaves[1..]);
      assert t !in s.keys by {
        forall k | 0 <= k < |s.keys| ensures s.keys[k] != t {
          assert s.keys[k] == r.keys[k];
        }
      }
      FirstCaptureTail(leaves, t);
    }
  }
}

=== FILE: where.dfy ===
/**
  `SnowflakeCommand<T>.Where`: a raw WHERE clause, or one translated from a
  predicate over the entity whose captured values become positional parameters.
 */
module WhereClause {

  import opened Wrappers
  import opened Text
  import opened Errors
  import opened Command
  import opened Expressions
  import opened Walk
  import opened Replacement
  import TypeMap
  import Projection

  /** An `Expression<Func<T, bool>>`: the lambda's parameter and its body. */
  datatype Predicate = Predicate(param: Name, body: Expr)

  /** The message of the guard both forms share. */
  const AlreadyFiltered: string := "Command already has a where clause!"

  // ---------------------------------------------------------------------------
  // Where(string)
  // ---------------------------------------------------------------------------

  /** `Where(where)`: the extended command, or the exception the method throws. */
  function WhereString(c: Command, where: Option<string>): (r: Result<Command, Error>)
    ensures Contains(Sql(c), "WHERE") ==> r == Failure(InvalidOperation(AlreadyFiltered))
    ensures !Contains(Sql(c), "WHERE") && IsNullOrWhiteSpace(where) ==>
      r == Failure(ArgumentNull("where", "Value for where clause may not be empty!"))
    ensures r.Success? <==> !Contains(Sql(c), "WHERE") && !IsNullOrWhiteSpace(where)
    ensures r.Success? ==> r.value == Append(c, " " + KeywordClause("WHERE", where.value))
  {
    if Contains(Sql(c), "WHERE") then
      Failure(InvalidOperation(AlreadyFiltered))
    else if IsNullOrWhiteSpace(where) then
      Failure(ArgumentNull("where", "Value for where clause may not be empty!"))
    else
      Success(Append(c, " " + KeywordClause("WHERE", where.value)))
  }

  // ---------------------------------------------------------------------------
  // Where(predicate)
  // ---------------------------------------------------------------------------

  /** The walk over the whole lambda, starting from the command's parameters and an empty dictionary. */
  function Captures(c: Command, p: Predicate): Result<WalkState, Error> {
    Walk.Walk(WalkState(c.parameters, []), Lambda(p.param, p.body))
  }

  /** Each `.Replace(key, "?")` over the dictionary's keys, in insertion order. */
  function ReplaceKeys(keys: seq<string>, text: string): string
    requires forall i | 0 <= i < |keys| :: |keys[i]| > 0
    decreases |keys|
  {
    if |keys| == 0 then text
    else ReplaceKeys(keys[1..], ReplaceAll(text, keys[0], "?"))
  }

  /**
    The filter text the predicate form appends: the body printed, captured values
    replaced by `?`, the parameter dropped, the operators spelled in SQL, each
    member rewritten to its column, trimmed. Captures are replaced before the
    parameter is dropped (the source does it the other way round; see
    `WhereFilterAsWritten`).
   */
  function WhereFilter(props: seq<Property>, p: Predicate, keys: seq<string>): string
    requires forall i | 0 <= i < |keys| :: |keys[i]| > 0
  {
    Trim(RewriteMembers(props, Operators(StripParameter(p.param, ReplaceKeys(keys, Render(p.body, 0))))))
  }

  /** The source's order: the parameter is dropped before captured values are replaced. */
  function WhereFilterAsWritten(props: seq<Property>, p: Predicate, keys: seq<string>): string
    requires forall i | 0 <= i < |keys| :: |keys[i]| > 0
  {
    Trim(RewriteMembers(props, Operators(ReplaceKeys(keys, StripParameter(p.param, Render(p.body, 0))))))
  }

  /** The keys a walk collects are captured printings, so none is empty. */
  lemma CapturedKeysNotEmpty(c: Command, p: Predicate)
    requires Captures(c, p).Success?
    ensures forall i | 0 <= i < |Captures(c, p).value.keys| :: |Captures(c, p).value.keys[i]| > 0
  {
    var s := WalkState(c.parameters, []);
    CapturesIsFold(c, p);
    WalkLeavesKeys(s, Leaves(p.body));
    var keys := Captures(c, p).value.keys;
    forall i | 0 <= i < |keys| ensures |keys[i]| > 0 {
      assert keys[i] in CaptureTexts(Leaves(p.body));
      ContainsNoShorter(keys[i], "value(");
    }
  }

  /** The walk over the lambda is the walk over its body's leaves. */
  lemma CapturesIsFold(c: Command, p: Predicate)
    ensures Captures(c, p) == WalkLeaves(WalkState(c.parameters, []), Leaves(p.body))
  {
    WalkIsFold(WalkState(c.parameters, []), Lambda(p.param, p.body));
  }

  /**
    `Where(predicate)` as written: after the guard, the walk adds a parameter for
    every new captured value (or throws), and the filter, with the parameter dropped
    before the captured printings are replaced, is appended after ` WHERE `.
   */
  function WherePredicate(c: Command, p: Predicate): (r: Result<Command, Error>)
    ensures Contains(Sql(c), "WHERE") ==> r == Failure(InvalidOperation(AlreadyFiltered))
    ensures !Contains(Sql(c), "WHERE") ==> (r.Success? <==> Captures(c, p).Success?)
    ensures !Contains(Sql(c), "WHERE") && r.Failure? ==> r.error == Captures(c, p).error
    ensures r.Success? ==> r.value.desc == c.desc
    ensures r.Success? ==> r.value.parameters == Captures(c, p).value.parameters
    ensures r.Success? ==>
      && (forall i | 0 <= i < |Captures(c, p).value.keys| :: |Captures(c, p).value.keys[i]| > 0)
      && r.value.builder == c.builder + (" WHERE " + WhereFilterAsWritten(c.desc.properties, p, Captures(c, p).value.keys))
  {
    if Contains(Sql(c), "WHERE") then
      Failure(InvalidOperation(AlreadyFiltered))
    else
      var w :- Captures(c, p);
      CapturedKeysNotEmpty(c, p);
      Success(Command(c.desc, c.builder + (" WHERE " + WhereFilterAsWritten(c.desc.properties, p, w.keys)), w.parameters))
  }

  /**
    `Where(predicate)` with the two passes in the order that makes every captured
    printing a placeholder: the captured printings are replaced first, then the
    parameter is dropped. Everything else is as in `WherePredicate`.
   */
  function WherePredicateCorrected(c: Command, p: Predicate): (r: Result<Command, Error>)
    ensures r.Success? <==> WherePredicate(c, p).Success?
    ensures r.Failure? ==> r.error == WherePredicate(c, p).error
    ensures r.Success? ==>
      && r.value.desc == WherePredicate(c, p).value.desc
      && r.value.parameters == WherePredicate(c, p).value.parameters
    ensures r.Success? ==>
      && (forall i | 0 <= i < |Captures(c, p).value.keys| :: |Captures(c, p).value.keys[i]| > 0)
      && r.value.builder == c.builder + (" WHERE " + WhereFilter(c.desc.properties, p, Captures(c, p).value.keys))
  {
    if Contains(Sql(c), "WHERE") then
      Failure(InvalidOperation(AlreadyFiltered))
    else
      var w :- Captures(c, p);
      CapturedKeysNotEmpty(c, p);
      Success(Command(c.desc, c.builder + (" WHERE " + WhereFilter(c.desc.properties, p, w.keys)), w.parameters))
  }

  /**
    The predicate form succeeds exactly when there is no WHERE yet and the body's
    leaves are all member accesses or constants, with every captured value met for
    the first time non-null and of a type the type map lists.
   */
  lemma WherePredicateSucceedsIff(c: Command, p: Predicate)
    ensures WherePredicate(c, p).Success? <==> !Contains(Sql(c), "WHERE") && Walkable([], Leaves(p.body))
  {
    CapturesIsFold(c, p);
    WalkLeavesSucceedsIff(WalkState(c.parameters, []), Leaves(p.body));
  }

  /**
    The parameters the predicate form adds: one per distinct captured printing, in
    the order first met, numbered on from the existing ones, each carrying the type
    and text of the first capture so printed. Existing parameters stay.
   */
  lemma WherePredicateParameters(c: Command, p: Predicate)
    requires WherePredicate(c, p).Success?
    ensures var keys := Captures(c, p).value.keys;
      && Distinct(keys)
      && (forall t :: t in keys <==> t in CaptureTexts(Leaves(p.body)))
      && ParametersFollowKeys(WalkState(c.parameters, []), WalkState(WherePredicate(c, p).value.parameters, keys), Leaves(p.body))
  {
    var s := WalkState(c.parameters, []);
    CapturesIsFold(c, p);
    WalkLeavesKeys(s, Leaves(p.body));
    WalkLeavesParameters(s, Leaves(p.body));
    var r := Captures(c, p).value;
    assert WalkState(r.parameters, r.keys) == r;
  }

  /** A predicate that captures nothing adds no parameter. */
  lemma WherePredicateWithoutCaptures(c: Command, p: Predicate)
    requires WherePredicate(c, p).Success?
    requires CaptureTexts(Leaves(p.body)) == []
    ensures WherePredicate(c, p).value.parameters == c.parameters
  {
    WherePredicateParameters(c, p);
    CapturesIsFold(c, p);
    WalkLeavesKeys(WalkState(c.parameters, []), Leaves(p.body));
    var r := WherePredicate(c, p).value;
    assert r.parameters[..|c.parameters|] == c.parameters;
  }

  /** A predicate form that succeeded shows `WHERE` in the text. */
  lemma WherePredicateShows(c: Command, p: Predicate)
    requires WherePredicate(c, p).Success?
    ensures Contains(Sql(WherePredicate(c, p).value), "WHERE")
  {
    CapturedKeysNotEmpty(c, p);
    WhereSuffixShows(c, WhereFilterAsWritten(c.desc.properties, p, Captures(c, p).value.keys), WherePredicate(c, p).value);
  }

  /** The corrected predicate form shows `WHERE` as well, so it too is refused a second time. */
  lemma WherePredicateCorrectedOnlyOnce(c: Command, p: Predicate, q: Predicate, again: Option<string>)
    requires WherePredicateCorrected(c, p).Success?
    ensures WherePredicateCorrected(WherePredicateCorrected(c, p).value, q).Failure?
    ensures WherePredicate(WherePredicateCorrected(c, p).value, q).Failure?
    ensures WhereString(WherePredicateCorrected(c, p).value, again).Failure?
  {
    CapturedKeysNotEmpty(c, p);
    WhereSuffixShows(c, WhereFilter(c.desc.properties, p, Captures(c, p).value.keys), WherePredicateCorrected(c, p).value);
  }

  /** A command whose builder is another's followed by ` WHERE ` and a filter shows `WHERE`. */
  lemma WhereSuffixShows(c: Command, filter: string, r: Command)
    requires r.builder == c.builder + (" WHERE " + filter)
    ensures Contains(Sql(r), "WHERE")
  {
    SpacedKeywordContained(" ", "WHERE", " " + filter);
    assert " " + "WHERE" + (" " + filter) == " WHERE " + filter;
    AppendedKeywordShows(c, " WHERE " + filter, "WHERE");
    assert r.builder == Append(c, " WHERE " + filter).builder;
  }

  /** Once either form has added a WHERE clause that shows, both forms refuse a second one. */
  lemma WhereOnlyOnce(c: Command, p: Predicate, where: Option<string>, q: Predicate, again: Option<string>)
    requires where.None? || !StartsWithIgnoreCase(Trim(where.value), "WHERE") || StartsWith(Trim(where.value), "WHERE")
    ensures WherePredicate(c, p).Success? ==>
      WherePredicate(WherePredicate(c, p).value, q).Failure? && WhereString(WherePredicate(c, p).value, again).Failure?
    ensures WhereString(c, where).Success? ==>
      WherePredicate(WhereString(c, where).value, q).Failure? && WhereString(WhereString(c, where).value, again).Failure?
  {
    if WherePredicate(c, p).Success? {
      WherePredicateShows(c, p);
    }
    if WhereString(c, where).Success? {
      KeywordClauseShows(c, "WHERE", where.value);
    }
  }

  // ---------------------------------------------------------------------------
  // Replacing the captured printings
  // ---------------------------------------------------------------------------

  /** No key is left in the text once every key has been replaced by `?`, as long as no key holds a `?`. */
  lemma {:induction false} ReplaceKeysRemoves(keys: seq<string>, text: string)
    requires forall i | 0 <= i < |keys| :: |keys[i]| > 0 && '?' !in keys[i]
    ensures forall i | 0 <= i < |keys| :: !Contains(ReplaceKeys(keys, text), keys[i])
    decreases |keys|
  {
    if |keys| > 0 {
      var t := ReplaceAll(text, keys[0], "?");
      ReplaceAllRemoves(text, keys[0], "?");
      ReplaceKeysKeepsOut(keys[1..], t, keys[0]);
      ReplaceKeysRemoves(keys[1..], t);
      forall i | 1 <= i < |keys| ensures !Contains(ReplaceKeys(keys, text), keys[i]) {
        assert keys[i] == keys[1..][i - 1];
      }
    }
  }

  /** Replacing keys by `?` creates no occurrence of a text free of `?`. */
  lemma {:induction false} ReplaceKeysKeepsOut(keys: seq<string>, text: string, p: string)
    requires forall i | 0 <= i < |keys| :: |keys[i]| > 0
    requires |p| > 0 && '?' !in p && !Contains(text, p)
    ensures !Contains(ReplaceKeys(keys, text), p)
    decreases |keys|
  {
    if |keys| > 0 {
      NoNewOccurrence(text, keys[0], "?", p);
      ReplaceKeysKeepsOut(keys[1..], ReplaceAll(text, keys[0], "?"), p);
    }
  }

  /** A text holding a key comes out of the replacement with a `?` in it. */
  lemma {:induction false} ReplaceKeysMarks(keys: seq<string>, text: string, i: int)
    requires forall j | 0 <= j < |keys| :: |keys[j]| > 0 && '?' !in keys[j]
    requires 0 <= i < |keys| && Contains(text, keys[i])
    ensures '?' in ReplaceKeys(keys, text)
    decreases |keys|
  {
    var t := ReplaceAll(text, keys[0], "?");
    if i == 0 {
      QuestionMarkIn(t);
      ReplaceKeysKeepsQuestionMark(keys[1..], t);
    } else {
      if Contains(text, keys[0]) {
        QuestionMarkIn(t);
        ReplaceKeysKeepsQuestionMark(keys[1..], t);
      } else {
        assert t == text;
        ReplaceKeysMarks(keys[1..], t, i - 1);
      }
    }
  }

  /** A text containing `?` holds the character `?`. */
  lemma QuestionMarkIn(t: string)
    requires Contains(t, "?")
    ensures '?' in t
  {
    if '?' !in t {
      NotContainsByChar(t, "?", 0);
    }
  }

  /** A `?` survives the replacement of keys free of `?`. */
  lemma {:induction false} ReplaceKeysKeepsQuestionMark(keys: seq<string>, text: string)
    requires forall j | 0 <= j < |keys| :: |keys[j]| > 0 && '?' !in keys[j]
    requires '?' in text
    ensures '?' in ReplaceKeys(keys, text)
    decreases |keys|
  {
    if |keys| > 0 {
      KeepsChar(text, keys[0], "?", '?');
      ReplaceKeysKeepsQuestionMark(keys[1..], ReplaceAll(text, keys[0], "?"));
    }
  }

  /** A text holding no key comes out of the replacement unchanged. */
  lemma {:induction false} ReplaceKeysUnchanged(keys: seq<string>, text: string)
    requires forall j | 0 <= j < |keys| :: |keys[j]| > 0
    requires forall j | 0 <= j < |keys| :: !Contains(text, keys[j])
    ensures ReplaceKeys(keys, text) == text
    decreases |keys|
  {
    if |keys| > 0 {
      ReplaceKeysUnchanged(keys[1..], text);
    }
  }

  // ---------------------------------------------------------------------------
  // The order of the two passes
  // ---------------------------------------------------------------------------

  /** A parameter name and its dot hold no `?`. */
  lemma ParameterPrefixLacksQuestionMark(param: Name)
    ensures '?' !in param + "."
  {
    assert forall i | 0 <= i < |param| :: IdentifierChar(param[i]);
  }

  /**
    With captures replaced first, every captured printing the body shows leaves a
    `?` behind in the text the operator passes receive.
   */
  lemma CapturesBecomePlaceholders(param: Name, keys: seq<string>, text: string, i: int)
    requires forall j | 0 <= j < |keys| :: |keys[j]| > 0 && '?' !in keys[j]
    requires 0 <= i < |keys| && Contains(text, keys[i])
    ensures '?' in StripParameter(param, ReplaceKeys(keys, text))
  {
    ReplaceKeysMarks(keys, text, i);
    ParameterPrefixLacksQuestionMark(param);
    KeepsChar(ReplaceKeys(keys, text), param + ".", "", '?');
  }

  /**
    In the source's order a captured printing that contains `param.` is no longer
    found: the parameter pass shortens it first, the key pass then changes
    nothing, and no `?` appears where the printing was.
   */
  lemma StripFirstLosesCapture(param: Name, key: string)
    requires Contains(key, param + ".")
    ensures ReplaceKeys([key], StripParameter(param, key)) == StripParameter(param, key)
    ensures '?' !in key ==> '?' !in ReplaceKeys([key], StripParameter(param, key))
  {
    var t := StripParameter(param, key);
    ReplaceAllNotLonger(key, param + ".", "");
    NotContainsLonger(t, key);
    assert ReplaceKeys([key], t) == ReplaceKeys([], ReplaceAll(t, key, "?"));
    if '?' !in key {
      AvoidsChar(key, param + ".", "", '?');
    }
  }

  /** Replacing captures first, the same printing becomes exactly `?`. */
  lemma KeysFirstKeepsCapture(param: Name, key: string)
    requires |key| > 0
    ensures StripParameter(param, ReplaceKeys([key], key)) == "?"
  {
    ReplaceAllWhole(key, "?");
    assert ReplaceKeys([key], key) == ReplaceKeys([], ReplaceAll(key, key, "?"));
    NotContainsLonger("?", param + ".");
  }

  /**
    How .NET prints a value captured in a method of the test class
    `SnowflakeCommandWhereTests`, whose namespace `Snowflake.Data.Xt.Tests` holds `a.`.
   */
  const FindingKey: string := "value(Snowflake." + "Dat" + "a." + "Xt.Tests." + "SnowflakeCommandWhereTests+<>c__" + "DisplayClass0_0)" + ".flag"

  /** The printing of `FindingKey` has no `?` and contains `a.`. */
  lemma FindingKeyFacts()
    ensures '?' !in FindingKey
    ensures Contains(FindingKey, "a.")
  {
    FindingKeyLacksQuestionMark();
    var a := "value(Snowflake." + "Dat";
    var b := "Xt.Tests." + "SnowflakeCommandWhereTests+<>c__" + "DisplayClass0_0)" + ".flag";
    assert FindingKey == a + "a." + b;
    SpacedKeywordContained(a, "a.", b);
  }

  /** No piece of `FindingKey` holds a `?`. */
  lemma FindingKeyLacksQuestionMark()
    ensures '?' !in FindingKey
  {
    FindingKeyHeadLacksQuestionMark();
    FindingKeyTailLacksQuestionMark();
  }

  /** The first three pieces of `FindingKey` hold no `?`. */
  lemma FindingKeyHeadLacksQuestionMark()
    ensures '?' !in "value(Snowflake." + "Dat" + "a."
  {
    assert '?' !in "value(Snowflake.";
    assert '?' !in "Dat" + "a.";
  }

  /** The last four pieces of `FindingKey` hold no `?`. */
  lemma FindingKeyTailLacksQuestionMark()
    ensures '?' !in "Xt.Tests." + "SnowflakeCommandWhereTests+<>c__" + "DisplayClass0_0)" + ".flag"
  {
    assert '?' !in "Xt.Tests.";
    assert '?' !in "SnowflakeCommandWhereTests+<>c__";
    assert '?' !in "DisplayClass0_0)";
    assert '?' !in ".flag";
  }

  /** A `bool` local `flag` of such a test, captured by the lambda and holding `true`. */
  const FindingCapture: Expr := Member(FindingKey, Some(Boxed(TypeMap.Value(TypeMap.ValueType.Boolean, false), "True")))

  /** The predicate `a => flag`: its body is the capture itself. */
  const FindingPredicate: Predicate := Predicate("a", FindingCapture)

  /**
    On `a => flag`, in the source's order the captured printing keeps no `?`, and in
    the corrected order it becomes `?`.
   */
  lemma WhereFinding()
    ensures var p := FindingPredicate;
      && '?' !in ReplaceKeys([FindingKey], StripParameter(p.param, Render(p.body, 0)))
      && StripParameter(p.param, ReplaceKeys([FindingKey], Render(p.body, 0))) == "?"
  {
    FindingKeyFacts();
    assert "a" + "." == "a.";
    StripFirstLosesCapture("a", FindingKey);
    KeysFirstKeepsCapture("a", FindingKey);
  }

  /** The walk over `a => flag` adds one `Boolean` parameter and the one key. */
  lemma FindingCaptureWalks(c: Command)
    ensures IsCapture(FindingCapture) && Mapped(FindingCapture)
    ensures Captures(c, FindingPredicate)
      == Success(WalkState(c.parameters + [ParameterOf(|c.parameters|, FindingCapture)], [FindingKey]))
  {
    assert FindingKey[..6] == "value(";
    assert OccursAt(FindingKey, "value(", 0);
    OccursAtContains(FindingKey, "value(", 0);
    var s := WalkState(c.parameters, []);
    assert Fresh(s.keys, FindingCapture);
    assert Walk.Walk(s, Lambda("a", FindingCapture)) == Visit(s, FindingCapture);
    assert s.keys + [FindingKey] == [FindingKey];
  }

  /**
    `Where(a => flag)` on a command without a WHERE clause, both ways: each adds the
    same parameter for `flag`, but only the corrected form puts the placeholder `?`
    for it into the SQL; the filter as written holds no `?` at all, provided no
    property's `alias.column` does.
   */
  lemma WherePredicateFinding(c: Command)
    requires !Contains(Sql(c), "WHERE")
    requires forall i | 0 <= i < |c.desc.properties| :: '?' !in c.desc.properties[i].qualified
    ensures Mapped(FindingCapture)
    ensures WherePredicate(c, FindingPredicate).Success? && WherePredicateCorrected(c, FindingPredicate).Success?
    ensures WherePredicate(c, FindingPredicate).value.parameters == c.parameters + [ParameterOf(|c.parameters|, FindingCapture)]
    ensures WherePredicateCorrected(c, FindingPredicate).value.parameters == WherePredicate(c, FindingPredicate).value.parameters
    ensures WherePredicateCorrected(c, FindingPredicate).value.builder == c.builder + " WHERE ?"
    ensures WherePredicate(c, FindingPredicate).value.builder
      == c.builder + (" WHERE " + WhereFilterAsWritten(c.desc.properties, FindingPredicate, [FindingKey]))
    ensures '?' !in WhereFilterAsWritten(c.desc.properties, FindingPredicate, [FindingKey])
  {
    FindingCaptureWalks(c);
    WhereFinding();
    var props := c.desc.properties;
    var stripped := ReplaceKeys([FindingKey], StripParameter("a", FindingKey));
    OperatorsAvoidQuestionMark(stripped, 0);
    RewriteAvoidsQuestionMark(props, Operators(stripped));
    TrimAvoidsQuestionMark(RewriteMembers(props, Operators(stripped)));
    OperatorsKeepQuestionMark(0);
    RewriteLeavesQuestionMark(props);
    TrimUnpadded("?");
  }

  /** The operator passes bring in no `?`. */
  lemma {:induction false} OperatorsAvoidQuestionMark(t: string, stage: nat)
    requires stage <= 3 && '?' !in t
    ensures '?' !in OperatorsFrom(t, stage)
    decreases 3 - stage
  {
    if stage < 3 {
      AvoidsChar(t, Token(stage), SqlToken(stage), '?');
      OperatorsAvoidQuestionMark(OperatorPass(t, stage), stage + 1);
    }
  }

  /** The operator passes leave a lone `?` as it is: every token is longer. */
  lemma {:induction false} OperatorsKeepQuestionMark(stage: nat)
    requires stage <= 3
    ensures OperatorsFrom("?", stage) == "?"
    decreases 3 - stage
  {
    if stage < 3 {
      NotContainsLonger("?", Token(stage));
      OperatorsKeepQuestionMark(stage + 1);
    }
  }

  /** Rewriting members to `alias.column` texts free of `?` brings in no `?`. */
  lemma {:induction false} RewriteAvoidsQuestionMark(props: seq<Property>, t: string)
    requires forall i | 0 <= i < |props| :: '?' !in props[i].qualified
    requires '?' !in t
    ensures '?' !in RewriteMembers(props, t)
    decreases |props|
  {
    if |props| > 0 {
      AvoidsChar(t, props[0].member, props[0].qualified, '?');
      RewriteAvoidsQuestionMark(props[1..], ReplaceAll(t, props[0].member, props[0].qualified));
    }
  }

  /** A lone `?` holds no member name, so rewriting leaves it as it is. */
  lemma RewriteLeavesQuestionMark(props: seq<Property>)
    ensures RewriteMembers(props, "?") == "?"
  {
    forall j | 0 <= j < |props| ensures !Contains("?", props[j].member) {
      assert IdentifierChar(props[j].member[0]);
      NotContainsByChar("?", props[j].member, 0);
    }
    Projection.RewriteUntouched(props, "?");
  }

  /** Trimming brings in no character. */
  lemma TrimAvoidsQuestionMark(s: string)
    requires '?' !in s
    ensures '?' !in Trim(s)
  {
    var t := Trim(s);
    forall k | 0 <= k < |t| ensures t[k] != '?' {
      assert t[k] == s[TrimLo(s) + k];
    }
  }
}

=== FILE: wrappers.dfy ===
/** Failure-compatible result types shared by every module of the model. */
module Wrappers {

  /** A value that may be absent; the model's rendering of a nullable reference. */
  datatype Option<+T> = None | Some(value: T)

  /** The outcome of an operation that either produces a value or raises an exception. */
  datatype Result<+T, +E> = Success(value: T) | Failure(error: E) {

    predicate IsFailure() {
      Failure?
    }

    function PropagateFailure<U>(): Result<U, E>
      requires Failure?
    {
      Failure(error)
    }

    function Extract(): T
      requires Success?
    {
      value
    }
  }
}
